=== FILE: README.md ===
# Brand Sight Atlas: the client-side metric layer

This project models the part of the Brand Sight Atlas retail-analytics
dashboard that turns rows into numbers and numbers into labels. Each module
below stands for one source file:

- `Aggregation` models the group-by-platform aggregator.
- `Metrics` models the null-aware metric helpers. They cover availability %,
  mean, presence %, average rank among present ranks, the complete-date
  filter, truncation to a chart limit, the validity check and the null display.
- `Insights` models the insight rule engine and its hedging transform.
- `DateRangeContext` models the date-range state as a class. It holds
  `preset` and `range`, and its `SetPreset` and `SetCustomRange` methods
  update them.
- `KeyTakeaways` models the trend classifier, the weekly averaging loop and
  the three take-away bullets.
- `ExecutionDiagnostics` models:
  - gap severity and the vendor gaps;
  - the category map and its sort;
  - distinct location and week counts;
  - performance-band counting;
  - the coverage rows and the coverage-imbalance callout;
  - the category cell colour.
- `VendorHealth` models the platform-row filter with its null fill, and `computeGap`.
- `AvailabilityTrend` and `SearchVisibilityTrend` model the two volatility
  classifiers. The generated series they share lives in `TrendVolatility`.
- `PincodeScatter` models the point colour, the generated points and the
  high-volatility count.
- `DataStatus` models the freshness text, the coverage table and the
  missing-dates condition.

`Wrappers` (Option), `RealSeqs` (sums and means of reals), `Grouping`
(JavaScript `Map` insertion order), `Sorting` (the stable
`Array.prototype.sort`), `JsStrings` (`includes`) and `DashboardVariant`
(`"ola" | "sos"`) are shared by these modules.

Modelling conventions:
- A JavaScript `Map` filled in a loop is a key sequence in first-appearance
  order plus a member function.
- A row is a `map<string, Value>`, and a key missing from it is `undefined`.
- Metric values are `real`, and nullable columns are `Option<real>`.
- `localeCompare` on ISO week strings is lexicographic code-unit order (`StrLe`).
- `Math.random()`, the clock and number formatting are parameters.

The loops that the source writes as loops are methods. Each method is proved
equal to a function, with loop invariants and step lemmas. They are:
- `AggregateByPlatform`, together with `GroupByPlatform`, `AggregateNumericColumns` and `CopyMissingColumns`;
- `AverageByWeek`;
- `BuildCategoryRows`;
- `CollectDistinct`;
- `CountBands`;
- `ComputeGaps`;
- the insight generators.

The properties are then proved about those functions.

Two behaviours of the source are worth knowing before reading the contracts:
- `setCustomRange` stores `(from, to)` as given. Nothing orders or checks the
  pair, so a custom range can have `from > to`.
- The date-range context phrases "90d" as "over the past 90 days", while
  `getTimePhrasing` phrases it as "over the past quarter".
  `DateRangeContext.PhrasesAgreeWithInsights` and `DateRangeContext.TimePhraseOf` state this mismatch.

## Model

| member | source | states |
|---|---|---|
| Aggregation.AggregateByPlatform | src/lib/aggregation.ts:11-55 | the loop over the rows and then over the groups returns exactly `AggregatedRows`: one `AggregateRow` per group, in group order |
| Aggregation.AggregatedRows | src/lib/aggregation.ts:11-55 | one output record per distinct truthy platform |
| Aggregation.AggregateRow | src/lib/aggregation.ts:27-52 | the record holds `platform`, equal to the group key unless `platform` is itself a numeric key; every numeric key holds its column aggregate; every key of the group's first row is present |
| Aggregation.ColumnAggregate | src/lib/aggregation.ts:30-42 | null exactly when the column has no values, otherwise a number; in avg mode that number lies between the column's least and greatest value |
| Aggregation.GroupByPlatform | src/lib/aggregation.ts:16-23 | the grouping loop leaves `order` equal to the distinct truthy platforms in first-appearance order, and each group equal to that platform's rows in input order |
| Aggregation.GroupedRecords | src/lib/aggregation.ts:27-52 | every grouped platform has a non-empty group, and the j-th output record is the aggregate of the j-th platform's group |
| Aggregation.BuildAggregate | src/lib/aggregation.ts:28-49 | building one record (numeric columns first, then the fallback copy) gives `AggregateRow` |
| Aggregation.BuiltIsAggregateRow | src/lib/aggregation.ts:28-49 | the record built by the two loops equals `AggregateRow` |
| Aggregation.AggregateNumericColumns | src/lib/aggregation.ts:28-42 | the record has exactly `platform` plus the numeric keys; a numeric key holds the column aggregate, `platform` holds the group key |
| Aggregation.AggregateColumn | src/lib/aggregation.ts:31-41 | one pass of the column loop yields `ColumnAggregate` |
| Aggregation.CopyMissingColumns | src/lib/aggregation.ts:44-49 | the fallback copy adds the first row's missing keys and never overwrites a key already set (for column names that are not `Object.prototype` names) |
| Aggregation.NoValuesIffAllNull | src/lib/aggregation.ts:31-36 | a column has no values exactly when every row of the group lacks it or holds null |
| Aggregation.ColumnValuesExactly | src/lib/aggregation.ts:31-33 | the collected values are exactly the numbers the group's rows hold in the column |
| Aggregation.NumericColumnAggregate | src/lib/aggregation.ts:35-41 | a numeric column is null iff all its values are null/undefined; in sum mode it is the sum of the values; in avg mode it is their mean and lies between two of the group's values |
| Aggregation.PassthroughColumns | src/lib/aggregation.ts:28-49 | the record's keys are the first row's keys, `platform` and the numeric keys; `platform` is the group key; every other column is copied from the first row (for column names that are not `Object.prototype` names) |
| Aggregation.OneRecordPerPlatform | src/lib/aggregation.ts:16-27 | one record per distinct truthy platform, each platform from some row, no duplicate, records in first-appearance order |
| Aggregation.GroupIsRowsOfPlatform | src/lib/aggregation.ts:18-23 | a row is in platform p's group iff it is an input row whose truthy platform is p |
| Aggregation.FalsyPlatformIgnored | src/lib/aggregation.ts:19-20 | inserting a row with a missing or falsy platform anywhere leaves the output unchanged |
| Aggregation.EmptyInput | src/lib/aggregation.ts:16-25 | no rows give no records |
| Grouping.Members | src/lib/aggregation.ts:21-22 | a key has a non-empty member list exactly when it is among the grouped keys |
| Grouping.KeysDistinct | src/lib/aggregation.ts:21 | `groups.has(p)` before `set`: the key sequence has no duplicate |
| Grouping.KeysExactly | src/lib/aggregation.ts:18-21 | a key is grouped iff some element yields it |
| Grouping.KeysInFirstAppearanceOrder | src/lib/aggregation.ts:27 | an earlier key first appears before any occurrence of a later key |
| Grouping.MembersExactly | src/lib/aggregation.ts:22 | a value is a member of key k iff some element yields (k, value) |
| Grouping.SkippedElementIgnored | src/lib/aggregation.ts:20 | an element that yields no entry changes neither keys nor members |
| Grouping.SnocKeys | src/lib/aggregation.ts:21 | one more element appends its key only when it is new |
| Grouping.SnocMembers | src/lib/aggregation.ts:22 | one more element appends its value to its own key's members only |
| Metrics.CalculateAvailabilityPct | src/lib/metrics.ts:82-87 | null iff every value is null (or there is none); otherwise within [0, 100] |
| Metrics.AvailabilityPctCounts | src/lib/metrics.ts:83-86 | the result is 100 × #true / #non-null, read off the multiset of values, null when nothing is known |
| Metrics.AvailabilityPctIgnoresNulls | src/lib/metrics.ts:83 | inserting a null anywhere leaves availability unchanged |
| Metrics.AvailabilityPctIgnoresOrder | src/lib/metrics.ts:82-87 | availability depends only on the multiset of values |
| Metrics.KnownCounts | src/lib/metrics.ts:83-85 | the non-null filter keeps all but the nulls, and the true-count is the number of `true` inputs |
| Metrics.CalculateAverage | src/lib/metrics.ts:93-97 | null iff every value is null |
| Metrics.AverageBetweenValues | src/lib/metrics.ts:94-96 | a non-null average is the mean of the non-null values and lies between two of them |
| Metrics.AverageIgnoresNulls | src/lib/metrics.ts:94 | inserting a null anywhere leaves the average unchanged |
| Metrics.KnownMembers | src/lib/metrics.ts:94 | x survives the null filter iff `Some(x)` is an input |
| Metrics.KnownAppend | src/lib/metrics.ts:94 | the null filter distributes over concatenation |
| Metrics.Known | src/lib/metrics.ts:83 | the null filter keeps at most its input, and keeps nothing iff every value is null (also line 94) |
| Metrics.PresentRanks | src/lib/metrics.ts:113 | the present ranks are at most the input and all within the limit |
| Metrics.PresentRanksAppend | src/lib/metrics.ts:113 | the present-rank filter distributes over concatenation |
| Metrics.CalculatePresencePct | src/lib/metrics.ts:103-107 | null iff there are no ranks; otherwise within [0, 100] |
| Metrics.NullRankCountsAsAbsent | src/lib/metrics.ts:101-106 | a null rank counts exactly like a rank beyond the threshold, and adding one never raises presence |
| Metrics.PresentRanksMembers | src/lib/metrics.ts:105 | a rank is present iff it is a non-null input no greater than the limit (also line 113) |
| Metrics.CalculateAvgRankWithPresence | src/lib/metrics.ts:112-116 | null iff no rank is non-null and ≤ 25; a result is ≤ 25, and positive when all ranks are positive |
| Metrics.PresentRankMeanBounds | src/lib/metrics.ts:113-115 | the mean of the present ranks is ≤ 25, positive for positive ranks, and some input rank qualifies |
| Metrics.NoPresentRanks | src/lib/metrics.ts:113-114 | with no present rank, every rank is null or above the limit |
| Metrics.FilterCompleteDates | src/lib/metrics.ts:122-134 | keeps at most the input, and only complete dates (total ≠ 0, null share ≤ threshold) |
| Metrics.FilterCompleteDatesExactly | src/lib/metrics.ts:128-133 | an item is kept iff it is an input item that is complete |
| Metrics.FilterCompleteDatesAppend | src/lib/metrics.ts:128 | the filter distributes over concatenation, so it keeps the input order |
| Metrics.FilterCompleteDatesKeepsComplete | src/lib/metrics.ts:128-133 | a list of complete dates is returned unchanged |
| Metrics.FilterCompleteDatesIdempotent | src/lib/metrics.ts:128-133 | filtering twice is filtering once |
| Metrics.TruncateToLimit | src/lib/metrics.ts:139-152 | `hasMore` iff length > limit; otherwise the items unchanged and 0 remaining; otherwise `remainingCount` = length − limit and `limit` items, always a prefix |
| Metrics.TruncationLosesNothing | src/lib/metrics.ts:144-151 | for a non-negative limit, kept items plus the rest is the input and kept + remaining = length |
| Metrics.TruncationNegativeLimit | src/lib/metrics.ts:147-151 | a negative limit reports more items remaining than exist and keeps `slice(0, limit)`, counted from the end |
| Metrics.SliceEnd | src/lib/metrics.ts:148 | `slice`'s end index stays within the length and is the end itself when it is in range |
| Metrics.HasValidData | src/lib/metrics.ts:157-159 | valid iff the value is a number: not null, not undefined and not NaN |
| Metrics.FormatMetricValue | src/lib/metrics.ts:164-181 | null shows "—"; a percentage ends in "%" and a rank starts with "#" |
| Insights.GetTimePhrasing | src/lib/insights.ts:46-75 | the phrasing is one of the four tables, and it is the 30-day one exactly when the preset is not "7d", "90d" or "ytd" (for presets that are not `Object.prototype` names) |
| Insights.TimePhrasingFallback | src/lib/insights.ts:46-75 | any other preset that is not an `Object.prototype` name reads like "30d"; no other known preset does; every phrasing is one of the four |
| Insights.ApplyProbabilisticLanguage | src/lib/insights.ts:80-97 | complete coverage returns the text unchanged, and hedging never shortens it |
| Insights.CompleteCoverageUnchanged | src/lib/insights.ts:86-88 | complete coverage returns the description unchanged |
| Insights.HedgeChangesOnlyTheStart | src/lib/insights.ts:90-96 | with partial or limited coverage, already-hedged text is unchanged; other text becomes the prefix followed by the text with its first letter lower-cased, the rest untouched |
| Insights.HedgedResult | src/lib/insights.ts:90-96 | a hedged description starts (ignoring case) with "available" or "limited" (also lines 31-38) |
| Insights.HedgeIdempotent | src/lib/insights.ts:90-96 | hedging a hedged description again, under any coverage, changes nothing (also lines 31-38) |
| Insights.LowerFirst | src/lib/insights.ts:93 | same length; only the first character is lower-cased |
| Insights.PickVerb | src/lib/insights.ts:115 | the drawn verb is one of the coverage's three verbs (the verb lists at lines 25-41) |
| Insights.Verbs | src/lib/insights.ts:25-41 | each coverage level offers three verbs |
| Insights.GenerateOLAInsights | src/lib/insights.ts:102-177 | the pushes build exactly `OLAInsights` for the drawn verb |
| Insights.OLAInsights | src/lib/insights.ts:102-177 | at most three insights: one alert, one warning and one info rule at most |
| Insights.PushOLAAlert | src/lib/insights.ts:118-128 | the alert step appends exactly the alert part to what was pushed before |
| Insights.PushOLAWarning | src/lib/insights.ts:131-151 | the warning step appends exactly the warning part |
| Insights.PushOLAInfo | src/lib/insights.ts:154-174 | the info step appends exactly the info part |
| Insights.OLAInsightRules | src/lib/insights.ts:113-176 | at most 3 insights in alert/warning/info order, distinct ids, hedged descriptions; "ola-1" iff skusAtRisk > 5; "ola-2" is the decline warning iff weeklyChange < −2, else the must-have warning iff mustHave < 90; "ola-3" is momentum iff weeklyChange > 2, else top-pack iff topPacks ≥ 90 |
| Insights.OLAInsightsFire | src/lib/insights.ts:118-174 | which OLA ids and titles appear, each as an if-and-only-if of its threshold |
| Insights.OLAInsightsWellFormed | src/lib/insights.ts:113-176 | OLA insights are well formed and use only ids ola-1..3 |
| Insights.OLAAlertRule | src/lib/insights.ts:118-128 | the alert is one hedged "ola-1" insight iff skusAtRisk > 5 |
| Insights.OLAWarningRule | src/lib/insights.ts:131-151 | the warning is present iff weeklyChange < −2 or mustHave < 90, titled by the first condition that holds |
| Insights.OLAInfoRule | src/lib/insights.ts:154-174 | the info is present iff weeklyChange > 2 or topPacks ≥ 90, titled by the first condition that holds |
| Insights.GenerateSoSInsights | src/lib/insights.ts:182-257 | the pushes build exactly `SoSInsights` for the drawn verb |
| Insights.SoSInsights | src/lib/insights.ts:182-257 | at most three insights: one alert, one warning and one info rule at most |
| Insights.PushSoSAlert | src/lib/insights.ts:198-208 | the alert step appends exactly the alert part to what was pushed before |
| Insights.PushSoSWarning | src/lib/insights.ts:211-231 | the warning step appends exactly the warning part |
| Insights.PushSoSInfo | src/lib/insights.ts:234-254 | the info step appends exactly the info part |
| Insights.SoSInsightRules | src/lib/insights.ts:193-256 | at most 3 insights in order, distinct ids, hedged; "sos-1" iff keywordsBelowTop20 > 5; "sos-2" rank decline iff rankChange > 2, else page-1 iff page1 < 50; "sos-3" improvement iff rankChange < −1, else strong presence iff sosPresence ≥ 80 |
| Insights.SoSInsightsFire | src/lib/insights.ts:198-254 | which SoS ids and titles appear, each as an if-and-only-if of its threshold |
| Insights.SoSInsightsWellFormed | src/lib/insights.ts:193-256 | SoS insights are well formed and use only ids sos-1..3 |
| Insights.SoSAlertRule | src/lib/insights.ts:198-208 | the alert is one hedged "sos-1" insight iff keywordsBelowTop20 > 5 |
| Insights.SoSWarningRule | src/lib/insights.ts:211-231 | the warning is present iff rankChange > 2 or page1 < 50, titled by the first condition that holds |
| Insights.SoSInfoRule | src/lib/insights.ts:234-254 | the info is present iff rankChange < −1 or sosPresence ≥ 80, titled by the first condition that holds |
| Insights.ThreeParts | src/lib/insights.ts:113-176 | three optional pushes with distinct ids in alert/warning/info order form a well-formed list whose ids and titles are the pushed ones |
| Insights.GenerateDecisionSummary | src/lib/insights.ts:262-278 | the summary has as many items as the input |
| Insights.DecisionSummaryQualifiesFirstOnly | src/lib/insights.ts:266-277 | complete coverage returns the items; otherwise only item 0 changes, to the qualifier plus its lower-cased-first form |
| DateRangeContext.RangeFromPreset | src/contexts/DateRangeContext.tsx:22-36 | ends today; from ≤ to; 7, 30 or 90 days back, the start of the year for "ytd", 30 days for anything else |
| DateRangeContext.DateRangeState.constructor | src/contexts/DateRangeContext.tsx:39-40 | the initial state is "30d" with its range |
| DateRangeContext.DateRangeState.SetPreset | src/contexts/DateRangeContext.tsx:42-47 | sets the preset; a non-custom preset replaces the range with its own; "custom" keeps the old range |
| DateRangeContext.DateRangeState.SetCustomRange | src/contexts/DateRangeContext.tsx:49-52 | sets "custom" and stores exactly (from, to) |
| DateRangeContext.LabelOf | src/contexts/DateRangeContext.tsx:54-62 | the label shows the range's ends exactly for "custom" |
| DateRangeContext.TimePhraseOf | src/contexts/DateRangeContext.tsx:64-72 | "7d", "30d" and "ytd" read as `getTimePhrasing` reads them; "90d" reads differently |
| DateRangeContext.FixedTextsDistinct | src/contexts/DateRangeContext.tsx:54-72 | different non-custom presets have different labels and phrases |
| DateRangeContext.CustomTextsDiffer | src/contexts/DateRangeContext.tsx:54-72 | custom's label and phrase differ from every other preset's (the custom branches at lines 60 and 70) |
| DateRangeContext.FixedLabelIgnoresRange | src/contexts/DateRangeContext.tsx:56-59 | a non-custom label does not depend on the range |
| DateRangeContext.PresetRangesNested | src/contexts/DateRangeContext.tsx:25-30 | the 90-day range starts before the 30-day range, which starts before the 7-day range |
| DateRangeContext.PhrasesAgreeWithInsights | src/contexts/DateRangeContext.tsx:64-72 | the context's phrase equals the insight helpers' phrase for every non-custom preset except "90d" |
| KeyTakeaways.Classify | src/components/dashboard/KeyTakeaways.tsx:43-46 | up iff diff > 0.005, down iff diff < −0.005, flat otherwise |
| KeyTakeaways.TrendDirection | src/components/dashboard/KeyTakeaways.tsx:40 | fewer than two rows are flat |
| KeyTakeaways.TrendUsesLatestTwo | src/components/dashboard/KeyTakeaways.tsx:41-45 | the direction classifies (latest value − previous value), null as 0, where the latest row has no later week than any row and the previous no later week than the rest; both are input rows |
| KeyTakeaways.TrendIgnoresInputOrder | src/components/dashboard/KeyTakeaways.tsx:41-42 | for rows with distinct weeks, the direction does not depend on their order |
| KeyTakeaways.TrendOfTwo | src/components/dashboard/KeyTakeaways.tsx:41-45 | two rows in either order compare the later week's value against the earlier's |
| KeyTakeaways.WeekLeTotalPreorder | src/components/dashboard/KeyTakeaways.tsx:41 | the week comparator is total and transitive |
| KeyTakeaways.AverageByWeek | src/components/dashboard/KeyTakeaways.tsx:80-91 | the collecting loop and the averaging map give exactly `WeeklyAverages` |
| KeyTakeaways.WeeklyAverages | src/components/dashboard/KeyTakeaways.tsx:88-91 | one point per collected week |
| KeyTakeaways.WeeklyAverageOfCollected | src/components/dashboard/KeyTakeaways.tsx:80-91 | each point's week is non-empty and its value is the mean of that week's non-null values (so between their min and max), which are exactly the values of that week's rows |
| KeyTakeaways.WeeklyAveragesDistinct | src/components/dashboard/KeyTakeaways.tsx:80-88 | no two points share a week |
| KeyTakeaways.WeeklyTrendIgnoresOrder | src/components/dashboard/KeyTakeaways.tsx:88-92 | any rearrangement of the weekly points gives the same direction |
| KeyTakeaways.SkippedTrendRowIgnored | src/components/dashboard/KeyTakeaways.tsx:82 | a row with an empty week or a null value changes nothing |
| KeyTakeaways.Takeaways | src/components/dashboard/KeyTakeaways.tsx:68-105 | no health rows give no bullets; otherwise three bullets: comparison or overall, trend, focus or maintain |
| KeyTakeaways.ComparisonNamesExtremes | src/components/dashboard/KeyTakeaways.tsx:70-77 | a comparison names two different platforms, the highest and the lowest headline (null as 0); otherwise the overall bullet names a highest row, `health[0]` for a single row |
| KeyTakeaways.SortedExtremes | src/components/dashboard/KeyTakeaways.tsx:70-72 | the descending sort puts a highest headline first and a lowest last |
| KeyTakeaways.HeadlineLeTotalPreorder | src/components/dashboard/KeyTakeaways.tsx:70 | the descending headline comparator (null as 0) is total and transitive |
| KeyTakeaways.TrendBulletFollowsWeeks | src/components/dashboard/KeyTakeaways.tsx:79-97 | the second bullet is the direction of the weekly averages, flat with fewer than two weeks |
| KeyTakeaways.ActionTargetsFirstBelow | src/components/dashboard/KeyTakeaways.tsx:99-103 | "maintain" iff no row is below target; otherwise the first row below 0.9 (OLA) or 0.3 (SoS); a row whose action metric is null is never below target (also lines 146-150) |
| KeyTakeaways.BulletText | src/components/dashboard/KeyTakeaways.tsx:75-103 | every bullet is a non-empty sentence ending in a full stop |
| KeyTakeaways.FindBelowTarget | src/components/dashboard/KeyTakeaways.tsx:100 | `find` returns the first row below target, or none when no row is (also line 147) |
| Sorting.SortBy | src/components/dashboard/KeyTakeaways.tsx:41 | the sort is a permutation of its input |
| Sorting.SortBySorted | src/components/dashboard/KeyTakeaways.tsx:41 | for a total preorder the result is ordered |
| Sorting.SortedUnique | src/components/dashboard/KeyTakeaways.tsx:41 | two ordered arrangements of the same elements coincide when only equal elements tie |
| Sorting.SortedEnds | src/components/dashboard/KeyTakeaways.tsx:70-72 | the first sorted element comes no later than any input, the last no earlier, both are inputs |
| Sorting.SortTwo | src/components/dashboard/KeyTakeaways.tsx:41 | two strictly ordered elements come out in order from either input order |
| Sorting.StrLeTotal | src/components/dashboard/KeyTakeaways.tsx:41 | code-unit order is total |
| Sorting.StrLeTransitive | src/components/dashboard/KeyTakeaways.tsx:41 | code-unit order is transitive |
| Sorting.StrLeAntisymmetric | src/components/dashboard/KeyTakeaways.tsx:41 | code-unit order ties only equal strings |
| TrendVolatility.Steps | src/components/dashboard/AvailabilityTrendChart.tsx:27 | one step fewer than points, none for an empty series, each step ≥ 0 |
| TrendVolatility.MeanStep | src/components/dashboard/AvailabilityTrendChart.tsx:28 | the mean step is ≥ 0 |
| TrendVolatility.NetChange | src/components/dashboard/AvailabilityTrendChart.tsx:29 | the net change is positive iff the last point is above the first; a single point has none |
| TrendVolatility.Classify | src/components/dashboard/AvailabilityTrendChart.tsx:25-33 | stable below two points; volatile iff the mean step exceeds the step limit; improving iff not volatile and the net change exceeds the change limit |
| TrendVolatility.NetChangeAtMostPath | src/components/dashboard/AvailabilityTrendChart.tsx:27-29 | the net change is at most the sum of the steps in absolute value |
| TrendVolatility.ImprovementNeedsMovement | src/components/dashboard/AvailabilityTrendChart.tsx:28-32 | a net change above a limit forces a mean step above limit / (n − 1) |
| TrendVolatility.ConstantSeriesStable | src/components/dashboard/SearchVisibilityTrendChart.tsx:27-33 | a flat series has mean step 0 and is stable for non-negative limits |
| TrendVolatility.PointCount | src/components/dashboard/AvailabilityTrendChart.tsx:7 | a preset gets 6, 7, 12 or 15 points, and 6 exactly when it is none of "7d", "30d", "90d" |
| TrendVolatility.DaysAgo | src/components/dashboard/AvailabilityTrendChart.tsx:11 | every generated point lies 0 to 150 days back |
| TrendVolatility.SeriesSpan | src/components/dashboard/AvailabilityTrendChart.tsx:7-11 | the last point is today, later points are no further back, and the first point is 6, 28, 82 or 150 days back |
| AvailabilityTrend.CalculateVolatility | src/components/dashboard/AvailabilityTrendChart.tsx:24-34 | score 0 and stable below two points; otherwise the score is the mean step (≥ 0) and the trend uses limits 3 and 2 |
| AvailabilityTrend.VolatileFirst | src/components/dashboard/AvailabilityTrendChart.tsx:31 | volatile iff the score exceeds 3, whatever the net change |
| AvailabilityTrend.ImprovingExactly | src/components/dashboard/AvailabilityTrendChart.tsx:29-32 | improving iff at least two points, score ≤ 3 and last − first > 2 |
| AvailabilityTrend.ImprovingScore | src/components/dashboard/AvailabilityTrendChart.tsx:28-32 | an improving series has a score above 2 / (n − 1) |
| SearchVisibilityTrend.CalculateVolatility | src/components/dashboard/SearchVisibilityTrendChart.tsx:24-34 | the shared classifier with limits 4 and 3 |
| SearchVisibilityTrend.VolatileFirst | src/components/dashboard/SearchVisibilityTrendChart.tsx:27-31 | volatile iff the mean step exceeds 4 |
| SearchVisibilityTrend.ImprovingExactly | src/components/dashboard/SearchVisibilityTrendChart.tsx:29-32 | improving iff at least two points, mean step ≤ 4 and last − first > 3 |
| SearchVisibilityTrend.ConstantIsStable | src/components/dashboard/SearchVisibilityTrendChart.tsx:33 | a constant series is stable |
| ExecutionDiagnostics.GapStatus | src/components/dashboard/ExecutionDiagnostics.tsx:39-43 | success iff gap ≤ threshold/2; warning iff threshold/2 < gap ≤ threshold; danger otherwise |
| ExecutionDiagnostics.GapStatusMonotone | src/components/dashboard/ExecutionDiagnostics.tsx:39-43 | a larger gap is never less severe |
| ExecutionDiagnostics.AddGap | src/components/dashboard/ExecutionDiagnostics.tsx:92-105 | the gap is \|va − vb\| with null as 0 and is ≥ 0; `gapPP` is `ScaleGap` of that gap; the status is `gapStatus` of `gapPP`; the record names both platforms (also lines 184-198) |
| ExecutionDiagnostics.GapSymmetric | src/components/dashboard/ExecutionDiagnostics.tsx:93-95 | swapping the vendors keeps gap and status; each platform maps to its own value, the second vendor winning a shared name (also lines 185-187) |
| ExecutionDiagnostics.GapScaling | src/components/dashboard/ExecutionDiagnostics.tsx:188-202 | OLA gaps are scaled × 100; SoS gaps are scaled only for the two "pct" keys (OLA scaling at line 96) |
| ExecutionDiagnostics.ScaleGap | src/components/dashboard/ExecutionDiagnostics.tsx:188-189 | OLA gaps, and SoS gaps of a "pct" column, are scaled by 100 into percentage points; other SoS gaps stay as they are; scaling never shrinks a non-negative gap (also line 96) |
| ExecutionDiagnostics.PctKeys | src/components/dashboard/ExecutionDiagnostics.tsx:188-202 | the presence and elite keys contain "pct", the volatility key does not |
| ExecutionDiagnostics.Gaps | src/components/dashboard/ExecutionDiagnostics.tsx:88 | no gaps unless there are exactly two vendors, then three (also line 180) |
| ExecutionDiagnostics.GapDefs | src/components/dashboard/ExecutionDiagnostics.tsx:92-109 | each variant compares three metrics (also lines 184-202) |
| ExecutionDiagnostics.ComputeGaps | src/components/dashboard/ExecutionDiagnostics.tsx:88-112 | the pushes give exactly `Gaps` (also lines 180-205) |
| ExecutionDiagnostics.Record | src/components/dashboard/ExecutionDiagnostics.tsx:116-121 | a category's record is empty iff the category never occurs, and its keys are its platforms (for platform names other than `__proto__`) |
| ExecutionDiagnostics.RecordPlatforms | src/components/dashboard/ExecutionDiagnostics.tsx:117-120 | a platform is in a category's record iff some row has that category and platform (for platform names other than `__proto__`) |
| ExecutionDiagnostics.LastWriteWins | src/components/dashboard/ExecutionDiagnostics.tsx:120 | a category's value for a platform is the value of the last row with that category and platform (for platform names other than `__proto__`) |
| ExecutionDiagnostics.CategoryCellShowsLastWrite | src/components/dashboard/ExecutionDiagnostics.tsx:351 | a category cell (`CategoryCell`, `row.platforms[p] ?? null`) is null when no row has that category and platform, and a value it shows is the last such row's value (for platform names other than `__proto__`) |
| ExecutionDiagnostics.CategoryRows | src/components/dashboard/ExecutionDiagnostics.tsx:122-123 | one row per distinct category |
| ExecutionDiagnostics.CategoryRowsExactly | src/components/dashboard/ExecutionDiagnostics.tsx:116-123 | categories are distinct, exactly those that occur, each with at least one platform |
| ExecutionDiagnostics.SortedCategoriesAscending | src/components/dashboard/ExecutionDiagnostics.tsx:122-128 | the displayed rows are a permutation of the category rows, in ascending order of their average (null as 0) |
| ExecutionDiagnostics.RowAverage | src/components/dashboard/ExecutionDiagnostics.tsx:125-126 | a category's sort key lies between its least and greatest platform value |
| ExecutionDiagnostics.AverageLeTotalPreorder | src/components/dashboard/ExecutionDiagnostics.tsx:122-128 | the ascending average comparator is total and transitive |
| ExecutionDiagnostics.BuildCategoryRows | src/components/dashboard/ExecutionDiagnostics.tsx:115-129 | the loop and the sort give exactly `SortedCategories` |
| ExecutionDiagnostics.CollectDistinct | src/components/dashboard/ExecutionDiagnostics.tsx:132-144 | one entry per platform that occurs, holding its distinct items; the size read back is the number of distinct items, 0 for an unseen platform (also lines 226-231) |
| ExecutionDiagnostics.DistinctCountsIgnoreDuplicatesAndOrder | src/components/dashboard/ExecutionDiagnostics.tsx:132-144 | rows with the same members, whatever their order or repetition, give the same distinct items |
| ExecutionDiagnostics.DistinctCountAtMostRows | src/components/dashboard/ExecutionDiagnostics.tsx:132-137 | the distinct count is at most the number of rows |
| ExecutionDiagnostics.DistinctItemsSnoc | src/components/dashboard/ExecutionDiagnostics.tsx:136 | one more row adds its item to its own platform only |
| ExecutionDiagnostics.FindPlatform | src/components/dashboard/ExecutionDiagnostics.tsx:150 | `find` returns the first vendor of the platform, or none when there is none (also line 237) |
| ExecutionDiagnostics.Platforms | src/components/dashboard/ExecutionDiagnostics.tsx:84 | the platforms are the vendors' platforms in order (also line 176) |
| ExecutionDiagnostics.CoverageRows | src/components/dashboard/ExecutionDiagnostics.tsx:146-162 | three coverage rows for OLA and two for SoS, each with one entry per listed platform (also lines 233-244) |
| ExecutionDiagnostics.ImbalanceRatio | src/components/dashboard/ExecutionDiagnostics.tsx:398 | the ratio is ≥ 1; it is 1 unless both counts are positive, and max/min otherwise |
| ExecutionDiagnostics.TrackedCount | src/components/dashboard/ExecutionDiagnostics.tsx:396-397 | a platform without a vendor row reads 0; otherwise the count read back is the whole part of its tracked value |
| ExecutionDiagnostics.ImbalanceExactly | src/components/dashboard/ExecutionDiagnostics.tsx:394-399 | the ratio is symmetric; the warning shows iff both counts are positive and one exceeds 1.5 times the other |
| ExecutionDiagnostics.RatioAboveThreeHalves | src/components/dashboard/ExecutionDiagnostics.tsx:398-399 | hi/lo > 1.5 iff 2·hi > 3·lo |
| ExecutionDiagnostics.ImbalanceComparesTrackedCounts | src/components/dashboard/ExecutionDiagnostics.tsx:394-399 | the callout never shows unless there are two vendors; with two it compares their tracked counts |
| ExecutionDiagnostics.CountBands | src/components/dashboard/ExecutionDiagnostics.tsx:209-215 | the band map has exactly the bands that occur; a platform appears under a band iff it has a row there, and its count is that number of rows (for platform names that are not `Object.prototype` names) |
| ExecutionDiagnostics.CountedStep | src/components/dashboard/ExecutionDiagnostics.tsx:213-214 | one more row keeps the band map equal to the counts of the rows seen |
| ExecutionDiagnostics.BandCountAppend | src/components/dashboard/ExecutionDiagnostics.tsx:214 | band counts add up over concatenation |
| ExecutionDiagnostics.BandCountPositive | src/components/dashboard/ExecutionDiagnostics.tsx:213-214 | a count is positive iff a row has that band and platform |
| ExecutionDiagnostics.Present | src/components/dashboard/ExecutionDiagnostics.tsx:218 | the filter keeps exactly the ordered bands that occur |
| ExecutionDiagnostics.PresentKeepsRank | src/components/dashboard/ExecutionDiagnostics.tsx:216-218 | filtering keeps the fixed band order |
| ExecutionDiagnostics.BandRowsInFixedOrder | src/components/dashboard/ExecutionDiagnostics.tsx:216-222 | band rows come in Elite, Strong, Moderate, Weak order, exactly for the bands that occur, each with that band's counts |
| ExecutionDiagnostics.BandCell | src/components/dashboard/ExecutionDiagnostics.tsx:351 | a cell is null iff the platform has no count in the band |
| ExecutionDiagnostics.CatValueColor | src/components/dashboard/ExecutionDiagnostics.tsx:258-266 | muted iff null; for SoS every value is foreground; for OLA success iff ≥ 0.85, warning iff in [0.7, 0.85), danger iff < 0.7 |
| VendorHealth.ClearColumns | src/components/dashboard/VendorHealthOverview.tsx:93-97 | the variant's columns are set to null and added if absent; every other column is kept (also lines 105-108) |
| VendorHealth.PrepareRows | src/components/dashboard/VendorHealthOverview.tsx:93 | no more rows than the input, all with a truthy platform (also line 105) |
| VendorHealth.PrepareRowsExactly | src/components/dashboard/VendorHealthOverview.tsx:93-97 | a prepared row is exactly the cleared form of an input row that has a platform (also lines 105-108) |
| VendorHealth.PrepareRowsAllNamed | src/components/dashboard/VendorHealthOverview.tsx:93 | when every row has a platform, none is dropped and row i is row i cleared (also line 105) |
| VendorHealth.RowsAfterLoad | src/components/dashboard/VendorHealthOverview.tsx:92-97 | no data keeps the previous rows; data replaces them with at most as many rows, each with a platform (also lines 104-108) |
| VendorHealth.ComputeGap | src/components/dashboard/VendorHealthOverview.tsx:116-130 | null iff there are not exactly two rows or either value is null; otherwise the gap is \|v0 − v1\| ≥ 0, coloured by the half/whole threshold split |
| VendorHealth.ValueOf | src/components/dashboard/VendorHealthOverview.tsx:118-120 | a missing or null column gives no value, and a value given is the number the column holds |
| VendorHealth.GapSymmetric | src/components/dashboard/VendorHealthOverview.tsx:121 | swapping the two rows gives the same gap |
| VendorHealth.ThresholdByFormat | src/components/dashboard/VendorHealthOverview.tsx:122-123 | the threshold is 0.05 for percentage metrics and 50 for counts |
| VendorHealth.Threshold | src/components/dashboard/VendorHealthOverview.tsx:122-123 | the threshold is 0.05 or 50 |
| VendorHealth.ClearedMetricHasNoGap | src/components/dashboard/VendorHealthOverview.tsx:95-97 | a metric whose column the variant clears never has a gap (also lines 107, 118-120) |
| VendorHealth.ClearedMetrics | src/components/dashboard/VendorHealthOverview.tsx:29-75 | of each variant's three metrics, exactly the third reads a cleared column (also lines 95-97, 107) |
| VendorHealth.Metrics | src/components/dashboard/VendorHealthOverview.tsx:29-75 | each variant has three metrics |
| PincodeScatter.GetPointColor | src/components/dashboard/PincodeVolatilityScatter.tsx:35-39 | danger iff availability < 70 and volatility > 25; warning iff not danger and (availability < 80 or volatility > 20); success iff availability ≥ 80 and volatility ≤ 20 |
| PincodeScatter.ColorMonotone | src/components/dashboard/PincodeVolatilityScatter.tsx:35-39 | lower availability or higher volatility never improves the colour |
| PincodeScatter.GenerateScatterData | src/components/dashboard/PincodeVolatilityScatter.tsx:13-32 | at most 10 points, named after the locations, availability in [50, 95] and volatility in [5, 45] |
| PincodeScatter.RoundBounds | src/components/dashboard/PincodeVolatilityScatter.tsx:30-31 | `Math.round(lo + r·span)` lies in [lo, lo + span] |
| PincodeScatter.HighVolatilityCount | src/components/dashboard/PincodeVolatilityScatter.tsx:45 | the high-volatility count is at most the number of points |
| PincodeScatter.HighVolatilityCountExactly | src/components/dashboard/PincodeVolatilityScatter.tsx:45 | the count is at most the number of points and positive iff some point has volatility > 25 |
| PincodeScatter.AtRiskPointsCounted | src/components/dashboard/PincodeVolatilityScatter.tsx:36 | every danger point is a high-volatility point (also line 45) |
| DataStatus.FormatLastUpdated | src/components/dashboard/DataStatusIndicator.tsx:41-51 | just now iff under an hour (negative included); h hours for 1..23 with h the whole hours; yesterday iff 24..47 hours; d ≥ 2 whole days otherwise |
| DataStatus.FreshnessText | src/components/dashboard/DataStatusIndicator.tsx:41-51 | every freshness text starts with "Updated ", and the hours and days forms end in "ago" |
| DataStatus.FreshnessTextInjective | src/components/dashboard/DataStatusIndicator.tsx:47-50 | distinct freshness values give distinct messages, so each message names its own hour or day count |
| DataStatus.FreshnessMonotone | src/components/dashboard/DataStatusIndicator.tsx:43-50 | older data never reads fresher |
| DataStatus.NatToString | src/components/dashboard/DataStatusIndicator.tsx:48 | a natural number renders as a non-empty string of decimal digits (also line 50); `NatToStringValue` states which number it denotes |
| DataStatus.NatToStringValue | src/components/dashboard/DataStatusIndicator.tsx:48 | reading the rendered digits back left to right (`DigitsValue`) gives the number again (also line 50) |
| DataStatus.IntToString | src/components/dashboard/DataStatusIndicator.tsx:48 | an integer renders as a non-empty string that starts with a minus sign exactly when it is negative (also line 50) |
| DataStatus.IntToStringInjective | src/components/dashboard/DataStatusIndicator.tsx:48 | distinct integers render as distinct strings (also line 50) |
| DataStatus.UseDataStatus | src/components/dashboard/DataStatusIndicator.tsx:85-106 | hoursAgo is in 1..6 and missingDates is never negative |
| DataStatus.CoverageByPreset | src/components/dashboard/DataStatusIndicator.tsx:92-99 | "7d" complete with 0 gaps; "30d" at most 2 gaps; "90d" partial with 2..6; "ytd" never complete, 3..10; any other preset that is not an `Object.prototype` name as "30d" |
| DataStatus.FreshStatusReadsHoursAgo | src/components/dashboard/DataStatusIndicator.tsx:44-48 | a status shown within the hour reads "h hours ago" for its own hoursAgo (also lines 88-89) |
| DataStatus.FloorBounds | src/components/dashboard/DataStatusIndicator.tsx:88 | `Math.floor(random × n)` is in 0..n−1 (also lines 94-96) |
| DataStatus.ShowsGaps | src/components/dashboard/DataStatusIndicator.tsx:71 | the gaps indicator shows iff missingDates is present and positive |
| RealSeqs.MeanBetweenMinAndMax | src/lib/metrics.ts:96 | a mean lies between the minimum and the maximum |
| RealSeqs.SumAppend | src/lib/aggregation.ts:38 | `reduce` sums distribute over concatenation |
| RealSeqs.SumBounds | src/lib/aggregation.ts:40 | a sum of n values in [lo, hi] lies in [n·lo, n·hi] |
| JsStrings.IncludesChar | src/components/dashboard/ExecutionDiagnostics.tsx:188 | a one-character needle occurs iff the character is in the string |

## Left out

- Fetching rows from the backend, React state and effects, and rendering are not modelled. Each component's logic takes the fetched rows as parameters.
- `Math.random()` is modelled as parameters. These are the insight verb draw, the generated chart and scatter values, and the `useDataStatus` draws. The clock (`new Date()`, `startOfYear`) is a `Clock` parameter with `yearStart` at most 365 days before `today`.
- Number and date formatting is not modelled: `toFixed`, `toLocaleString`, `toLocaleDateString`, date-fns `format` and the `pct` helper. It is either a parameter (`Show`, `fixed`, the take-away `pct`) or a structured value (`Label.Between`, `Freshness`, the take-away `Bullet`), because the locale tables are not part of this model.
- `toLowerCase`, `toUpperCase` and `cap` are modelled on ASCII letters only. Unicode case mapping is not part of this model.
- `localeCompare` on week strings is modelled as code-unit order. For the ISO week strings the dashboard sorts, this is the same order; locale collation is not part of this model.
- DateRangeContext.DateRangeState.GetLabel and GetTimePhrase are one-line readers of `LabelOf`/`TimePhraseOf` on the current preset. They carry no contract of their own; their content is stated about `LabelOf` and `TimePhraseOf`.
- KeyTakeaways.TrendUsesLatestTwo: "the last two rows after sorting" is stated through membership and "no later week". It does not name the two rows by index in the input.
- ExecutionDiagnostics.AddGap: the `isInverse` argument of the SoS `addGap` is accepted but unused in the source, so the model omits it.
- ExecutionDiagnostics.TrackedCount: the tracked count goes through `toLocaleString` and is read back with `parseInt` after stripping commas. The model reads it as the whole part of the count, assuming the locale renders whole numbers with comma grouping.
- ExecutionDiagnostics.RowAverage: the source divides by the number of platforms, which is never 0 for a built row. The model gives 0 for an empty record instead of NaN.
- The order of keys in a JavaScript object (integer-like keys first) is not modelled. Platform and band names are not integer-like.
- VendorHealth.ValueOf: `getValue` reads a column, and a value that is not a number counts as no value.
- PincodeScatter: the "At Risk" legend and the other chart colours are presentational and not modelled beyond `GetPointColor`.
- Metrics.FormatMetricValue: only the null branch and the decoration of the other branches are stated. The digits are produced by the `fixed` parameter.
- Aggregation.AggregateByPlatform: a numeric column holding a value that is neither a number nor null (a string or a boolean) is outside the model. The source's `v is number` filter is only a type guard, so it keeps such values and `reduce` would concatenate or coerce them. The requires `NumericColumns` marks the inputs on which the model matches the source.
- Insights.TimePhrasingFallback: a preset naming an `Object.prototype` member ("constructor", "toString", "__proto__") reads that member in `phrasings[preset]`, not the "30d" entry. This is not modelled, because callers pass a `DatePreset` (src/contexts/DateRangeContext.tsx:4).
- Insights.GetTimePhrasing: for the same reason, its "30-day exactly when" clause holds for every preset except `Object.prototype` names.
- DataStatus.CoverageByPreset: for the same reason, `coverageMap[preset]` with an `Object.prototype` name is not modelled.
- DataStatus.UseDataStatus: its bounds assume the preset is not an `Object.prototype` name, for the same reason.
- Aggregation.CopyMissingColumns: `agg` is a plain object, so `key in agg` is also true for an inherited `Object.prototype` member such as `constructor` or `toString`. The source therefore never copies a first-row column with such a name, while the model copies it. Column names are assumed not to be `Object.prototype` names.
- Aggregation.PassthroughColumns: for the same reason, "every other column is copied" assumes column names that are not `Object.prototype` names.
- ExecutionDiagnostics.CountBands: `bandMap.get(band)![p] ?? 0` reads an inherited member for a platform named after an `Object.prototype` member (e.g. `constructor`), and the cell is then not a count. Platform names are assumed not to be `Object.prototype` names.
- ExecutionDiagnostics.Record: assigning `record["__proto__"]` sets the prototype and adds no key. Record, RecordPlatforms and LastWriteWins assume no platform is named `__proto__`.
- Floating-point rounding is not modelled: metric values are exact reals. `Math.round` is modelled as `floor(x + 0.5)`, and `Math.floor` as `Floor`.

=== FILE: aggregation.dfy ===
/**
 * Client-side GROUP BY platform (`aggregateByPlatform`): rows are open records
 * keyed by column name; one output record per platform, numeric columns averaged
 * or summed over their non-null values, other columns copied from the group's
 * first row.
 */
module Aggregation {
  import opened Wrappers
  import RealSeqs
  import Grouping

  /** A column value as the backend delivers it. A missing key is JavaScript's `undefined`. */
  datatype Value = Null | Num(n: real) | Text(s: string) | Flag(b: bool)

  type Row = map<string, Value>

  datatype Mode = Avg | Sum

  const PlatformKey: string := "platform"

  /** JavaScript truthiness (NaN is not modelled). */
  predicate Truthy(v: Value)
  {
    match v
    case Null => false
    case Num(x) => x != 0.0
    case Text(s) => s != ""
    case Flag(b) => b
  }

  /** A row is grouped under its platform value, unless that value is missing or falsy. */
  function PlatformEntry(row: Row): Option<(Value, Row)>
  {
    if PlatformKey in row && Truthy(row[PlatformKey]) then Some((row[PlatformKey], row)) else None
  }

  /**
   * The columns to aggregate hold numbers or nulls. The source's `v is number` is only a
   * type guard: its filter drops null and undefined and keeps any other value, so the model
   * matches the source on these rows.
   */
  ghost predicate NumericColumns(rows: seq<Row>, numericKeys: seq<string>)
  {
    forall i, k :: 0 <= i < |rows| && k in numericKeys && k in rows[i] ==> rows[i][k].Null? || rows[i][k].Num?
  }

  /** The non-null values of column `key` in `group`, in row order. */
  function ColumnValues(group: seq<Row>, key: string): seq<real>
  {
    if group == [] then []
    else
      var r := group[|group| - 1];
      ColumnValues(group[..|group| - 1], key) + if key in r && r[key].Num? then [r[key].n] else []
  }

  /** The aggregate of one numeric column: null when the group has no value there. */
  function ColumnAggregate(group: seq<Row>, key: string, mode: Mode): (v: Value)
    ensures v == Null <==> |ColumnValues(group, key)| == 0
    ensures v != Null ==> v.Num?
    ensures v != Null && mode == Avg ==> RealSeqs.Min(ColumnValues(group, key)) <= v.n <= RealSeqs.Max(ColumnValues(group, key))
  {
    var values := ColumnValues(group, key);
    if |values| == 0 then Null
    else if mode == Sum then Num(RealSeqs.Sum(values))
    else RealSeqs.MeanBetweenMinAndMax(values); Num(RealSeqs.Mean(values))
  }

  /** The record built for one platform: platform, then numeric aggregates, then the first row's other columns. */
  function AggregateRow(p: Value, group: seq<Row>, numericKeys: seq<string>, mode: Mode): (r: Row)
    requires |group| > 0
    ensures PlatformKey in r && (PlatformKey !in numericKeys ==> r[PlatformKey] == p)
    ensures forall k :: k in numericKeys ==> k in r && r[k] == ColumnAggregate(group, k, mode)
    ensures forall k :: k in group[0] ==> k in r
  {
    var first := group[0];
    map k | k in first.Keys + {PlatformKey} + (set n | n in numericKeys) ::
      if k in numericKeys then ColumnAggregate(group, k, mode)
      else if k == PlatformKey then p
      else first[k]
  }

  /** What `aggregateByPlatform` returns: one record per grouped platform, in first-appearance order. */
  function AggregatedRows(rows: seq<Row>, numericKeys: seq<string>, mode: Mode): (records: seq<Row>)
    ensures |records| == |Grouping.Keys(rows, PlatformEntry)|
  {
    var keys := Grouping.Keys(rows, PlatformEntry);
    seq(|keys|, i requires 0 <= i < |keys| =>
      AggregateRow(keys[i], Grouping.Members(rows, PlatformEntry, keys[i]), numericKeys, mode))
  }

  /** What the grouping loop knows after a prefix of the rows: the `Map`'s key order and each key's rows. */
  ghost predicate Grouped(order: seq<Value>, groups: map<Value, seq<Row>>, prefix: seq<Row>)
  {
    && order == Grouping.Keys(prefix, PlatformEntry)
    && (forall p :: p in groups <==> p in order)
    && (forall p :: p in groups ==> groups[p] == Grouping.Members(prefix, PlatformEntry, p))
  }

  /** One row: a truthy platform opens its group if needed and the row joins it; any other row changes nothing. */
  lemma GroupedStep(order: seq<Value>, groups: map<Value, seq<Row>>, rows: seq<Row>, i: nat,
                    order': seq<Value>, groups': map<Value, seq<Row>>)
    requires i < |rows| && Grouped(order, groups, rows[..i])
    requires PlatformEntry(rows[i]).None? ==> order' == order && groups' == groups
    requires PlatformEntry(rows[i]).Some? ==>
               var p := rows[i][PlatformKey];
               && order' == (if p in groups then order else order + [p])
               && groups'.Keys == groups.Keys + {p}
               && groups'[p] == (if p in groups then groups[p] else []) + [rows[i]]
               && (forall q :: q in groups && q != p ==> groups'[q] == groups[q])
    ensures Grouped(order', groups', rows[..i + 1])
  {
    Grouping.SnocKeys(rows, PlatformEntry, i);
    GroupsStep(groups, rows, i, groups');
  }

  lemma GroupsStep(groups: map<Value, seq<Row>>, rows: seq<Row>, i: nat, groups': map<Value, seq<Row>>)
    requires i < |rows|
    requires forall p :: p in groups ==> groups[p] == Grouping.Members(rows[..i], PlatformEntry, p)
    requires PlatformEntry(rows[i]).None? ==> groups' == groups
    requires PlatformEntry(rows[i]).Some? ==>
               var p := rows[i][PlatformKey];
               && groups'.Keys == groups.Keys + {p}
               && groups'[p] == (if p in groups then groups[p] else []) + [rows[i]]
               && (forall q :: q in groups && q != p ==> groups'[q] == groups[q])
    requires forall p :: p !in groups ==> Grouping.Members(rows[..i], PlatformEntry, p) == []
    ensures forall p :: p in groups' ==> groups'[p] == Grouping.Members(rows[..i + 1], PlatformEntry, p)
  {
    forall q | q in groups' ensures groups'[q] == Grouping.Members(rows[..i + 1], PlatformEntry, q) {
      Grouping.SnocMembers(rows, PlatformEntry, i, q);
    }
  }

  method AggregateByPlatform(rows: seq<Row>, numericKeys: seq<string>, mode: Mode) returns (result: seq<Row>)
    requires NumericColumns(rows, numericKeys)
    ensures result == AggregatedRows(rows, numericKeys, mode)
  {
    var order, groups := GroupByPlatform(rows);
    GroupedRecords(order, groups, rows, numericKeys, mode);
    result := [];
    for j := 0 to |order|
      invariant result == AggregatedRows(rows, numericKeys, mode)[..j]
    {
      var agg := BuildAggregate(order[j], groups[order[j]], numericKeys, mode);
      result := result + [agg];
    }
  }

  /** The loop filling the `Map` from platform to rows; `order` is the `Map`'s key order. */
  method GroupByPlatform(rows: seq<Row>) returns (order: seq<Value>, groups: map<Value, seq<Row>>)
    ensures Grouped(order, groups, rows)
  {
    order := [];
    groups := map[];
    for i := 0 to |rows|
      invariant Grouped(order, groups, rows[..i])
    {
      var row := rows[i];
      ghost var order0, groups0 := order, groups;
      if PlatformKey in row && Truthy(row[PlatformKey]) {
        var p := row[PlatformKey];
        if p !in groups {
          groups := groups[p := []];
          order := order + [p];
        }
        groups := groups[p := groups[p] + [row]];
      }
      GroupedStep(order0, groups0, rows, i, order, groups);
    }
    assert rows[..|rows|] == rows;
  }

  /** Once all rows are grouped, record j is built from the j-th key and its group. */
  lemma GroupedRecords(order: seq<Value>, groups: map<Value, seq<Row>>, rows: seq<Row>, numericKeys: seq<string>, mode: Mode)
    requires Grouped(order, groups, rows)
    ensures forall p :: p in order ==> p in groups && |groups[p]| > 0
    ensures |AggregatedRows(rows, numericKeys, mode)| == |order|
    ensures forall j :: 0 <= j < |order| ==>
              AggregatedRows(rows, numericKeys, mode)[j] == AggregateRow(order[j], groups[order[j]], numericKeys, mode)
  {
  }

  /** Builds one output record key by key, as the loops over `numericKeys` and `Object.keys(groupRows[0])` do. */
  method BuildAggregate(p: Value, groupRows: seq<Row>, numericKeys: seq<string>, mode: Mode) returns (agg: Row)
    requires |groupRows| > 0
    ensures agg == AggregateRow(p, groupRows, numericKeys, mode)
  {
    var built := AggregateNumericColumns(p, groupRows, numericKeys, mode);
    agg := CopyMissingColumns(built, groupRows[0]);
    BuiltIsAggregateRow(p, groupRows, numericKeys, mode, built, agg);
  }

  /** The two loops together build exactly `AggregateRow`. */
  lemma BuiltIsAggregateRow(p: Value, group: seq<Row>, numericKeys: seq<string>, mode: Mode, built: Row, agg: Row)
    requires |group| > 0
    requires built.Keys == {PlatformKey} + (set n | n in numericKeys)
    requires forall k :: k in built ==> built[k] == if k in numericKeys then ColumnAggregate(group, k, mode) else p
    requires agg.Keys == built.Keys + group[0].Keys
    requires forall k :: k in agg ==> agg[k] == if k in built then built[k] else group[0][k]
    ensures agg == AggregateRow(p, group, numericKeys, mode)
  {
    var first := group[0];
    var expected := map k | k in first.Keys + {PlatformKey} + (set n | n in numericKeys) ::
      if k in numericKeys then ColumnAggregate(group, k, mode)
      else if k == PlatformKey then p
      else first[k];
    assert agg.Keys == expected.Keys;
    assert forall k :: k in agg ==> agg[k] == expected[k];
    assert agg == expected;
  }

  /** The record after the loop over `numericKeys`: the platform, then one aggregate per numeric column. */
  method AggregateNumericColumns(p: Value, groupRows: seq<Row>, numericKeys: seq<string>, mode: Mode) returns (agg: Row)
    ensures agg.Keys == {PlatformKey} + (set n | n in numericKeys)
    ensures forall k :: k in agg ==> agg[k] == if k in numericKeys then ColumnAggregate(groupRows, k, mode) else p
  {
    agg := map[PlatformKey := p];
    ghost var done: set<string> := {};
    for i := 0 to |numericKeys|
      invariant done == set n | n in numericKeys[..i]
      invariant agg.Keys == {PlatformKey} + done
      invariant forall k :: k in agg ==> agg[k] == if k in done then ColumnAggregate(groupRows, k, mode) else p
    {
      var key := numericKeys[i];
      assert numericKeys[..i + 1] == numericKeys[..i] + [key];
      var v := AggregateColumn(groupRows, key, mode);
      agg := agg[key := v];
      done := done + {key};
    }
    assert numericKeys[..|numericKeys|] == numericKeys;
  }

  /** One pass of the column loop: null for a column without values, else their sum or mean. */
  method AggregateColumn(groupRows: seq<Row>, key: string, mode: Mode) returns (v: Value)
    ensures v == ColumnAggregate(groupRows, key, mode)
  {
    var values := ColumnValues(groupRows, key);
    if |values| == 0 {
      v := Null;
    } else if mode == Sum {
      v := Num(RealSeqs.Sum(values));
    } else {
      v := Num(RealSeqs.Sum(values) / |values| as real);
    }
  }

  /** The loop over the first row's keys: a key the record does not hold yet is copied from that row. */
  method CopyMissingColumns(built: Row, first: Row) returns (agg: Row)
    ensures agg.Keys == built.Keys + first.Keys
    ensures forall k :: k in agg ==> agg[k] == if k in built then built[k] else first[k]
  {
    agg := built;
    var pending := first.Keys;
    while pending != {}
      invariant pending <= first.Keys
      invariant agg.Keys == built.Keys + (first.Keys - pending)
      invariant forall k :: k in agg ==> agg[k] == if k in built then built[k] else first[k]
      decreases pending
    {
      var key :| key in pending;
      if key !in agg {
        agg := agg[key := first[key]];
      }
      pending := pending - {key};
    }
  }

  // ---------------------------------------------------------------------------
  // Properties of the aggregation
  // ---------------------------------------------------------------------------

  /** A column has no values in a group exactly when every row there holds null or nothing. */
  lemma {:induction false} NoValuesIffAllNull(group: seq<Row>, key: string)
    requires NumericColumns(group, [key])
    ensures |ColumnValues(group, key)| == 0 <==> forall i :: 0 <= i < |group| ==> key !in group[i] || group[i][key].Null?
  {
    if group != [] {
      var prefix := group[..|group| - 1];
      assert forall i :: 0 <= i < |prefix| ==> prefix[i] == group[i];
      assert NumericColumns(prefix, [key]);
      NoValuesIffAllNull(prefix, key);
      var last := group[|group| - 1];
      assert key in [key] && group[|group| - 1] == last;
      assert key in last ==> last[key].Null? || last[key].Num?;
    }
  }

  /** The values collected for a column are exactly the numbers found in it. */
  lemma {:induction false} ColumnValuesExactly(group: seq<Row>, key: string, x: real)
    ensures x in ColumnValues(group, key) <==> exists i :: 0 <= i < |group| && key in group[i] && group[i][key] == Num(x)
  {
    if group != [] {
      var prefix := group[..|group| - 1];
      assert forall i :: 0 <= i < |prefix| ==> prefix[i] == group[i];
      ColumnValuesExactly(prefix, key, x);
    }
  }

  /**
   * A numeric column aggregates to null exactly when the whole group is null or
   * missing there; otherwise to the sum ("sum" mode) or to the mean, which lies
   * between two of the group's values ("avg" mode).
   */
  lemma NumericColumnAggregate(p: Value, group: seq<Row>, numericKeys: seq<string>, mode: Mode, key: string)
    requires |group| > 0 && NumericColumns(group, numericKeys) && key in numericKeys
    ensures var r := AggregateRow(p, group, numericKeys, mode);
            && key in r
            && (r[key] == Null <==> forall i :: 0 <= i < |group| ==> key !in group[i] || group[i][key].Null?)
            && (r[key] != Null && mode == Sum ==> r[key] == Num(RealSeqs.Sum(ColumnValues(group, key))))
            && (|ColumnValues(group, key)| > 0 && mode == Avg ==> r[key] == Num(RealSeqs.Mean(ColumnValues(group, key))))
            && (r[key] != Null && mode == Avg ==>
                  exists i, j :: 0 <= i < |group| && 0 <= j < |group| && key in group[i] && key in group[j]
                    && group[i][key].Num? && group[j][key].Num?
                    && group[i][key].n <= r[key].n <= group[j][key].n)
  {
    NoValuesIffAllNull(group, key);
    var values := ColumnValues(group, key);
    if |values| > 0 && mode == Avg {
      RealSeqs.MeanBetweenMinAndMax(values);
      ColumnValuesExactly(group, key, RealSeqs.Min(values));
      ColumnValuesExactly(group, key, RealSeqs.Max(values));
    }
  }

  /** Platform and numeric columns are never overwritten by the copy from the first row; every other column is that copy. */
  lemma PassthroughColumns(p: Value, group: seq<Row>, numericKeys: seq<string>, mode: Mode)
    requires |group| > 0
    ensures var r := AggregateRow(p, group, numericKeys, mode);
            && r.Keys == group[0].Keys + {PlatformKey} + (set n | n in numericKeys)
            && (PlatformKey !in numericKeys ==> r[PlatformKey] == p)
            && (forall k :: k in group[0] && k != PlatformKey && k !in numericKeys ==> r[k] == group[0][k])
  {
  }

  /**
   * One record per distinct truthy platform, in order of first appearance; the
   * group behind each record is exactly the rows carrying that platform.
   */
  lemma {:induction false} OneRecordPerPlatform(rows: seq<Row>, numericKeys: seq<string>, mode: Mode)
    ensures var keys := Grouping.Keys(rows, PlatformEntry);
            && |AggregatedRows(rows, numericKeys, mode)| == |keys|
            && Grouping.Distinct(keys)
            && (forall i :: 0 <= i < |rows| && PlatformEntry(rows[i]).Some? ==> rows[i][PlatformKey] in keys)
            && (forall p :: p in keys ==> exists i :: 0 <= i < |rows| && PlatformKey in rows[i] && Truthy(rows[i][PlatformKey]) && rows[i][PlatformKey] == p)
            && (PlatformKey !in numericKeys ==>
                  forall i :: 0 <= i < |keys| ==> AggregatedRows(rows, numericKeys, mode)[i][PlatformKey] == keys[i])
  {
    var keys := Grouping.Keys(rows, PlatformEntry);
    Grouping.KeysDistinct(rows, PlatformEntry);
    forall i | 0 <= i < |rows| && PlatformEntry(rows[i]).Some?
      ensures rows[i][PlatformKey] in keys
    {
      assert Grouping.HasKey(rows, PlatformEntry, i, rows[i][PlatformKey]);
      Grouping.KeysExactly(rows, PlatformEntry, rows[i][PlatformKey]);
    }
    forall p | p in keys
      ensures exists i :: 0 <= i < |rows| && PlatformKey in rows[i] && Truthy(rows[i][PlatformKey]) && rows[i][PlatformKey] == p
    {
      Grouping.KeysExactly(rows, PlatformEntry, p);
      var i :| 0 <= i < |rows| && Grouping.HasKey(rows, PlatformEntry, i, p);
    }
  }

  /** The rows grouped under a platform are exactly the input rows carrying it. */
  lemma GroupIsRowsOfPlatform(rows: seq<Row>, p: Value, row: Row)
    ensures row in Grouping.Members(rows, PlatformEntry, p) <==>
            exists i :: 0 <= i < |rows| && rows[i] == row && PlatformKey in row && Truthy(row[PlatformKey]) && row[PlatformKey] == p
  {
    Grouping.MembersExactly(rows, PlatformEntry, p, row);
  }

  /** Rows with a missing, null or empty platform contribute to no group, wherever they stand. */
  lemma FalsyPlatformIgnored(a: seq<Row>, row: Row, b: seq<Row>, numericKeys: seq<string>, mode: Mode)
    requires PlatformKey !in row || !Truthy(row[PlatformKey])
    ensures AggregatedRows(a + [row] + b, numericKeys, mode) == AggregatedRows(a + b, numericKeys, mode)
  {
    Grouping.SkippedElementIgnored(a, row, b, PlatformEntry);
  }

  /** No rows, no records. */
  lemma EmptyInput(numericKeys: seq<string>, mode: Mode)
    ensures AggregatedRows([], numericKeys, mode) == []
  {
  }
}

=== FILE: availability_trend.dfy ===
/** The availability trend chart's volatility signal: limits 3 (step) and 2 (net change). */
module AvailabilityTrend {
  import opened TrendVolatility

  datatype Volatility = Volatility(score: real, trend: Trend)

  /** `calculateVolatility`: a score of 0 and "stable" for fewer than two points. */
  function CalculateVolatility(data: seq<real>): (v: Volatility)
    ensures v.score >= 0.0
    ensures |data| < 2 ==> v == Volatility(0.0, Stable)
    ensures |data| >= 2 ==> v.score == MeanStep(data) && v.trend == Classify(data, 3.0, 2.0)
  {
    if |data| < 2 then Volatility(0.0, Stable)
    else
      var avgChange := MeanStep(data);
      var lastChange := data[|data| - 1] - data[0];
      if avgChange > 3.0 then Volatility(avgChange, Volatile)
      else if lastChange > 2.0 then Volatility(avgChange, Improving)
      else Volatility(avgChange, Stable)
  }

  /** Volatile exactly when the score exceeds 3, whatever the net change. */
  lemma VolatileFirst(data: seq<real>)
    ensures CalculateVolatility(data).trend == Volatile <==> CalculateVolatility(data).score > 3.0
  {
  }

  /** Improving exactly when not volatile and the series rose by more than 2. */
  lemma ImprovingExactly(data: seq<real>)
    ensures CalculateVolatility(data).trend == Improving <==>
              |data| >= 2 && CalculateVolatility(data).score <= 3.0 && data[|data| - 1] - data[0] > 2.0
  {
  }

  /** An improving series of n points has a score above 2 / (n - 1). */
  lemma ImprovingScore(data: seq<real>)
    requires CalculateVolatility(data).trend == Improving
    ensures CalculateVolatility(data).score > 2.0 / (|data| - 1) as real
  {
    ImprovementNeedsMovement(data, 2.0);
  }
}

=== FILE: data_status.dfy ===
/**
 * The data-status badge: how long ago the data was refreshed, how complete its
 * coverage is for the selected range, and whether date gaps are shown.
 */
module DataStatus {
  import opened Wrappers

  datatype Coverage = Complete | Partial | Limited

  const MsPerHour: int := 1000 * 60 * 60

  /** The four messages of `formatLastUpdated`. */
  datatype Freshness = JustNow | HoursAgo(hours: int) | Yesterday | DaysAgo(days: int)

  /**
   * `formatLastUpdated`, given `now - lastUpdated` in milliseconds. `Math.floor`
   * of a quotient by a positive constant is Dafny's `/` on integers.
   */
  function FormatLastUpdated(diffMs: int): (f: Freshness)
    ensures f == JustNow <==> diffMs < MsPerHour
    ensures f.HoursAgo? <==> MsPerHour <= diffMs < 24 * MsPerHour
    ensures f.HoursAgo? ==> 1 <= f.hours <= 23 && f.hours * MsPerHour <= diffMs < (f.hours + 1) * MsPerHour
    ensures f == Yesterday <==> 24 * MsPerHour <= diffMs < 48 * MsPerHour
    ensures f.DaysAgo? ==> 2 <= f.days && f.days * 24 * MsPerHour <= diffMs < (f.days + 1) * 24 * MsPerHour
  {
    var diffHours := diffMs / MsPerHour;
    var diffDays := diffHours / 24;
    if diffHours < 1 then JustNow
    else if diffHours < 24 then HoursAgo(diffHours)
    else if diffDays == 1 then Yesterday
    else DaysAgo(diffDays)
  }

  /** Decimal digits of a natural number, as a template literal renders an integer. */
  function NatToString(n: nat): (s: string)
    ensures |s| > 0
    ensures forall i :: 0 <= i < |s| ==> '0' <= s[i] <= '9'
    decreases n
  {
    var digit := ['0' + (n % 10) as char];
    if n < 10 then digit else NatToString(n / 10) + digit
  }

  /** The number a string of decimal digits denotes, read left to right as `10 * acc + digit`. */
  function DigitsValue(s: string): nat
  {
    if s == [] then 0
    else
      var d := s[|s| - 1] as int - '0' as int;
      10 * DigitsValue(s[..|s| - 1]) + (if 0 <= d then d else 0)
  }

  /** The digits `NatToString` renders denote `n` again. */
  lemma {:induction false} NatToStringValue(n: nat)
    ensures DigitsValue(NatToString(n)) == n
    decreases n
  {
    var digit := ['0' + (n % 10) as char];
    if n >= 10 {
      var s := NatToString(n / 10);
      NatToStringValue(n / 10);
      assert NatToString(n) == s + digit;
      assert (s + digit)[..|s|] == s;
    }
  }

  /** An integer as a template literal renders it: a minus sign, then the digits of its magnitude. */
  function IntToString(x: int): (s: string)
    ensures |s| > 0
    ensures x < 0 <==> s[0] == '-'
  {
    if x < 0 then "-" + NatToString(-x) else NatToString(x)
  }

  /** Distinct integers are rendered as distinct strings. */
  lemma IntToStringInjective(x: int, y: int)
    ensures IntToString(x) == IntToString(y) ==> x == y
  {
    if IntToString(x) == IntToString(y) {
      if x < 0 && y < 0 {
        assert NatToString(-x) == IntToString(x)[1..];
        NatToStringValue(-x);
        NatToStringValue(-y);
      } else if 0 <= x && 0 <= y {
        NatToStringValue(x);
        NatToStringValue(y);
      }
    }
  }

  function FreshnessText(f: Freshness): (t: string)
    ensures |t| > 8 && t[..8] == "Updated "
    ensures f.HoursAgo? || f.DaysAgo? ==> |t| > 11 && t[|t| - 3..] == "ago"
  {
    match f
    case JustNow => "Updated just now"
    case HoursAgo(h) => "Updated " + IntToString(h) + "h ago"
    case Yesterday => "Updated yesterday"
    case DaysAgo(d) => "Updated " + IntToString(d) + " days ago"
  }

  /** Distinct freshness values read differently: the message names its own hour or day count. */
  lemma FreshnessTextInjective(f: Freshness, g: Freshness)
    ensures FreshnessText(f) == FreshnessText(g) ==> f == g
  {
    var t, u := FreshnessText(f), FreshnessText(g);
    if t == u {
      if f.HoursAgo? && g.HoursAgo? {
        var x, y := IntToString(f.hours), IntToString(g.hours);
        assert t[8..|t| - 5] == x;
        assert u[8..|u| - 5] == y;
        IntToStringInjective(f.hours, g.hours);
      } else if f.DaysAgo? && g.DaysAgo? {
        var x, y := IntToString(f.days), IntToString(g.days);
        assert t[8..|t| - 9] == x;
        assert u[8..|u| - 9] == y;
        IntToStringInjective(f.days, g.days);
      } else {
        assert t[|t| - 5] == u[|u| - 5] && t[|t| - 1] == u[|u| - 1];
      }
    }
  }

  datatype Status = Status(hoursAgo: int, coverage: Coverage, missingDates: int)

  /** One `Math.random()` result. */
  ghost predicate IsDraw(r: real)
  {
    0.0 <= r < 1.0
  }

  /**
   * `useDataStatus`. Every `Math.random()` of the hook is evaluated whatever the
   * preset, in this order: the refresh age, then the "30d" coverage and gaps,
   * the "90d" gaps, and the "ytd" coverage and gaps. An unknown preset takes the
   * "30d" entry.
   */
  function UseDataStatus(preset: string, draws: seq<real>): (s: Status)
    requires |draws| == 6 && forall i :: 0 <= i < 6 ==> IsDraw(draws[i])
    ensures 1 <= s.hoursAgo <= 6
    ensures 0 <= s.missingDates
  {
    var hoursAgo := (draws[0] * 6.0).Floor + 1;
    FloorBounds(draws[0], 6);
    FloorBounds(draws[2], 3);
    FloorBounds(draws[3], 5);
    FloorBounds(draws[5], 8);
    var month := Status(hoursAgo, if draws[1] > 0.3 then Complete else Partial, (draws[2] * 3.0).Floor);
    if preset == "7d" then Status(hoursAgo, Complete, 0)
    else if preset == "90d" then Status(hoursAgo, Partial, (draws[3] * 5.0).Floor + 2)
    else if preset == "ytd" then Status(hoursAgo, if draws[4] > 0.5 then Partial else Limited, (draws[5] * 8.0).Floor + 3)
    else month
  }

  /** `Math.floor(r * n)` for a draw r is one of 0 .. n-1. */
  lemma FloorBounds(r: real, n: nat)
    requires IsDraw(r) && n > 0
    ensures 0 <= (r * n as real).Floor < n
  {
    assert 0.0 <= r * n as real < n as real;
  }

  /** The gaps indicator: a missing-dates count that is present and positive. */
  function ShowsGaps(missingDates: Option<int>): (shows: bool)
    ensures shows <==> missingDates.Some? && missingDates.value > 0
  {
    missingDates.Some? && missingDates.value != 0 && missingDates.value > 0
  }

  // ---------------------------------------------------------------------------
  // Properties
  // ---------------------------------------------------------------------------

  /** Each preset's coverage entry. */
  lemma CoverageByPreset(preset: string, draws: seq<real>)
    requires |draws| == 6 && forall i :: 0 <= i < 6 ==> IsDraw(draws[i])
    ensures var s := UseDataStatus(preset, draws);
            && (preset == "7d" ==> s.coverage == Complete && s.missingDates == 0)
            && (preset == "30d" ==> s.missingDates <= 2)
            && (preset == "90d" ==> s.coverage == Partial && 2 <= s.missingDates <= 6)
            && (preset == "ytd" ==> s.coverage != Complete && 3 <= s.missingDates <= 10)
            && (preset !in {"7d", "30d", "90d", "ytd"} ==> s == UseDataStatus("30d", draws))
  {
    FloorBounds(draws[2], 3);
    FloorBounds(draws[3], 5);
    FloorBounds(draws[5], 8);
  }

  /** A status just produced by the hook reads "Updated {h}h ago" for h in 1..6, until the hour turns. */
  lemma FreshStatusReadsHoursAgo(preset: string, draws: seq<real>, elapsedMs: int)
    requires |draws| == 6 && forall i :: 0 <= i < 6 ==> IsDraw(draws[i])
    requires 0 <= elapsedMs < MsPerHour
    ensures var h := UseDataStatus(preset, draws).hoursAgo;
            FormatLastUpdated(h * MsPerHour + elapsedMs) == HoursAgo(h)
  {
  }

  /** Elapsed time under one hour, negative included, is "just now"; more time never reads fresher. */
  lemma FreshnessMonotone(a: int, b: int)
    requires a <= b
    ensures FormatLastUpdated(b) == JustNow ==> FormatLastUpdated(a) == JustNow
    ensures FormatLastUpdated(a).DaysAgo? ==> FormatLastUpdated(b).DaysAgo? && FormatLastUpdated(a).days <= FormatLastUpdated(b).days
    ensures FormatLastUpdated(a).HoursAgo? && FormatLastUpdated(b).HoursAgo? ==> FormatLastUpdated(a).hours <= FormatLastUpdated(b).hours
  {
  }
}

=== FILE: date_range.dfy ===
/**
 * The dashboard's date-range context: the selected preset together with the
 * range of days it stands for. Days are integers; "today" and the first day of
 * the current year come from a `Clock` read at the time of the call.
 */
module DateRangeContext {
  import Insights

  datatype DatePreset = Last7 | Last30 | Last90 | YearToDate | Custom

  /** The preset's name as the rest of the dashboard passes it around. */
  function PresetName(p: DatePreset): string
  {
    match p
    case Last7 => "7d"
    case Last30 => "30d"
    case Last90 => "90d"
    case YearToDate => "ytd"
    case Custom => "custom"
  }

  /** `new Date()` and `startOfYear` of it: the year started at most 365 days ago. */
  datatype Clock = Clock(today: int, yearStart: int)

  type ValidClock = c: Clock | c.today - 365 <= c.yearStart <= c.today witness Clock(0, 0)

  datatype DateRange = DateRange(from: int, to: int)

  /** `getDateRangeFromPreset`: a range ending today; "custom" falls back to 30 days. */
  function RangeFromPreset(p: DatePreset, clock: ValidClock): (r: DateRange)
    ensures r.to == clock.today
    ensures r.from <= r.to
    ensures p == Last7 ==> r.to - r.from == 7
    ensures p == Last30 || p == Custom ==> r.to - r.from == 30
    ensures p == Last90 ==> r.to - r.from == 90
    ensures p == YearToDate ==> r.from == clock.yearStart && r.to - r.from <= 365
  {
    match p
    case Last7 => DateRange(clock.today - 7, clock.today)
    case Last30 => DateRange(clock.today - 30, clock.today)
    case Last90 => DateRange(clock.today - 90, clock.today)
    case YearToDate => DateRange(clock.yearStart, clock.today)
    case Custom => DateRange(clock.today - 30, clock.today)
  }

  /** What `getLabel` shows: a fixed text, or the two formatted ends of a custom range. */
  datatype Label = Fixed(text: string) | Between(from: int, to: int)

  function LabelOf(p: DatePreset, range: DateRange): (l: Label)
    ensures l.Between? <==> p == Custom
    ensures l.Between? ==> l.from == range.from && l.to == range.to
  {
    match p
    case Last7 => Fixed("Last 7 days")
    case Last30 => Fixed("Last 30 days")
    case Last90 => Fixed("Last 90 days")
    case YearToDate => Fixed("Year to date")
    case Custom => Between(range.from, range.to)
  }

  /** `getTimePhrase`. */
  function TimePhraseOf(p: DatePreset): (phrase: string)
    ensures p != Custom && p != Last90 ==> phrase == Insights.GetTimePhrasing(PresetName(p)).phrase
    ensures p == Last90 ==> phrase != Insights.GetTimePhrasing(PresetName(p)).phrase
  {
    match p
    case Last7 => "over the past 7 days"
    case Last30 => "over the past 30 days"
    case Last90 => "over the past 90 days"
    case YearToDate => "since the start of the year"
    case Custom => "during the selected period"
  }

  /** The provider's state: `preset` and `dateRange`. */
  class DateRangeState {
    var preset: DatePreset
    var range: DateRange

    /** The initial state: "30d" with its range. */
    constructor (clock: ValidClock)
      ensures preset == Last30 && range == RangeFromPreset(Last30, clock)
    {
      preset := Last30;
      range := RangeFromPreset(Last30, clock);
    }

    /** Every preset other than "custom" holds its own range, which ends no earlier than it starts. */
    ghost predicate PresetRangeAgrees(clock: ValidClock)
      reads this
    {
      preset != Custom ==> range == RangeFromPreset(preset, clock) && range.from <= range.to
    }

    /** `setPreset`: a named preset replaces the range; "custom" keeps the range it has. */
    method SetPreset(p: DatePreset, clock: ValidClock)
      modifies this
      ensures preset == p
      ensures p != Custom ==> range == RangeFromPreset(p, clock)
      ensures p == Custom ==> range == old(range)
      ensures PresetRangeAgrees(clock)
    {
      preset := p;
      if p != Custom {
        range := RangeFromPreset(p, clock);
      }
    }

    /** `setCustomRange`: the range is stored exactly as given, neither ordered nor checked. */
    method SetCustomRange(from: int, to: int)
      modifies this
      ensures preset == Custom && range == DateRange(from, to)
    {
      preset := Custom;
      range := DateRange(from, to);
    }

    function GetLabel(): Label
      reads this
    {
      LabelOf(preset, range)
    }

    function GetTimePhrase(): string
      reads this
    {
      TimePhraseOf(preset)
    }
  }

  // ---------------------------------------------------------------------------
  // Properties
  // ---------------------------------------------------------------------------

  /** The four named presets have four different labels and four different phrases. */
  lemma FixedTextsDistinct(p: DatePreset, q: DatePreset, range: DateRange)
    requires p != Custom && q != Custom && p != q
    ensures LabelOf(p, range) != LabelOf(q, range)
    ensures TimePhraseOf(p) != TimePhraseOf(q)
  {
  }

  /** A custom range is never labelled or phrased like a named preset, whatever days it holds. */
  lemma CustomTextsDiffer(p: DatePreset, range: DateRange, other: DateRange)
    requires p != Custom
    ensures LabelOf(Custom, range) != LabelOf(p, other)
    ensures TimePhraseOf(Custom) != TimePhraseOf(p)
  {
  }

  /** The label of a named preset does not depend on the range held next to it. */
  lemma FixedLabelIgnoresRange(p: DatePreset, r1: DateRange, r2: DateRange)
    requires p != Custom
    ensures LabelOf(p, r1) == LabelOf(p, r2)
  {
  }

  /** Longer presets start earlier: 7 days within 30 within 90. */
  lemma PresetRangesNested(clock: ValidClock)
    ensures RangeFromPreset(Last90, clock).from < RangeFromPreset(Last30, clock).from < RangeFromPreset(Last7, clock).from
  {
  }

  /**
   * The context's phrase and the insight engine's phrase agree for "7d", "30d"
   * and "ytd"; for "90d" the context says "over the past 90 days" where the
   * insights say "over the past quarter".
   */
  lemma PhrasesAgreeWithInsights(p: DatePreset)
    requires p != Custom
    ensures TimePhraseOf(p) == Insights.GetTimePhrasing(PresetName(p)).phrase <==> p != Last90
  {
  }
}

=== FILE: execution_diagnostics.dfy ===
/**
 * The "Execution Diagnostics" panels: metric gaps between exactly two
 * vendors, a per-category (OLA) or per-band (SoS) comparison table, and data
 * coverage counts per platform with an imbalance warning.
 */
module ExecutionDiagnostics {
  import opened Wrappers
  import opened RealSeqs
  import opened Grouping
  import opened Sorting
  import opened DashboardVariant
  import opened JsStrings

  // ---------------------------------------------------------------------------
  // Gap status
  // ---------------------------------------------------------------------------

  datatype Status = Success | Warning | Danger

  /** Success, warning, danger as 0, 1, 2. */
  function Rank(s: Status): nat
  {
    match s
    case Success => 0
    case Warning => 1
    case Danger => 2
  }

  /** `gapStatus`: within half the threshold, within the threshold, or beyond it; both bounds inclusive. */
  function GapStatus(gapPP: real, thresholdPP: real): (s: Status)
    ensures s == Success <==> gapPP <= thresholdPP * 0.5
    ensures s == Warning <==> thresholdPP * 0.5 < gapPP <= thresholdPP
    ensures s == Danger <==> gapPP > thresholdPP * 0.5 && gapPP > thresholdPP
  {
    if gapPP <= thresholdPP * 0.5 then Success
    else if gapPP <= thresholdPP then Warning
    else Danger
  }

  /** A wider gap never gets a better status. */
  lemma GapStatusMonotone(g1: real, g2: real, thresholdPP: real)
    requires g1 <= g2
    ensures Rank(GapStatus(g1, thresholdPP)) <= Rank(GapStatus(g2, thresholdPP))
  {
  }

  // ---------------------------------------------------------------------------
  // Vendor gaps
  // ---------------------------------------------------------------------------

  /** One vendor-health row: its platform and its metric columns (absent or null when missing). */
  datatype Vendor = Vendor(platform: string, fields: map<string, Option<real>>)

  /** `row[key] ?? 0`. */
  function Field(v: Vendor, key: string): real
  {
    if key in v.fields then Or0(v.fields[key]) else 0.0
  }

  /** One `addGap(label, tooltip, key, thresholdPP)` call; `metric` is its label. */
  datatype GapDef = GapDef(metric: string, tooltip: string, key: string, thresholdPP: real)

  const OLAGapDefs: seq<GapDef> := [
    GapDef("Availability", "Overall availability % gap between platforms.", "availability_pct", 5.0),
    GapDef("Must-Have Avail", "Gap in must-have SKU availability between platforms.", "must_have_availability_pct", 5.0),
    GapDef("SKU Consistency", "Gap in long-term stock consistency between platforms.", "sku_reliability_pct", 10.0)
  ]

  const SoSGapDefs: seq<GapDef> := [
    GapDef("Page 1 Presence", "Gap in top-10 search result presence between platforms.", "top10_presence_pct", 5.0),
    GapDef("Elite Share", "Gap in top-3 ranking share between platforms.", "elite_rank_share_pct", 5.0),
    GapDef("Rank Stability", "Difference in average rank movement between platforms.", "avg_rank_volatility", 2.0)
  ]

  function GapDefs(variant: Variant): (defs: seq<GapDef>)
    ensures |defs| == 3
  {
    if variant == OLA then OLAGapDefs else SoSGapDefs
  }

  /** A pushed gap; `gapPP` is the number its label shows. */
  datatype VendorGap = VendorGap(metric: string, tooltip: string, platforms: map<string, real>,
                                 gap: real, gapPP: real, status: Status)

  /** The gap in percentage points: every OLA metric is a fraction, and so is every SoS key naming "pct". */
  function ScaleGap(variant: Variant, key: string, gap: real): (pp: real)
    ensures variant == OLA || Includes(key, "pct") ==> pp == gap * 100.0
    ensures variant == SoS && !Includes(key, "pct") ==> pp == gap
    ensures gap >= 0.0 ==> gap <= pp
  {
    if variant == OLA || Includes(key, "pct") then gap * 100.0 else gap
  }

  /** `addGap`: the absolute difference of the two vendors' values, a missing value read as 0. */
  function AddGap(variant: Variant, a: Vendor, b: Vendor, d: GapDef): (g: VendorGap)
    ensures g.gap >= 0.0
    ensures g.gap == Field(a, d.key) - Field(b, d.key) || g.gap == Field(b, d.key) - Field(a, d.key)
    ensures g.gapPP == ScaleGap(variant, d.key, g.gap)
    ensures g.status == GapStatus(g.gapPP, d.thresholdPP)
    ensures g.platforms.Keys == {a.platform, b.platform}
  {
    var va, vb := Field(a, d.key), Field(b, d.key);
    var gapVal := Abs(va - vb);
    var gapPP := ScaleGap(variant, d.key, gapVal);
    VendorGap(d.metric, d.tooltip, map[a.platform := va][b.platform := vb], gapVal, gapPP, GapStatus(gapPP, d.thresholdPP))
  }

  /** The gaps panel: three gaps when there are exactly two vendors, none otherwise. */
  function Gaps(variant: Variant, vendors: seq<Vendor>): (r: seq<VendorGap>)
    ensures |vendors| != 2 ==> r == []
    ensures |vendors| == 2 ==> |r| == 3
  {
    if |vendors| == 2 then
      var defs := GapDefs(variant);
      [AddGap(variant, vendors[0], vendors[1], defs[0]), AddGap(variant, vendors[0], vendors[1], defs[1]),
       AddGap(variant, vendors[0], vendors[1], defs[2])]
    else
      []
  }

  /** The three `addGap` calls pushing into `gapMetrics`. */
  method ComputeGaps(variant: Variant, vendors: seq<Vendor>) returns (gapMetrics: seq<VendorGap>)
    ensures gapMetrics == Gaps(variant, vendors)
  {
    gapMetrics := [];
    if |vendors| == 2 {
      var a, b := vendors[0], vendors[1];
      var defs := GapDefs(variant);
      gapMetrics := gapMetrics + [AddGap(variant, a, b, defs[0])];
      gapMetrics := gapMetrics + [AddGap(variant, a, b, defs[1])];
      gapMetrics := gapMetrics + [AddGap(variant, a, b, defs[2])];
    }
  }

  /**
   * Swapping the two vendors changes neither the gap nor its status. The
   * per-platform values are the vendors' own, except that two rows of the
   * same platform leave only the second one's value.
   */
  lemma GapSymmetric(variant: Variant, a: Vendor, b: Vendor, d: GapDef)
    ensures AddGap(variant, a, b, d).gap == AddGap(variant, b, a, d).gap
    ensures AddGap(variant, a, b, d).status == AddGap(variant, b, a, d).status
    ensures var g := AddGap(variant, a, b, d);
            && g.platforms[b.platform] == Field(b, d.key)
            && (a.platform != b.platform ==> g.platforms[a.platform] == Field(a, d.key))
  {
  }

  /** Which gaps are taken in percentage points: all OLA gaps, and the two SoS "pct" keys but not rank stability. */
  lemma GapScaling(g: real)
    ensures forall i :: 0 <= i < 3 ==> ScaleGap(OLA, OLAGapDefs[i].key, g) == g * 100.0
    ensures ScaleGap(SoS, SoSGapDefs[0].key, g) == g * 100.0
    ensures ScaleGap(SoS, SoSGapDefs[1].key, g) == g * 100.0
    ensures ScaleGap(SoS, SoSGapDefs[2].key, g) == g
  {
    PctKeys();
  }

  /** Two of the SoS keys hold "pct"; rank volatility does not. */
  lemma PctKeys()
    ensures Includes("top10_presence_pct", "pct")
    ensures Includes("elite_rank_share_pct", "pct")
    ensures !Includes("avg_rank_volatility", "pct")
  {
    PresenceKeyHasPct();
    EliteKeyHasPct();
    VolatilityKeyLacksP();
    FirstCharAbsent("avg_rank_volatility", "pct");
  }

  lemma PresenceKeyHasPct()
    ensures Includes("top10_presence_pct", "pct")
  {
    IncludesAt("top10_presence_pct", "pct", 15);
  }

  lemma EliteKeyHasPct()
    ensures Includes("elite_rank_share_pct", "pct")
  {
    IncludesAt("elite_rank_share_pct", "pct", 17);
  }

  lemma VolatilityKeyLacksP()
    ensures 'p' !in "avg_rank_volatility"
  {
    var s := "avg_rank_volatility";
    forall i | 0 <= i < |s| ensures s[i] != 'p' {
    }
  }

  // ---------------------------------------------------------------------------
  // Cell colours
  // ---------------------------------------------------------------------------

  datatype CatColor = Muted | SuccessText | WarningText | DangerText | Foreground

  /** `getCatValueColor`: availability bands for OLA, plain text for SoS counts, muted for null. */
  function CatValueColor(variant: Variant, v: Option<real>): (c: CatColor)
    ensures c == Muted <==> v.None?
    ensures variant == SoS && v.Some? ==> c == Foreground
    ensures variant == OLA && v.Some? ==>
              && (c == SuccessText <==> v.value >= 0.85)
              && (c == WarningText <==> 0.7 <= v.value < 0.85)
              && (c == DangerText <==> v.value < 0.7)
  {
    match v
    case None => Muted
    case Some(x) =>
      if variant == OLA then
        if x >= 0.85 then SuccessText else if x >= 0.7 then WarningText else DangerText
      else
        Foreground
  }

  // ---------------------------------------------------------------------------
  // Coverage imbalance
  // ---------------------------------------------------------------------------

  /** The larger count over the smaller when both are positive, 1 otherwise. */
  function ImbalanceRatio(v0: int, v1: int): (r: real)
    ensures r >= 1.0
    ensures !(v0 > 0 && v1 > 0) ==> r == 1.0
    ensures v0 > 0 && v1 > 0 ==>
              r * (if v0 < v1 then v0 else v1) as real == (if v0 < v1 then v1 else v0) as real
  {
    if v0 > 0 && v1 > 0 then
      var hi, lo := if v0 < v1 then v1 else v0, if v0 < v1 then v0 else v1;
      hi as real / lo as real
    else
      1.0
  }

  /** The imbalance callout: two platforms, some coverage rows, and a ratio above 1.5. */
  predicate ShowsImbalance(platformCount: nat, coverageRows: nat, v0: int, v1: int)
  {
    platformCount == 2 && coverageRows > 0 && ImbalanceRatio(v0, v1) > 1.5
  }

  /** The callout does not depend on which platform is listed first, and fires exactly when one count exceeds 1.5 times the other. */
  lemma ImbalanceExactly(v0: int, v1: int)
    ensures ImbalanceRatio(v0, v1) == ImbalanceRatio(v1, v0)
    ensures ShowsImbalance(2, 1, v0, v1) <==> v0 > 0 && v1 > 0 && (2 * v0 > 3 * v1 || 2 * v1 > 3 * v0)
  {
    if v0 > 0 && v1 > 0 {
      if v0 < v1 {
        RatioAboveThreeHalves(v1, v0);
      } else {
        RatioAboveThreeHalves(v0, v1);
      }
    }
  }

  lemma RatioAboveThreeHalves(hi: int, lo: int)
    requires 0 < lo <= hi
    ensures hi as real / lo as real > 1.5 <==> 2 * hi > 3 * lo
  {
    QuotientAbove(hi as real / lo as real, hi as real, lo as real, 1.5);
  }

  /** For a positive divisor, a quotient exceeds c exactly when the dividend exceeds c times the divisor. */
  lemma QuotientAbove(r: real, h: real, l: real, c: real)
    requires l > 0.0 && r * l == h
    ensures r > c <==> h > c * l
  {
    if r > c {
      ProductPositive(r - c, l);
    } else if c > r {
      ProductPositive(c - r, l);
    }
  }

  lemma ProductPositive(a: real, b: real)
    requires a > 0.0 && b > 0.0
    ensures a * b > 0.0
  {
  }

  // ---------------------------------------------------------------------------
  // Category availability (OLA)
  // ---------------------------------------------------------------------------

  /** One `ola_category_health_mat` row: business group, platform and availability. */
  datatype CategoryHealth = CategoryHealth(category: string, platform: string, value: Option<real>)

  /** A category's `Record<string, number | null>`: its platforms in insertion order and their values. */
  datatype PlatformValues = PlatformValues(platforms: seq<string>, values: map<string, Option<real>>)

  const EmptyRecord: PlatformValues := PlatformValues([], map[])

  /** Every row is grouped under its business group. */
  function CategoryEntry(r: CategoryHealth): Option<(string, string)>
  {
    Some((r.category, r.platform))
  }

  /**
   * `catMap.get(c)` after the loop: `row.platform` set to `row.availability_pct`
   * for every row of category `c`, in row order. The record is empty exactly when
   * `c` was never set.
   */
  function Record(rows: seq<CategoryHealth>, c: string): (r: PlatformValues)
    ensures r.values.Keys == set p | p in r.platforms
    ensures c !in Keys(rows, CategoryEntry) ==> r == EmptyRecord
    ensures c in Keys(rows, CategoryEntry) ==> |r.platforms| > 0
  {
    if rows == [] then EmptyRecord
    else
      var prev := Record(rows[..|rows| - 1], c);
      var row := rows[|rows| - 1];
      if row.category != c then prev
      else SetPlatform(prev, row.platform, row.value)
  }

  /** `record[p] = v`: a new key goes to the end, an existing key keeps its place. */
  function SetPlatform(rec: PlatformValues, p: string, v: Option<real>): PlatformValues
  {
    PlatformValues(if p in rec.values then rec.platforms else rec.platforms + [p], rec.values[p := v])
  }

  datatype CategoryRow = CategoryRow(category: string, record: PlatformValues)

  /** `Array.from(catMap.entries())`: one row per business group, in first-appearance order. */
  function CategoryRows(rows: seq<CategoryHealth>): (r: seq<CategoryRow>)
    ensures |r| == |Keys(rows, CategoryEntry)|
  {
    var ks := Keys(rows, CategoryEntry);
    seq(|ks|, i requires 0 <= i < |ks| => CategoryRow(ks[i], Record(rows, ks[i])))
  }

  /** `Object.values(record)` with null read as 0. */
  function RecordValues(rec: PlatformValues): (vs: seq<real>)
    ensures |vs| == |rec.platforms|
  {
    seq(|rec.platforms|, i requires 0 <= i < |rec.platforms| =>
      if rec.platforms[i] in rec.values then Or0(rec.values[rec.platforms[i]]) else 0.0)
  }

  /** The sort key: the sum of the values over their number (never 0 for a row that was built). */
  function RowAverage(row: CategoryRow): (avg: real)
    ensures |RecordValues(row.record)| > 0 ==> Min(RecordValues(row.record)) <= avg <= Max(RecordValues(row.record))
  {
    var vs := RecordValues(row.record);
    if |vs| == 0 then 0.0 else MeanBetweenMinAndMax(vs); Mean(vs)
  }

  /** The comparator `avgA - avgB`: weakest first. */
  predicate AverageLe(a: CategoryRow, b: CategoryRow)
  {
    RowAverage(a) <= RowAverage(b)
  }

  /** The category rows as displayed: sorted by ascending average. */
  function SortedCategories(rows: seq<CategoryHealth>): seq<CategoryRow>
  {
    SortBy(CategoryRows(rows), AverageLe)
  }

  /** The `catMap` loop, then the sort of its entries. */
  method BuildCategoryRows(catData: seq<CategoryHealth>) returns (catRows: seq<CategoryRow>)
    ensures catRows == SortedCategories(catData)
  {
    var order: seq<string> := [];
    var catMap: map<string, PlatformValues> := map[];
    for i := 0 to |catData|
      invariant order == Keys(catData[..i], CategoryEntry)
      invariant catMap.Keys == set c | c in order
      invariant forall c :: c in catMap ==> catMap[c] == Record(catData[..i], c)
    {
      var row := catData[i];
      assert catData[..i + 1][..i] == catData[..i];
      if row.category !in catMap {
        catMap := catMap[row.category := EmptyRecord];
        order := order + [row.category];
      }
      catMap := catMap[row.category := SetPlatform(catMap[row.category], row.platform, row.value)];
    }
    assert catData[..|catData|] == catData;
    var entries := seq(|order|, i requires 0 <= i < |order| => CategoryRow(order[i], catMap[order[i]]));
    assert entries == CategoryRows(catData);
    catRows := SortBy(entries, AverageLe);
  }

  /** The record holds a platform exactly when some row of the category names it. */
  lemma {:induction false} RecordPlatforms(rows: seq<CategoryHealth>, c: string, p: string)
    ensures p in Record(rows, c).values <==> exists i :: 0 <= i < |rows| && rows[i].category == c && rows[i].platform == p
  {
    if rows != [] {
      var prefix := rows[..|rows| - 1];
      RecordPlatforms(prefix, c, p);
      assert forall i :: 0 <= i < |prefix| ==> prefix[i] == rows[i];
    }
  }

  /** The row of category `c` and platform `p` whose value the record holds: the last one. */
  ghost predicate LastWrite(rows: seq<CategoryHealth>, c: string, p: string, i: int, v: Option<real>)
  {
    && 0 <= i < |rows| && rows[i].category == c && rows[i].platform == p && rows[i].value == v
    && forall j :: i < j < |rows| ==> !(rows[j].category == c && rows[j].platform == p)
  }

  /** A later row for the same category and platform overwrites the earlier one. */
  lemma {:induction false} LastWriteWins(rows: seq<CategoryHealth>, c: string, p: string)
    requires p in Record(rows, c).values
    ensures exists i :: LastWrite(rows, c, p, i, Record(rows, c).values[p])
  {
    if rows == [] {
      assert false;
    }
    var prefix := rows[..|rows| - 1];
    var last := rows[|rows| - 1];
    if last.category == c && last.platform == p {
      assert LastWrite(rows, c, p, |rows| - 1, Record(rows, c).values[p]);
    } else {
      RecordOtherRow(rows, c, p);
      LastWriteWins(prefix, c, p);
      var i :| LastWrite(prefix, c, p, i, Record(prefix, c).values[p]);
      LastWriteSurvives(rows, c, p, i, Record(prefix, c).values[p]);
    }
  }

  /** A last row of another category or platform leaves the platform's entry as it was. */
  lemma RecordOtherRow(rows: seq<CategoryHealth>, c: string, p: string)
    requires |rows| > 0 && !(rows[|rows| - 1].category == c && rows[|rows| - 1].platform == p)
    ensures var before := Record(rows[..|rows| - 1], c).values;
            && (p in Record(rows, c).values <==> p in before)
            && (p in before ==> Record(rows, c).values[p] == before[p])
  {
  }

  /** The last write stays the last when a row of another category or platform follows. */
  lemma LastWriteSurvives(rows: seq<CategoryHealth>, c: string, p: string, i: int, v: Option<real>)
    requires |rows| > 0 && !(rows[|rows| - 1].category == c && rows[|rows| - 1].platform == p)
    requires LastWrite(rows[..|rows| - 1], c, p, i, v)
    ensures LastWrite(rows, c, p, i, v)
  {
    var prefix := rows[..|rows| - 1];
    assert rows[i] == prefix[i];
    forall j | i < j < |rows| ensures !(rows[j].category == c && rows[j].platform == p) {
      if j < |rows| - 1 {
        assert rows[j] == prefix[j];
      }
    }
  }

  /** One row per business group: no group twice, none missing, none invented, each with at least one platform. */
  lemma CategoryRowsExactly(rows: seq<CategoryHealth>, c: string)
    ensures Distinct(seq(|CategoryRows(rows)|, i requires 0 <= i < |CategoryRows(rows)| => CategoryRows(rows)[i].category))
    ensures (exists k :: 0 <= k < |CategoryRows(rows)| && CategoryRows(rows)[k].category == c)
            <==> exists i :: 0 <= i < |rows| && rows[i].category == c
    ensures forall k :: 0 <= k < |CategoryRows(rows)| ==> |CategoryRows(rows)[k].record.platforms| > 0
  {
    var ks := Keys(rows, CategoryEntry);
    KeysDistinct(rows, CategoryEntry);
    KeysExactly(rows, CategoryEntry, c);
    assert seq(|CategoryRows(rows)|, i requires 0 <= i < |CategoryRows(rows)| => CategoryRows(rows)[i].category) == ks;
    if exists i :: 0 <= i < |rows| && rows[i].category == c {
      var i :| 0 <= i < |rows| && rows[i].category == c;
      assert HasKey(rows, CategoryEntry, i, c);
    }
    if exists k :: 0 <= k < |CategoryRows(rows)| && CategoryRows(rows)[k].category == c {
      var k :| 0 <= k < |CategoryRows(rows)| && CategoryRows(rows)[k].category == c;
      assert c in ks;
    }
  }

  lemma AverageLeTotalPreorder()
    ensures TotalPreorder(AverageLe)
  {
  }

  /** The displayed rows are the category rows rearranged, weakest average first. */
  lemma SortedCategoriesAscending(rows: seq<CategoryHealth>)
    ensures multiset(SortedCategories(rows)) == multiset(CategoryRows(rows))
    ensures forall i, j :: 0 <= i < j < |SortedCategories(rows)| ==>
              RowAverage(SortedCategories(rows)[i]) <= RowAverage(SortedCategories(rows)[j])
  {
    AverageLeTotalPreorder();
    SortBySorted(CategoryRows(rows), AverageLe);
  }

  /** `row.platforms[p] ?? null`: the value shown in a category cell. */
  function CategoryCell(row: CategoryRow, p: string): Option<real>
  {
    if p in row.record.values then row.record.values[p] else None
  }

  /**
   * A category cell shows null when no row has that category and platform, and
   * otherwise the value of the last such row.
   */
  lemma CategoryCellShowsLastWrite(rows: seq<CategoryHealth>, c: string, p: string)
    ensures var v := CategoryCell(CategoryRow(c, Record(rows, c)), p);
            && ((forall i :: 0 <= i < |rows| ==> !(rows[i].category == c && rows[i].platform == p)) ==> v.None?)
            && (v.Some? ==> exists i :: LastWrite(rows, c, p, i, v))
  {
    RecordPlatforms(rows, c, p);
    if p in Record(rows, c).values {
      LastWriteWins(rows, c, p);
    }
  }

  // ---------------------------------------------------------------------------
  // Distinct locations and weeks
  // ---------------------------------------------------------------------------

  /** A `(platform, location)` or `(platform, week)` row. */
  datatype Sighting = Sighting(platform: string, item: string)

  /** The distinct items seen on platform `p`. */
  function DistinctItems(rows: seq<Sighting>, p: string): set<string>
  {
    set r | r in rows && r.platform == p :: r.item
  }

  /** `byPlatform.get(p)?.size ?? 0`. */
  function CoverageCount(byPlatform: map<string, set<string>>, p: string): nat
  {
    if p in byPlatform then |byPlatform[p]| else 0
  }

  /** The `locByPlatform` / `weeksByPlatform` loop: a set per platform that occurs. */
  method CollectDistinct(rows: seq<Sighting>) returns (byPlatform: map<string, set<string>>)
    ensures forall p :: p in byPlatform <==> exists i :: 0 <= i < |rows| && rows[i].platform == p
    ensures forall p :: p in byPlatform ==> byPlatform[p] == DistinctItems(rows, p)
    ensures forall p :: CoverageCount(byPlatform, p) == |DistinctItems(rows, p)|
  {
    byPlatform := map[];
    for i := 0 to |rows|
      invariant forall p :: p in byPlatform <==> exists j :: 0 <= j < i && rows[j].platform == p
      invariant forall p :: p in byPlatform ==> byPlatform[p] == DistinctItems(rows[..i], p)
      invariant forall p :: p !in byPlatform ==> DistinctItems(rows[..i], p) == {}
    {
      var row := rows[i];
      DistinctItemsSnoc(rows[..i], row);
      assert rows[..i + 1] == rows[..i] + [row];
      if row.platform !in byPlatform {
        byPlatform := byPlatform[row.platform := {}];
      }
      byPlatform := byPlatform[row.platform := byPlatform[row.platform] + {row.item}];
    }
    assert rows[..|rows|] == rows;
  }

  /** Adding a row adds its item to its own platform only. */
  lemma DistinctItemsSnoc(rows: seq<Sighting>, x: Sighting)
    ensures DistinctItems(rows + [x], x.platform) == DistinctItems(rows, x.platform) + {x.item}
    ensures forall p :: p != x.platform ==> DistinctItems(rows + [x], p) == DistinctItems(rows, p)
  {
    assert forall r :: r in rows + [x] <==> r in rows || r == x;
  }

  /** The counts depend only on which rows occur: repeating a row or reordering the rows changes nothing. */
  lemma DistinctCountsIgnoreDuplicatesAndOrder(a: seq<Sighting>, b: seq<Sighting>, p: string)
    requires forall r :: r in a <==> r in b
    ensures DistinctItems(a, p) == DistinctItems(b, p)
  {
  }

  /** A platform never counts more distinct items than it has rows. */
  lemma {:induction false} DistinctCountAtMostRows(rows: seq<Sighting>, p: string)
    ensures |DistinctItems(rows, p)| <= |rows|
  {
    if rows != [] {
      var prefix, last := rows[..|rows| - 1], rows[|rows| - 1];
      assert rows == prefix + [last];
      DistinctCountAtMostRows(prefix, p);
      DistinctItemsSnoc(prefix, last);
    }
  }

  // ---------------------------------------------------------------------------
  // Coverage rows and the imbalance callout
  // ---------------------------------------------------------------------------

  /** `vendors.find(v => v.platform === p)`: the first vendor row of the platform. */
  function FindPlatform(vendors: seq<Vendor>, p: string): (r: Option<nat>)
    ensures r.None? <==> forall i :: 0 <= i < |vendors| ==> vendors[i].platform != p
    ensures r.Some? ==> r.value < |vendors| && vendors[r.value].platform == p
                        && forall i :: 0 <= i < r.value ==> vendors[i].platform != p
  {
    if vendors == [] then None
    else if vendors[0].platform == p then Some(0)
    else
      match FindPlatform(vendors[1..], p)
      case None => None
      case Some(k) => Some(k + 1)
  }

  /**
   * `(vendors.find(...)?.[key] ?? 0)`: a tracked count; counts are whole numbers,
   * which the `toLocaleString` and `parseInt` of the callout give back unchanged.
   */
  function TrackedCount(vendors: seq<Vendor>, key: string, p: string): (n: int)
    ensures FindPlatform(vendors, p).None? ==> n == 0
    ensures FindPlatform(vendors, p).Some? ==>
              var v := Field(vendors[FindPlatform(vendors, p).value], key);
              n as real <= v < n as real + 1.0
  {
    match FindPlatform(vendors, p)
    case None => 0
    case Some(k) => Field(vendors[k], key).Floor
  }

  /** One coverage row: a count per platform. */
  datatype CoverageRow = CoverageRow(metric: string, counts: map<string, int>)

  function Platforms(vendors: seq<Vendor>): (ps: seq<string>)
    ensures |ps| == |vendors| && forall i :: 0 <= i < |ps| ==> ps[i] == vendors[i].platform
  {
    seq(|vendors|, i requires 0 <= i < |vendors| => vendors[i].platform)
  }

  function TrackedKey(variant: Variant): string
  {
    if variant == OLA then "skus_tracked" else "keywords_tracked"
  }

  /** The coverage panel: tracked count, then (OLA only) locations, then weeks of data. */
  function CoverageRows(variant: Variant, vendors: seq<Vendor>, locations: seq<Sighting>, weeks: seq<Sighting>): (r: seq<CoverageRow>)
    ensures |r| == (if variant == OLA then 3 else 2)
    ensures forall k :: 0 <= k < |r| ==> r[k].counts.Keys == set p | p in Platforms(vendors)
  {
    var plats := Platforms(vendors);
    var tracked := CoverageRow(if variant == OLA then "SKUs Tracked" else "Keywords Tracked",
                               map p | p in plats :: TrackedCount(vendors, TrackedKey(variant), p));
    var weekRow := CoverageRow("Weeks of Data", map p | p in plats :: |DistinctItems(weeks, p)|);
    if variant == OLA then
      [tracked, CoverageRow("Locations", map p | p in plats :: |DistinctItems(locations, p)|), weekRow]
    else
      [tracked, weekRow]
  }

  /** `first.platforms[p] ?? "0"`, read back as a number. */
  function CoverageValue(row: CoverageRow, p: string): int
  {
    if p in row.counts then row.counts[p] else 0
  }

  /** Whether the imbalance callout is rendered under the coverage rows. */
  predicate ImbalanceCallout(platforms: seq<string>, coverage: seq<CoverageRow>)
  {
    && |platforms| == 2 && |coverage| > 0
    && ShowsImbalance(|platforms|, |coverage|, CoverageValue(coverage[0], platforms[0]), CoverageValue(coverage[0], platforms[1]))
  }

  /**
   * With two vendors, the callout compares their tracked counts and fires exactly
   * when one is more than 1.5 times the other (both positive); with any other
   * number of vendors it never fires.
   */
  lemma ImbalanceComparesTrackedCounts(variant: Variant, vendors: seq<Vendor>, locations: seq<Sighting>, weeks: seq<Sighting>)
    ensures |vendors| != 2 ==> !ImbalanceCallout(Platforms(vendors), CoverageRows(variant, vendors, locations, weeks))
    ensures |vendors| == 2 ==>
              var v0 := TrackedCount(vendors, TrackedKey(variant), vendors[0].platform);
              var v1 := TrackedCount(vendors, TrackedKey(variant), vendors[1].platform);
              ImbalanceCallout(Platforms(vendors), CoverageRows(variant, vendors, locations, weeks))
              <==> v0 > 0 && v1 > 0 && (2 * v0 > 3 * v1 || 2 * v1 > 3 * v0)
  {
    if |vendors| == 2 {
      var plats := Platforms(vendors);
      var first := CoverageRows(variant, vendors, locations, weeks)[0];
      assert plats[0] in plats && plats[1] in plats;
      var v0 := TrackedCount(vendors, TrackedKey(variant), vendors[0].platform);
      var v1 := TrackedCount(vendors, TrackedKey(variant), vendors[1].platform);
      assert CoverageValue(first, plats[0]) == v0;
      assert CoverageValue(first, plats[1]) == v1;
      ImbalanceExactly(v0, v1);
    }
  }

  // ---------------------------------------------------------------------------
  // Keyword performance bands (SoS)
  // ---------------------------------------------------------------------------

  /** One `sos_keyword_risk_mat` row. */
  datatype KeywordBand = KeywordBand(keyword: string, band: string, platform: string)

  /** The number of rows in band `b` on platform `p`. */
  function BandCount(rows: seq<KeywordBand>, b: string, p: string): nat
  {
    if rows == [] then 0
    else
      var last := rows[|rows| - 1];
      BandCount(rows[..|rows| - 1], b, p) + if last.band == b && last.platform == p then 1 else 0
  }

  /** Counts add up over consecutive stretches of rows, so they do not depend on where a row stands. */
  lemma {:induction false} BandCountAppend(a: seq<KeywordBand>, c: seq<KeywordBand>, b: string, p: string)
    ensures BandCount(a + c, b, p) == BandCount(a, b, p) + BandCount(c, b, p)
    decreases |c|
  {
    if c == [] {
      assert a + c == a;
    } else {
      var c' := c[..|c| - 1];
      assert (a + c)[..|a + c| - 1] == a + c';
      BandCountAppend(a, c', b, p);
    }
  }

  /** A positive count means some row has that band and platform. */
  lemma {:induction false} BandCountPositive(rows: seq<KeywordBand>, b: string, p: string)
    ensures BandCount(rows, b, p) > 0 <==> exists i :: 0 <= i < |rows| && rows[i].band == b && rows[i].platform == p
  {
    if rows != [] {
      var prefix := rows[..|rows| - 1];
      BandCountPositive(prefix, b, p);
      assert forall i :: 0 <= i < |prefix| ==> prefix[i] == rows[i];
    }
  }

  /** What the `bandMap` loop knows after a prefix of the rows: which bands it has seen, and their counts. */
  ghost predicate Counted(bandMap: map<string, map<string, nat>>, prefix: seq<KeywordBand>)
  {
    BandsSeen(bandMap, prefix) && CountsMatch(bandMap, prefix)
  }

  ghost predicate BandsSeen(bandMap: map<string, map<string, nat>>, prefix: seq<KeywordBand>)
  {
    forall b :: b in bandMap <==> exists j :: 0 <= j < |prefix| && prefix[j].band == b
  }

  ghost predicate CountsMatch(bandMap: map<string, map<string, nat>>, prefix: seq<KeywordBand>)
  {
    && (forall b, p :: b in bandMap ==> (p in bandMap[b] <==> BandCount(prefix, b, p) > 0))
    && (forall b, p :: b in bandMap && p in bandMap[b] ==> bandMap[b][p] == BandCount(prefix, b, p))
    && (forall b, p :: b !in bandMap ==> BandCount(prefix, b, p) == 0)
  }

  /** One row's update: its band gets a counter map if it had none, and its platform's counter goes up by one. */
  function Bump(bandMap: map<string, map<string, nat>>, row: KeywordBand): map<string, map<string, nat>>
  {
    var counts := if row.band in bandMap then bandMap[row.band] else map[];
    var n := if row.platform in counts then counts[row.platform] else 0;
    bandMap[row.band := counts[row.platform := n + 1]]
  }

  lemma CountedStep(bandMap: map<string, map<string, nat>>, rows: seq<KeywordBand>, i: nat)
    requires i < |rows| && Counted(bandMap, rows[..i])
    ensures Counted(Bump(bandMap, rows[i]), rows[..i + 1])
  {
    BandsSeenStep(bandMap, rows, i);
    CountsMatchStep(bandMap, rows, i);
  }

  lemma BandsSeenStep(bandMap: map<string, map<string, nat>>, rows: seq<KeywordBand>, i: nat)
    requires i < |rows| && BandsSeen(bandMap, rows[..i])
    ensures BandsSeen(Bump(bandMap, rows[i]), rows[..i + 1])
  {
    var row, prefix, next := rows[i], rows[..i], rows[..i + 1];
    var m := Bump(bandMap, row);
    assert m.Keys == bandMap.Keys + {row.band};
    forall b ensures b in m <==> exists j :: 0 <= j < |next| && next[j].band == b {
      if b in m && b != row.band {
        var j :| 0 <= j < |prefix| && prefix[j].band == b;
        assert next[j] == prefix[j];
      }
      if b == row.band {
        assert next[i] == row;
      }
      if b !in m {
        forall j | 0 <= j < |next| ensures next[j].band != b {
          if j < i { assert next[j] == prefix[j]; }
        }
      }
    }
  }

  lemma CountsMatchStep(bandMap: map<string, map<string, nat>>, rows: seq<KeywordBand>, i: nat)
    requires i < |rows| && CountsMatch(bandMap, rows[..i])
    ensures CountsMatch(Bump(bandMap, rows[i]), rows[..i + 1])
  {
    var row, prefix, next := rows[i], rows[..i], rows[..i + 1];
    assert next[..i] == prefix && next[i] == row;
    assert forall b, p :: BandCount(next, b, p) == BandCount(prefix, b, p) + if row.band == b && row.platform == p then 1 else 0;
  }

  /** The `bandMap` loop: one counter per (band, platform) that occurs, incremented per row. */
  method CountBands(rows: seq<KeywordBand>) returns (bandMap: map<string, map<string, nat>>)
    ensures forall b :: b in bandMap <==> exists i :: 0 <= i < |rows| && rows[i].band == b
    ensures forall b, p :: b in bandMap ==> (p in bandMap[b] <==> BandCount(rows, b, p) > 0)
    ensures forall b, p :: b in bandMap && p in bandMap[b] ==> bandMap[b][p] == BandCount(rows, b, p)
  {
    bandMap := map[];
    for i := 0 to |rows|
      invariant Counted(bandMap, rows[..i])
    {
      var row := rows[i];
      ghost var before := bandMap;
      if row.band !in bandMap {
        bandMap := bandMap[row.band := map[]];
      }
      var counts := bandMap[row.band];
      var n := if row.platform in counts then counts[row.platform] else 0;
      bandMap := bandMap[row.band := counts[row.platform := n + 1]];
      assert bandMap == Bump(before, row);
      CountedStep(before, rows, i);
    }
    assert rows[..|rows|] == rows;
  }

  const BandOrder: seq<string> := ["Elite", "Strong", "Moderate", "Weak"]

  /** The position of a band in the fixed order; 4 for any other string. */
  function BandRank(b: string): nat
  {
    if b == "Elite" then 0 else if b == "Strong" then 1 else if b == "Moderate" then 2 else if b == "Weak" then 3 else 4
  }

  /** `order.filter(b => m.has(b))`. */
  function Present(order: seq<string>, m: map<string, map<string, nat>>): (r: seq<string>)
    ensures forall x :: x in r <==> x in order && x in m
  {
    if order == [] then []
    else
      var rest := Present(order[1..], m);
      assert forall x :: x in order[1..] ==> x in order;
      if order[0] in m then [order[0]] + rest else rest
  }

  /** Filtering keeps the order: from a list in increasing rank, a list in increasing rank. */
  lemma {:induction false} PresentKeepsRank(order: seq<string>, m: map<string, map<string, nat>>)
    requires forall i, j :: 0 <= i < j < |order| ==> BandRank(order[i]) < BandRank(order[j])
    ensures forall i, j :: 0 <= i < j < |Present(order, m)| ==> BandRank(Present(order, m)[i]) < BandRank(Present(order, m)[j])
  {
    if order != [] {
      var tail := order[1..];
      assert forall i, j :: 0 <= i < j < |tail| ==> BandRank(tail[i]) < BandRank(tail[j]) by {
        forall i, j | 0 <= i < j < |tail| ensures BandRank(tail[i]) < BandRank(tail[j]) {
          assert tail[i] == order[i + 1] && tail[j] == order[j + 1];
        }
      }
      PresentKeepsRank(tail, m);
      var rest := Present(tail, m);
      forall k | 0 <= k < |rest| ensures BandRank(order[0]) < BandRank(rest[k]) {
        assert rest[k] in tail;
        var t :| 0 <= t < |tail| && tail[t] == rest[k];
        assert order[t + 1] == rest[k];
      }
    }
  }

  datatype BandRow = BandRow(band: string, counts: map<string, nat>)

  /** The band rows shown: the bands of the fixed order that occur, with their counters. */
  function BandRows(bandMap: map<string, map<string, nat>>): seq<BandRow>
  {
    var bands := Present(BandOrder, bandMap);
    seq(|bands|, i requires 0 <= i < |bands| => BandRow(bands[i], bandMap[bands[i]]))
  }

  /** Only bands that occur are shown, each once, always in the order Elite, Strong, Moderate, Weak. */
  lemma BandRowsInFixedOrder(bandMap: map<string, map<string, nat>>, b: string)
    ensures forall i, j :: 0 <= i < j < |BandRows(bandMap)| ==> BandRank(BandRows(bandMap)[i].band) < BandRank(BandRows(bandMap)[j].band)
    ensures (exists i :: 0 <= i < |BandRows(bandMap)| && BandRows(bandMap)[i].band == b) <==> b in BandOrder && b in bandMap
    ensures forall i :: 0 <= i < |BandRows(bandMap)| ==> BandRows(bandMap)[i].counts == bandMap[BandRows(bandMap)[i].band]
  {
    var bands := Present(BandOrder, bandMap);
    PresentKeepsRank(BandOrder, bandMap);
    if b in bands {
      var i :| 0 <= i < |bands| && bands[i] == b;
      assert BandRows(bandMap)[i].band == b;
    }
  }

  /** `row.platforms[p] ?? null` for a band row: a platform without keywords in the band shows no count. */
  function BandCell(row: BandRow, p: string): (v: Option<real>)
    ensures v.None? <==> p !in row.counts
  {
    if p in row.counts then Some(row.counts[p] as real) else None
  }
}

=== FILE: grouping.dfy ===
/**
 * Grouping into a JavaScript `Map`: a `Map` iterates its keys in the order in
 * which they were first set, so a grouping is a sequence of distinct keys (first
 * appearance order) together with, for each key, the values pushed under it in
 * input order. `entry` says for one input element whether it is grouped at all
 * and, if it is, under which key and with which value.
 */
module Grouping {
  import opened Wrappers

  /** The keys of the grouping, in order of first appearance. */
  function Keys<R, K(==), V>(rows: seq<R>, entry: R -> Option<(K, V)>): seq<K>
  {
    if rows == [] then []
    else
      var prev := Keys(rows[..|rows| - 1], entry);
      match entry(rows[|rows| - 1])
      case None => prev
      case Some(kv) => if kv.0 in prev then prev else prev + [kv.0]
  }

  /** The values grouped under `k`, in input order; empty exactly when `k` is not a key of the grouping. */
  function Members<R, K(==), V>(rows: seq<R>, entry: R -> Option<(K, V)>, k: K): (vs: seq<V>)
    ensures k in Keys(rows, entry) <==> |vs| > 0
  {
    if rows == [] then []
    else
      var prev := Members(rows[..|rows| - 1], entry, k);
      var e := entry(rows[|rows| - 1]);
      if e.Some? && e.value.0 == k then prev + [e.value.1] else prev
  }

  /** Taking one more element: its key joins the end of the keys if it is new. */
  lemma SnocKeys<R, K, V>(rows: seq<R>, entry: R -> Option<(K, V)>, i: nat)
    requires i < |rows|
    ensures Keys(rows[..i + 1], entry) ==
              match entry(rows[i])
              case None => Keys(rows[..i], entry)
              case Some(kv) => if kv.0 in Keys(rows[..i], entry) then Keys(rows[..i], entry) else Keys(rows[..i], entry) + [kv.0]
  {
    assert rows[..i + 1][..i] == rows[..i];
  }

  /** Taking one more element: its value joins the end of its key's group, and no other group changes. */
  lemma SnocMembers<R, K, V>(rows: seq<R>, entry: R -> Option<(K, V)>, i: nat, k: K)
    requires i < |rows|
    ensures Members(rows[..i + 1], entry, k) ==
              if entry(rows[i]).Some? && entry(rows[i]).value.0 == k then Members(rows[..i], entry, k) + [entry(rows[i]).value.1]
              else Members(rows[..i], entry, k)
  {
    assert rows[..i + 1][..i] == rows[..i];
  }

  /** Element `i` is grouped under key `k`. */
  predicate HasKey<R, K(==), V>(rows: seq<R>, entry: R -> Option<(K, V)>, i: int, k: K)
    requires 0 <= i < |rows|
  {
    entry(rows[i]).Some? && entry(rows[i]).value.0 == k
  }

  ghost predicate Distinct<K>(s: seq<K>)
  {
    forall i, j :: 0 <= i < j < |s| ==> s[i] != s[j]
  }

  /** No key appears twice. */
  lemma {:induction false} KeysDistinct<R, K, V>(rows: seq<R>, entry: R -> Option<(K, V)>)
    ensures Distinct(Keys(rows, entry))
  {
    if rows != [] {
      var prefix := rows[..|rows| - 1];
      KeysDistinct(prefix, entry);
      var ks, pks := Keys(rows, entry), Keys(prefix, entry);
      if ks != pks {
        assert ks == pks + [ks[|ks| - 1]] && ks[|ks| - 1] !in pks;
        forall i, j | 0 <= i < j < |ks| ensures ks[i] != ks[j] {
          assert ks[i] == pks[i];
          if j < |pks| {
            assert ks[j] == pks[j];
          }
        }
      }
    }
  }

  /** The keys are exactly the keys of the grouped elements. */
  lemma {:induction false} KeysExactly<R, K, V>(rows: seq<R>, entry: R -> Option<(K, V)>, k: K)
    ensures k in Keys(rows, entry) <==> exists i :: 0 <= i < |rows| && HasKey(rows, entry, i, k)
  {
    if rows != [] {
      var prefix := rows[..|rows| - 1];
      KeysExactly(prefix, entry, k);
      assert forall i :: 0 <= i < |prefix| ==> (HasKey(prefix, entry, i, k) <==> HasKey(rows, entry, i, k));
      if k in Keys(rows, entry) && k !in Keys(prefix, entry) {
        assert HasKey(rows, entry, |rows| - 1, k);
      }
    }
  }

  /**
   * First appearance order: when key a is listed before key b, every element
   * grouped under b is preceded by an element grouped under a.
   */
  lemma {:induction false} KeysInFirstAppearanceOrder<R, K, V>(rows: seq<R>, entry: R -> Option<(K, V)>, a: nat, b: nat, j: nat)
    requires a < b < |Keys(rows, entry)|
    requires j < |rows| && HasKey(rows, entry, j, Keys(rows, entry)[b])
    ensures exists i :: 0 <= i < j && HasKey(rows, entry, i, Keys(rows, entry)[a])
  {
    var prefix := rows[..|rows| - 1];
    var ks, pks := Keys(rows, entry), Keys(prefix, entry);
    assert forall i, k :: 0 <= i < |prefix| ==> (HasKey(prefix, entry, i, k) <==> HasKey(rows, entry, i, k));
    assert ks[..|pks|] == pks;
    if j < |rows| - 1 && b < |pks| {
      KeysInFirstAppearanceOrder(prefix, entry, a, b, j);
      var i :| 0 <= i < j && HasKey(prefix, entry, i, pks[a]);
      assert HasKey(rows, entry, i, ks[a]);
    } else if j < |rows| - 1 {
      // ks[b] was added by the last element, so no earlier element has that key
      assert ks[b] !in pks;
      KeysExactly(prefix, entry, ks[b]);
      assert HasKey(prefix, entry, j, ks[b]);
      assert false;
    } else {
      // the last element: ks[a] was already a key of the prefix
      assert a < |pks|;
      KeysExactly(prefix, entry, ks[a]);
      var i :| 0 <= i < |prefix| && HasKey(prefix, entry, i, ks[a]);
      assert HasKey(rows, entry, i, ks[a]);
    }
  }

  /** The values grouped under `k` are those of the elements grouped under `k`. */
  lemma {:induction false} MembersExactly<R, K, V>(rows: seq<R>, entry: R -> Option<(K, V)>, k: K, v: V)
    ensures v in Members(rows, entry, k) <==> exists i :: 0 <= i < |rows| && entry(rows[i]) == Some((k, v))
  {
    if rows != [] {
      var prefix := rows[..|rows| - 1];
      MembersExactly(prefix, entry, k, v);
      assert forall i :: 0 <= i < |prefix| ==> prefix[i] == rows[i];
    }
  }

  /** An element that is not grouped changes neither the keys nor any group, wherever it stands. */
  lemma {:induction false} SkippedElementIgnored<R, K, V>(a: seq<R>, x: R, b: seq<R>, entry: R -> Option<(K, V)>)
    requires entry(x).None?
    ensures Keys(a + [x] + b, entry) == Keys(a + b, entry)
    ensures forall k :: Members(a + [x] + b, entry, k) == Members(a + b, entry, k)
    decreases |b|
  {
    if b == [] {
      assert (a + [x] + b)[..|a + [x] + b| - 1] == a;
      assert a + b == a;
    } else {
      var b' := b[..|b| - 1];
      assert (a + [x] + b)[..|a + [x] + b| - 1] == a + [x] + b';
      assert (a + b)[..|a + b| - 1] == a + b';
      SkippedElementIgnored(a, x, b', entry);
    }
  }
}

=== FILE: insights.dfy ===
/**
 * Rule-based insight generation: threshold rules pick at most one alert, one
 * warning and one info insight, and every description is hedged according to
 * the data coverage.
 */
module Insights {
  import opened DataStatus

  // ---------------------------------------------------------------------------
  // Text helpers
  // ---------------------------------------------------------------------------

  /** `toLowerCase` on one character (ASCII letters only). */
  function LowerChar(c: char): char
  {
    if 'A' <= c <= 'Z' then (c as int + 32) as char else c
  }

  /** `s.charAt(0).toLowerCase() + s.slice(1)`. */
  function LowerFirst(s: string): (r: string)
    ensures |r| == |s|
    ensures |s| > 0 ==> r[0] == LowerChar(s[0]) && r[1..] == s[1..]
  {
    if s == [] then [] else [LowerChar(s[0])] + s[1..]
  }

  /** `s.toLowerCase().startsWith(p)`, for a lower-case `p`. */
  predicate StartsWithIgnoringCase(s: string, p: string)
  {
    |p| <= |s| && forall i :: 0 <= i < |p| ==> LowerChar(s[i]) == p[i]
  }

  // ---------------------------------------------------------------------------
  // Time phrasing
  // ---------------------------------------------------------------------------

  datatype TimePhrasing = TimePhrasing(phrase: string, comparative: string, trendPhrase: string)

  const Phrasing7d := TimePhrasing("over the past 7 days", "week-over-week", "this week's trend")
  const Phrasing30d := TimePhrasing("over the past 30 days", "month-over-month", "the monthly trend")
  const Phrasing90d := TimePhrasing("over the past quarter", "quarter-over-quarter", "the quarterly trend")
  const PhrasingYtd := TimePhrasing("since the start of the year", "year-over-year", "the year-to-date trend")

  /** `getTimePhrasing`: a fixed record per preset, the "30d" record for any other string. */
  function GetTimePhrasing(preset: string): (t: TimePhrasing)
    ensures t in {Phrasing7d, Phrasing30d, Phrasing90d, PhrasingYtd}
    ensures t == Phrasing30d <==> preset !in {"7d", "90d", "ytd"}
  {
    if preset == "7d" then Phrasing7d
    else if preset == "90d" then Phrasing90d
    else if preset == "ytd" then PhrasingYtd
    else Phrasing30d
  }

  // ---------------------------------------------------------------------------
  // Probabilistic language
  // ---------------------------------------------------------------------------

  function Prefix(coverage: Coverage): string
  {
    match coverage
    case Complete => ""
    case Partial => "Available data suggests "
    case Limited => "Limited data suggests "
  }

  function Verbs(coverage: Coverage): (vs: seq<string>)
    ensures |vs| == 3
  {
    match coverage
    case Complete => ["shows", "indicates", "reveals"]
    case Partial => ["suggests", "appears to show", "may indicate"]
    case Limited => ["may suggest", "could indicate", "appears to"]
  }

  /** The verb picked by `verbs[Math.floor(draw * verbs.length)]` for one `Math.random()` result. */
  function PickVerb(coverage: Coverage, draw: real): (v: string)
    requires 0.0 <= draw < 1.0
    ensures v in Verbs(coverage)
  {
    FloorBounds(draw, 3);
    Verbs(coverage)[(draw * 3.0).Floor]
  }

  /** A description that already opens with hedging language. */
  predicate Hedged(description: string)
  {
    StartsWithIgnoringCase(description, "available") || StartsWithIgnoringCase(description, "limited")
  }

  /** `applyProbabilisticLanguage`: prefix the coverage's hedge unless the text already has one. */
  function ApplyProbabilisticLanguage(description: string, coverage: Coverage): (r: string)
    ensures coverage == Complete ==> r == description
    ensures |description| <= |r|
  {
    if coverage == Complete then description
    else if !Hedged(description) then Prefix(coverage) + LowerFirst(description)
    else description
  }

  /** Under partial or limited coverage the result always opens with hedging language. */
  lemma HedgedResult(description: string, coverage: Coverage)
    requires coverage != Complete
    ensures Hedged(ApplyProbabilisticLanguage(description, coverage))
  {
    if !Hedged(description) {
      PrefixHedged(coverage, LowerFirst(description));
    }
  }

  /** Both prefixes open with hedging language, whatever follows them. */
  lemma PrefixHedged(coverage: Coverage, rest: string)
    requires coverage != Complete
    ensures Hedged(Prefix(coverage) + rest)
  {
    if coverage == Partial {
      assert StartsWithIgnoringCase("Available data suggests " + rest, "available");
    } else {
      assert StartsWithIgnoringCase("Limited data suggests " + rest, "limited");
    }
  }

  // ---------------------------------------------------------------------------
  // Insights
  // ---------------------------------------------------------------------------

  datatype InsightType = Alert | Warning | Info

  function Severity(t: InsightType): nat
  {
    match t
    case Alert => 0
    case Warning => 1
    case Info => 2
  }

  datatype Insight = Insight(id: string, kind: InsightType, title: string, description: string)

  datatype OLAMetrics = OLAMetrics(
    skusAtRisk: real, overallAvailability: real, mustHaveAvailability: real,
    topPacksAvailability: real, weeklyChange: real)

  datatype SoSMetrics = SoSMetrics(
    avgRank: real, page1Presence: real, sosPresence: real, rankChange: real, keywordsBelowTop20: real)

  /** How a number is written inside a template literal (`Number.prototype.toString`). */
  type Show = real -> string

  function OLAStockout(m: OLAMetrics, verb: string, timePhrase: string, coverage: Coverage, show: Show): Insight
  {
    Insight("ola-1", Alert, "Elevated stockout risk detected", ApplyProbabilisticLanguage(
      show(m.skusAtRisk) + " SKUs " + verb + " sustained low availability " + timePhrase
      + ". Trend analysis recommended before escalation.", coverage))
  }

  function OLADecline(verb: string, timePhrase: string, coverage: Coverage): Insight
  {
    Insight("ola-2", Warning, "Declining availability trend", ApplyProbabilisticLanguage(
      "Overall availability " + verb + " a downward pattern " + timePhrase
      + ". Consider reviewing replenishment cycles.", coverage))
  }

  function OLAMustHave(m: OLAMetrics, verb: string, timePhrase: string, coverage: Coverage, show: Show): Insight
  {
    Insight("ola-2", Warning, "Must-Have SKU coverage below target", ApplyProbabilisticLanguage(
      "Must-Have availability " + verb + " gaps " + timePhrase + ". "
      + show(100.0 - m.mustHaveAvailability) + "% shortfall from 90% target.", coverage))
  }

  function OLAMomentum(verb: string, timePhrase: string, coverage: Coverage): Insight
  {
    Insight("ola-3", Info, "Positive availability momentum", ApplyProbabilisticLanguage(
      "Trend " + verb + " improving availability " + timePhrase + ". Continue monitoring for sustainability.", coverage))
  }

  function OLATopPack(verb: string, timePhrase: string, coverage: Coverage): Insight
  {
    Insight("ola-3", Info, "Strong Top Pack performance", ApplyProbabilisticLanguage(
      "Top Pack availability " + verb + " stable above target " + timePhrase + ".", coverage))
  }

  /** The alert `generateOLAInsights` may push first. */
  function OLAAlert(m: OLAMetrics, verb: string, timePhrase: string, coverage: Coverage, show: Show): (r: seq<Insight>)
    ensures |r| <= 1
  {
    if m.skusAtRisk > 5.0 then [OLAStockout(m, verb, timePhrase, coverage, show)] else []
  }

  /** The warning it may push second. */
  function OLAWarning(m: OLAMetrics, verb: string, timePhrase: string, coverage: Coverage, show: Show): (r: seq<Insight>)
    ensures |r| <= 1
  {
    if m.weeklyChange < -2.0 then [OLADecline(verb, timePhrase, coverage)]
    else if m.mustHaveAvailability < 90.0 then [OLAMustHave(m, verb, timePhrase, coverage, show)]
    else []
  }

  /** The info insight it may push last. */
  function OLAInfo(m: OLAMetrics, verb: string, timePhrase: string, coverage: Coverage): (r: seq<Insight>)
    ensures |r| <= 1
  {
    if m.weeklyChange > 2.0 then [OLAMomentum(verb, timePhrase, coverage)]
    else if m.topPacksAvailability >= 90.0 then [OLATopPack(verb, timePhrase, coverage)]
    else []
  }

  /** The insights `generateOLAInsights` emits, in push order. */
  function OLAInsights(m: OLAMetrics, verb: string, timePhrase: string, coverage: Coverage, show: Show): (r: seq<Insight>)
    ensures |r| <= 3
  {
    OLAAlert(m, verb, timePhrase, coverage, show) + OLAWarning(m, verb, timePhrase, coverage, show)
    + OLAInfo(m, verb, timePhrase, coverage)
  }

  /**
   * `generateOLAInsights`: the alert rule, then the warning rules, then the info
   * rules, each pushing at most one insight.
   */
  method GenerateOLAInsights(m: OLAMetrics, timePhrase: string, coverage: Coverage, draw: real, show: Show)
    returns (insights: seq<Insight>)
    requires 0.0 <= draw < 1.0
    ensures insights == OLAInsights(m, PickVerb(coverage, draw), timePhrase, coverage, show)
  {
    var verb := PickVerb(coverage, draw);
    insights := PushOLAAlert([], m, verb, timePhrase, coverage, show);
    insights := PushOLAWarning(insights, m, verb, timePhrase, coverage, show);
    insights := PushOLAInfo(insights, m, verb, timePhrase, coverage);
    assert [] + OLAAlert(m, verb, timePhrase, coverage, show) == OLAAlert(m, verb, timePhrase, coverage, show);
  }

  /** The alert rule of `generateOLAInsights`. */
  method PushOLAAlert(pushed: seq<Insight>, m: OLAMetrics, verb: string, timePhrase: string, coverage: Coverage, show: Show)
    returns (insights: seq<Insight>)
    ensures insights == pushed + OLAAlert(m, verb, timePhrase, coverage, show)
  {
    insights := pushed;
    if m.skusAtRisk > 5.0 {
      insights := insights + [OLAStockout(m, verb, timePhrase, coverage, show)];
    }
  }

  /** The two warning rules of `generateOLAInsights`; the first that holds pushes. */
  method PushOLAWarning(pushed: seq<Insight>, m: OLAMetrics, verb: string, timePhrase: string, coverage: Coverage, show: Show)
    returns (insights: seq<Insight>)
    ensures insights == pushed + OLAWarning(m, verb, timePhrase, coverage, show)
  {
    insights := pushed;
    if m.weeklyChange < -2.0 {
      insights := insights + [OLADecline(verb, timePhrase, coverage)];
    } else if m.mustHaveAvailability < 90.0 {
      insights := insights + [OLAMustHave(m, verb, timePhrase, coverage, show)];
    }
  }

  /** The two info rules of `generateOLAInsights`; the first that holds pushes. */
  method PushOLAInfo(pushed: seq<Insight>, m: OLAMetrics, verb: string, timePhrase: string, coverage: Coverage)
    returns (insights: seq<Insight>)
    ensures insights == pushed + OLAInfo(m, verb, timePhrase, coverage)
  {
    insights := pushed;
    if m.weeklyChange > 2.0 {
      insights := insights + [OLAMomentum(verb, timePhrase, coverage)];
    } else if m.topPacksAvailability >= 90.0 {
      insights := insights + [OLATopPack(verb, timePhrase, coverage)];
    }
  }

  function SoSKeywords(m: SoSMetrics, verb: string, timePhrase: string, coverage: Coverage, show: Show): Insight
  {
    Insight("sos-1", Alert, "Multiple keywords losing visibility", ApplyProbabilisticLanguage(
      show(m.keywordsBelowTop20) + " keywords " + verb + " positions below top 20 " + timePhrase
      + ". Review optimization strategy.", coverage))
  }

  function SoSRankDecline(verb: string, timePhrase: string, coverage: Coverage): Insight
  {
    Insight("sos-2", Warning, "Average rank declining", ApplyProbabilisticLanguage(
      "Average position " + verb + " weakening trend " + timePhrase + ". Consider sponsored bid adjustments.", coverage))
  }

  function SoSPage1(verb: string, timePhrase: string, coverage: Coverage): Insight
  {
    Insight("sos-2", Warning, "Page 1 presence below threshold", ApplyProbabilisticLanguage(
      "Fewer than half of tracked keywords " + verb + " page 1 presence " + timePhrase + ".", coverage))
  }

  function SoSRankImprovement(verb: string, timePhrase: string, coverage: Coverage): Insight
  {
    Insight("sos-3", Info, "Rank improvement observed", ApplyProbabilisticLanguage(
      "Average rank " + verb + " positive movement " + timePhrase + ". Trend appears sustainable.", coverage))
  }

  function SoSStrongPresence(timePhrase: string, coverage: Coverage): Insight
  {
    Insight("sos-3", Info, "Strong search presence", ApplyProbabilisticLanguage(
      "High visibility maintained across tracked keywords " + timePhrase + ".", coverage))
  }

  /** The alert `generateSoSInsights` may push first. */
  function SoSAlert(m: SoSMetrics, verb: string, timePhrase: string, coverage: Coverage, show: Show): (r: seq<Insight>)
    ensures |r| <= 1
  {
    if m.keywordsBelowTop20 > 5.0 then [SoSKeywords(m, verb, timePhrase, coverage, show)] else []
  }

  /** The warning it may push second. */
  function SoSWarning(m: SoSMetrics, verb: string, timePhrase: string, coverage: Coverage): (r: seq<Insight>)
    ensures |r| <= 1
  {
    if m.rankChange > 2.0 then [SoSRankDecline(verb, timePhrase, coverage)]
    else if m.page1Presence < 50.0 then [SoSPage1(verb, timePhrase, coverage)]
    else []
  }

  /** The info insight it may push last. */
  function SoSInfo(m: SoSMetrics, verb: string, timePhrase: string, coverage: Coverage): (r: seq<Insight>)
    ensures |r| <= 1
  {
    if m.rankChange < -1.0 then [SoSRankImprovement(verb, timePhrase, coverage)]
    else if m.sosPresence >= 80.0 then [SoSStrongPresence(timePhrase, coverage)]
    else []
  }

  /** The insights `generateSoSInsights` emits, in push order. */
  function SoSInsights(m: SoSMetrics, verb: string, timePhrase: string, coverage: Coverage, show: Show): (r: seq<Insight>)
    ensures |r| <= 3
  {
    SoSAlert(m, verb, timePhrase, coverage, show) + SoSWarning(m, verb, timePhrase, coverage)
    + SoSInfo(m, verb, timePhrase, coverage)
  }

  /** `generateSoSInsights`, in the same three steps as the OLA rules. */
  method GenerateSoSInsights(m: SoSMetrics, timePhrase: string, coverage: Coverage, draw: real, show: Show)
    returns (insights: seq<Insight>)
    requires 0.0 <= draw < 1.0
    ensures insights == SoSInsights(m, PickVerb(coverage, draw), timePhrase, coverage, show)
  {
    var verb := PickVerb(coverage, draw);
    insights := PushSoSAlert([], m, verb, timePhrase, coverage, show);
    insights := PushSoSWarning(insights, m, verb, timePhrase, coverage);
    insights := PushSoSInfo(insights, m, verb, timePhrase, coverage);
    assert [] + SoSAlert(m, verb, timePhrase, coverage, show) == SoSAlert(m, verb, timePhrase, coverage, show);
  }

  /** The alert rule of `generateSoSInsights`. */
  method PushSoSAlert(pushed: seq<Insight>, m: SoSMetrics, verb: string, timePhrase: string, coverage: Coverage, show: Show)
    returns (insights: seq<Insight>)
    ensures insights == pushed + SoSAlert(m, verb, timePhrase, coverage, show)
  {
    insights := pushed;
    if m.keywordsBelowTop20 > 5.0 {
      insights := insights + [SoSKeywords(m, verb, timePhrase, coverage, show)];
    }
  }

  /** The two warning rules of `generateSoSInsights`; the first that holds pushes. */
  method PushSoSWarning(pushed: seq<Insight>, m: SoSMetrics, verb: string, timePhrase: string, coverage: Coverage)
    returns (insights: seq<Insight>)
    ensures insights == pushed + SoSWarning(m, verb, timePhrase, coverage)
  {
    insights := pushed;
    if m.rankChange > 2.0 {
      insights := insights + [SoSRankDecline(verb, timePhrase, coverage)];
    } else if m.page1Presence < 50.0 {
      insights := insights + [SoSPage1(verb, timePhrase, coverage)];
    }
  }

  /** The two info rules of `generateSoSInsights`; the first that holds pushes. */
  method PushSoSInfo(pushed: seq<Insight>, m: SoSMetrics, verb: string, timePhrase: string, coverage: Coverage)
    returns (insights: seq<Insight>)
    ensures insights == pushed + SoSInfo(m, verb, timePhrase, coverage)
  {
    insights := pushed;
    if m.rankChange < -1.0 {
      insights := insights + [SoSRankImprovement(verb, timePhrase, coverage)];
    } else if m.sosPresence >= 80.0 {
      insights := insights + [SoSStrongPresence(timePhrase, coverage)];
    }
  }

  /** At most three insights, strictly in alert, warning, info order (so ids are distinct), all hedged as the coverage asks. */
  ghost predicate WellFormedInsights(insights: seq<Insight>, coverage: Coverage)
  {
    && |insights| <= 3
    && (forall i, j :: 0 <= i < j < |insights| ==> Severity(insights[i].kind) < Severity(insights[j].kind))
    && (forall i, j :: 0 <= i < j < |insights| ==> insights[i].id != insights[j].id)
    && (forall i :: 0 <= i < |insights| ==>
          ApplyProbabilisticLanguage(insights[i].description, coverage) == insights[i].description)
  }

  predicate HasId(insights: seq<Insight>, id: string)
  {
    exists i :: 0 <= i < |insights| && insights[i].id == id
  }

  /** The insight with the given id, when there is exactly one. */
  predicate HasTitle(insights: seq<Insight>, id: string, title: string)
  {
    exists i :: 0 <= i < |insights| && insights[i].id == id && insights[i].title == title
  }

  // ---------------------------------------------------------------------------
  // Decision summaries
  // ---------------------------------------------------------------------------

  function Qualifier(coverage: Coverage): string
  {
    if coverage == Partial then "Based on available data: " else "With limited data visibility: "
  }

  function GenerateDecisionSummary(items: seq<string>, coverage: Coverage): (r: seq<string>)
    ensures |r| == |items|
  {
    if coverage == Complete then
      items
    else
      seq(|items|, i requires 0 <= i < |items| => if i == 0 then Qualifier(coverage) + LowerFirst(items[i]) else items[i])
  }

  // ---------------------------------------------------------------------------
  // Properties
  // ---------------------------------------------------------------------------

  /** Every preset outside the four known ones reads like "30d"; the four known ones read differently from each other. */
  lemma TimePhrasingFallback(preset: string)
    ensures preset !in {"7d", "30d", "90d", "ytd"} ==> GetTimePhrasing(preset) == GetTimePhrasing("30d")
    ensures preset in {"7d", "30d", "90d", "ytd"} && GetTimePhrasing(preset) == GetTimePhrasing("30d") ==> preset == "30d"
    ensures GetTimePhrasing(preset) in {Phrasing7d, Phrasing30d, Phrasing90d, PhrasingYtd}
  {
  }

  /** With complete coverage the text is unchanged. */
  lemma CompleteCoverageUnchanged(description: string)
    ensures ApplyProbabilisticLanguage(description, Complete) == description
  {
  }

  /**
   * Otherwise the only change is the prefix and the lower-cased first letter,
   * and only for text that does not already open with "available" or "limited".
   */
  lemma HedgeChangesOnlyTheStart(description: string, coverage: Coverage)
    requires coverage != Complete
    ensures var r := ApplyProbabilisticLanguage(description, coverage);
            && (Hedged(description) ==> r == description)
            && (!Hedged(description) ==>
                  && |r| == |Prefix(coverage)| + |description|
                  && r[..|Prefix(coverage)|] == Prefix(coverage)
                  && r[|Prefix(coverage)|..] == LowerFirst(description)
                  && (|description| > 0 ==> r[|Prefix(coverage)| + 1..] == description[1..]))
  {
    var r := ApplyProbabilisticLanguage(description, coverage);
    if !Hedged(description) {
      var p := Prefix(coverage);
      assert r == p + LowerFirst(description);
      if |description| > 0 {
        assert r[|p| + 1..] == LowerFirst(description)[1..];
      }
    }
  }

  /** Once hedged, text is left alone by any later hedge; in particular hedging is idempotent. */
  lemma HedgeIdempotent(description: string, c1: Coverage, c2: Coverage)
    ensures c1 != Complete ==>
              ApplyProbabilisticLanguage(ApplyProbabilisticLanguage(description, c1), c2) == ApplyProbabilisticLanguage(description, c1)
    ensures ApplyProbabilisticLanguage(ApplyProbabilisticLanguage(description, c1), c1) == ApplyProbabilisticLanguage(description, c1)
  {
    if c1 != Complete {
      HedgedResult(description, c1);
    }
  }

  /** At most one insight, with the given id and kind, whose description a repeated hedge leaves alone. */
  ghost predicate Part(r: seq<Insight>, id: string, kind: InsightType, coverage: Coverage)
  {
    |r| <= 1 && (|r| == 1 ==>
      r[0].id == id && r[0].kind == kind && ApplyProbabilisticLanguage(r[0].description, coverage) == r[0].description)
  }

  /** An insight whose description was produced by the hedge. */
  lemma HedgedPart(x: Insight, id: string, kind: InsightType, text: string, coverage: Coverage)
    requires x.id == id && x.kind == kind && x.description == ApplyProbabilisticLanguage(text, coverage)
    ensures Part([x], id, kind, coverage)
  {
    HedgeIdempotent(text, coverage, coverage);
  }

  /**
   * Three parts pushed in alert, warning, info order with distinct ids make a
   * well-formed list in which each id, and each id with a title, is found
   * exactly when its own part holds it.
   */
  lemma ThreeParts(a: seq<Insight>, w: seq<Insight>, n: seq<Insight>,
                   ida: string, idw: string, idn: string, coverage: Coverage)
    requires Part(a, ida, Alert, coverage) && Part(w, idw, Warning, coverage) && Part(n, idn, Info, coverage)
    requires ida != idw && idw != idn && ida != idn
    ensures WellFormedInsights(a + w + n, coverage)
    ensures forall i :: 0 <= i < |a + w + n| ==> (a + w + n)[i].id in {ida, idw, idn}
    ensures HasId(a + w + n, ida) <==> |a| > 0
    ensures HasId(a + w + n, idw) <==> |w| > 0
    ensures HasId(a + w + n, idn) <==> |n| > 0
    ensures forall title :: HasTitle(a + w + n, idw, title) <==> |w| > 0 && w[0].title == title
    ensures forall title :: HasTitle(a + w + n, idn, title) <==> |n| > 0 && n[0].title == title
  {
    ThreePartsWellFormed(a, w, n, ida, idw, idn, coverage);
    ThreePartsFound(a, w, n, ida, idw, idn, coverage);
  }

  /** Where each element of the three parts stands in their concatenation. */
  lemma ThreePartsLayout(a: seq<Insight>, w: seq<Insight>, n: seq<Insight>)
    requires |a| <= 1 && |w| <= 1 && |n| <= 1
    ensures forall i :: 0 <= i < |a + w + n| ==>
              || (i < |a| && (a + w + n)[i] == a[0])
              || (|a| <= i < |a| + |w| && (a + w + n)[i] == w[0])
              || (|a| + |w| <= i && (a + w + n)[i] == n[0])
  {
  }

  lemma ThreePartsWellFormed(a: seq<Insight>, w: seq<Insight>, n: seq<Insight>,
                             ida: string, idw: string, idn: string, coverage: Coverage)
    requires Part(a, ida, Alert, coverage) && Part(w, idw, Warning, coverage) && Part(n, idn, Info, coverage)
    requires ida != idw && idw != idn && ida != idn
    ensures WellFormedInsights(a + w + n, coverage)
    ensures forall i :: 0 <= i < |a + w + n| ==> (a + w + n)[i].id in {ida, idw, idn}
  {
    ThreePartsLayout(a, w, n);
  }

  lemma ThreePartsFound(a: seq<Insight>, w: seq<Insight>, n: seq<Insight>,
                        ida: string, idw: string, idn: string, coverage: Coverage)
    requires Part(a, ida, Alert, coverage) && Part(w, idw, Warning, coverage) && Part(n, idn, Info, coverage)
    requires ida != idw && idw != idn && ida != idn
    ensures HasId(a + w + n, ida) <==> |a| > 0
    ensures HasId(a + w + n, idw) <==> |w| > 0
    ensures HasId(a + w + n, idn) <==> |n| > 0
    ensures forall title :: HasTitle(a + w + n, idw, title) <==> |w| > 0 && w[0].title == title
    ensures forall title :: HasTitle(a + w + n, idn, title) <==> |n| > 0 && n[0].title == title
  {
    var r := a + w + n;
    ThreePartsLayout(a, w, n);
    if |a| > 0 {
      assert r[0] == a[0];
    }
    if |w| > 0 {
      assert r[|a|] == w[0];
    }
    if |n| > 0 {
      assert r[|a| + |w|] == n[0];
    }
  }

  /**
   * The look-ups of three parts, given the condition under which each part
   * holds an insight and the condition under which it carries each title.
   */
  lemma ThreeRulesFound(a: seq<Insight>, w: seq<Insight>, n: seq<Insight>,
                        ida: string, idw: string, idn: string, coverage: Coverage,
                        fa: bool, fw1: bool, fw2: bool, fn1: bool, fn2: bool,
                        tw1: string, tw2: string, tn1: string, tn2: string)
    requires Part(a, ida, Alert, coverage) && Part(w, idw, Warning, coverage) && Part(n, idn, Info, coverage)
    requires ida != idw && idw != idn && ida != idn
    requires |a| > 0 <==> fa
    requires |w| > 0 <==> fw1 || fw2
    requires |w| > 0 && w[0].title == tw1 <==> fw1
    requires |w| > 0 && w[0].title == tw2 <==> fw2
    requires |n| > 0 <==> fn1 || fn2
    requires |n| > 0 && n[0].title == tn1 <==> fn1
    requires |n| > 0 && n[0].title == tn2 <==> fn2
    ensures HasId(a + w + n, ida) <==> fa
    ensures HasId(a + w + n, idw) <==> fw1 || fw2
    ensures HasTitle(a + w + n, idw, tw1) <==> fw1
    ensures HasTitle(a + w + n, idw, tw2) <==> fw2
    ensures HasId(a + w + n, idn) <==> fn1 || fn2
    ensures HasTitle(a + w + n, idn, tn1) <==> fn1
    ensures HasTitle(a + w + n, idn, tn2) <==> fn2
  {
    ThreePartsFound(a, w, n, ida, idw, idn, coverage);
  }

  /** The OLA alert rule: "ola-1" exactly when more than five SKUs are at risk. */
  lemma OLAAlertRule(m: OLAMetrics, verb: string, timePhrase: string, coverage: Coverage, show: Show)
    ensures var a := OLAAlert(m, verb, timePhrase, coverage, show);
            && Part(a, "ola-1", Alert, coverage)
            && (|a| > 0 <==> m.skusAtRisk > 5.0)
  {
    if m.skusAtRisk > 5.0 {
      var a := OLAAlert(m, verb, timePhrase, coverage, show);
      HedgedPart(a[0], "ola-1", Alert, show(m.skusAtRisk) + " SKUs " + verb + " sustained low availability " + timePhrase
        + ". Trend analysis recommended before escalation.", coverage);
      assert a[0].id == "ola-1";
    }
  }

  /** The OLA warning rules: a falling week-over-week change wins over a Must-Have shortfall. */
  lemma OLAWarningRule(m: OLAMetrics, verb: string, timePhrase: string, coverage: Coverage, show: Show)
    ensures var w := OLAWarning(m, verb, timePhrase, coverage, show);
            && Part(w, "ola-2", Warning, coverage)
            && (|w| > 0 <==> m.weeklyChange < -2.0 || m.mustHaveAvailability < 90.0)
            && (|w| > 0 && w[0].title == "Declining availability trend" <==> m.weeklyChange < -2.0)
            && (|w| > 0 && w[0].title == "Must-Have SKU coverage below target" <==>
                  !(m.weeklyChange < -2.0) && m.mustHaveAvailability < 90.0)
  {
    var w := OLAWarning(m, verb, timePhrase, coverage, show);
    if m.weeklyChange < -2.0 {
      var x := OLADecline(verb, timePhrase, coverage);
      HedgedPart(x, "ola-2", Warning, "Overall availability " + verb + " a downward pattern " + timePhrase
        + ". Consider reviewing replenishment cycles.", coverage);
      assert w == [x];
    } else if m.mustHaveAvailability < 90.0 {
      var x := OLAMustHave(m, verb, timePhrase, coverage, show);
      HedgedPart(x, "ola-2", Warning, "Must-Have availability " + verb + " gaps " + timePhrase + ". "
        + show(100.0 - m.mustHaveAvailability) + "% shortfall from 90% target.", coverage);
      assert w == [x];
    }
  }

  /** The OLA info rules: a rising week-over-week change wins over strong Top Packs. */
  lemma OLAInfoRule(m: OLAMetrics, verb: string, timePhrase: string, coverage: Coverage)
    ensures var n := OLAInfo(m, verb, timePhrase, coverage);
            && Part(n, "ola-3", Info, coverage)
            && (|n| > 0 <==> m.weeklyChange > 2.0 || m.topPacksAvailability >= 90.0)
            && (|n| > 0 && n[0].title == "Positive availability momentum" <==> m.weeklyChange > 2.0)
            && (|n| > 0 && n[0].title == "Strong Top Pack performance" <==>
                  !(m.weeklyChange > 2.0) && m.topPacksAvailability >= 90.0)
  {
    var n := OLAInfo(m, verb, timePhrase, coverage);
    if m.weeklyChange > 2.0 {
      HedgedPart(n[0], "ola-3", Info, "Trend " + verb + " improving availability " + timePhrase
        + ". Continue monitoring for sustainability.", coverage);
      assert n[0].id == "ola-3" && n[0].title == "Positive availability momentum";
    } else if m.topPacksAvailability >= 90.0 {
      HedgedPart(n[0], "ola-3", Info, "Top Pack availability " + verb + " stable above target "
        + timePhrase + ".", coverage);
      assert n[0].id == "ola-3" && n[0].title == "Strong Top Pack performance";
    }
  }

  /**
   * The threshold rules of `generateOLAInsights`: at most three insights in
   * alert, warning, info order with distinct ids and hedged descriptions, and
   * each rule fires exactly under its condition.
   */
  lemma OLAInsightRules(m: OLAMetrics, verb: string, timePhrase: string, coverage: Coverage, show: Show)
    ensures var r := OLAInsights(m, verb, timePhrase, coverage, show);
            && WellFormedInsights(r, coverage)
            && (forall i :: 0 <= i < |r| ==> r[i].id in {"ola-1", "ola-2", "ola-3"})
            && (HasId(r, "ola-1") <==> m.skusAtRisk > 5.0)
            && (HasId(r, "ola-2") <==> m.weeklyChange < -2.0 || m.mustHaveAvailability < 90.0)
            && (HasTitle(r, "ola-2", "Declining availability trend") <==> m.weeklyChange < -2.0)
            && (HasTitle(r, "ola-2", "Must-Have SKU coverage below target") <==>
                  !(m.weeklyChange < -2.0) && m.mustHaveAvailability < 90.0)
            && (HasId(r, "ola-3") <==> m.weeklyChange > 2.0 || m.topPacksAvailability >= 90.0)
            && (HasTitle(r, "ola-3", "Positive availability momentum") <==> m.weeklyChange > 2.0)
            && (HasTitle(r, "ola-3", "Strong Top Pack performance") <==>
                  !(m.weeklyChange > 2.0) && m.topPacksAvailability >= 90.0)
  {
    OLAInsightsWellFormed(m, verb, timePhrase, coverage, show);
    OLAInsightsFire(m, verb, timePhrase, coverage, show);
  }

  lemma OLAInsightsWellFormed(m: OLAMetrics, verb: string, timePhrase: string, coverage: Coverage, show: Show)
    ensures var r := OLAInsights(m, verb, timePhrase, coverage, show);
            && WellFormedInsights(r, coverage)
            && (forall i :: 0 <= i < |r| ==> r[i].id in {"ola-1", "ola-2", "ola-3"})
  {
    var a := OLAAlert(m, verb, timePhrase, coverage, show);
    var w := OLAWarning(m, verb, timePhrase, coverage, show);
    var n := OLAInfo(m, verb, timePhrase, coverage);
    OLAAlertRule(m, verb, timePhrase, coverage, show);
    OLAWarningRule(m, verb, timePhrase, coverage, show);
    OLAInfoRule(m, verb, timePhrase, coverage);
    ThreePartsWellFormed(a, w, n, "ola-1", "ola-2", "ola-3", coverage);
  }

  lemma OLAInsightsFire(m: OLAMetrics, verb: string, timePhrase: string, coverage: Coverage, show: Show)
    ensures var r := OLAInsights(m, verb, timePhrase, coverage, show);
            && (HasId(r, "ola-1") <==> m.skusAtRisk > 5.0)
            && (HasId(r, "ola-2") <==> m.weeklyChange < -2.0 || m.mustHaveAvailability < 90.0)
            && (HasTitle(r, "ola-2", "Declining availability trend") <==> m.weeklyChange < -2.0)
            && (HasTitle(r, "ola-2", "Must-Have SKU coverage below target") <==>
                  !(m.weeklyChange < -2.0) && m.mustHaveAvailability < 90.0)
            && (HasId(r, "ola-3") <==> m.weeklyChange > 2.0 || m.topPacksAvailability >= 90.0)
            && (HasTitle(r, "ola-3", "Positive availability momentum") <==> m.weeklyChange > 2.0)
            && (HasTitle(r, "ola-3", "Strong Top Pack performance") <==>
                  !(m.weeklyChange > 2.0) && m.topPacksAvailability >= 90.0)
  {
    var r := OLAInsights(m, verb, timePhrase, coverage, show);
    var a := OLAAlert(m, verb, timePhrase, coverage, show);
    var w := OLAWarning(m, verb, timePhrase, coverage, show);
    var n := OLAInfo(m, verb, timePhrase, coverage);
    OLAAlertRule(m, verb, timePhrase, coverage, show);
    OLAWarningRule(m, verb, timePhrase, coverage, show);
    OLAInfoRule(m, verb, timePhrase, coverage);
    ThreeRulesFound(a, w, n, "ola-1", "ola-2", "ola-3", coverage,
      m.skusAtRisk > 5.0, m.weeklyChange < -2.0, !(m.weeklyChange < -2.0) && m.mustHaveAvailability < 90.0,
      m.weeklyChange > 2.0, !(m.weeklyChange > 2.0) && m.topPacksAvailability >= 90.0,
      "Declining availability trend", "Must-Have SKU coverage below target",
      "Positive availability momentum", "Strong Top Pack performance");
    assert r == a + w + n;
  }

  /** The SoS alert rule: "sos-1" exactly when more than five keywords sit below the top 20. */
  lemma SoSAlertRule(m: SoSMetrics, verb: string, timePhrase: string, coverage: Coverage, show: Show)
    ensures var a := SoSAlert(m, verb, timePhrase, coverage, show);
            && Part(a, "sos-1", Alert, coverage)
            && (|a| > 0 <==> m.keywordsBelowTop20 > 5.0)
  {
    if m.keywordsBelowTop20 > 5.0 {
      var a := SoSAlert(m, verb, timePhrase, coverage, show);
      HedgedPart(a[0], "sos-1", Alert, show(m.keywordsBelowTop20) + " keywords " + verb
        + " positions below top 20 " + timePhrase + ". Review optimization strategy.", coverage);
      assert a[0].id == "sos-1";
    }
  }

  /** The SoS warning rules: a worsening rank wins over low page 1 presence. */
  lemma SoSWarningRule(m: SoSMetrics, verb: string, timePhrase: string, coverage: Coverage)
    ensures var w := SoSWarning(m, verb, timePhrase, coverage);
            && Part(w, "sos-2", Warning, coverage)
            && (|w| > 0 <==> m.rankChange > 2.0 || m.page1Presence < 50.0)
            && (|w| > 0 && w[0].title == "Average rank declining" <==> m.rankChange > 2.0)
            && (|w| > 0 && w[0].title == "Page 1 presence below threshold" <==>
                  !(m.rankChange > 2.0) && m.page1Presence < 50.0)
  {
    var w := SoSWarning(m, verb, timePhrase, coverage);
    if m.rankChange > 2.0 {
      HedgedPart(w[0], "sos-2", Warning, "Average position " + verb + " weakening trend "
        + timePhrase + ". Consider sponsored bid adjustments.", coverage);
      assert w[0].id == "sos-2" && w[0].title == "Average rank declining";
    } else if m.page1Presence < 50.0 {
      HedgedPart(w[0], "sos-2", Warning, "Fewer than half of tracked keywords " + verb
        + " page 1 presence " + timePhrase + ".", coverage);
      assert w[0].id == "sos-2" && w[0].title == "Page 1 presence below threshold";
    }
  }

  /** The SoS info rules: an improving rank wins over strong share-of-search presence. */
  lemma SoSInfoRule(m: SoSMetrics, verb: string, timePhrase: string, coverage: Coverage)
    ensures var n := SoSInfo(m, verb, timePhrase, coverage);
            && Part(n, "sos-3", Info, coverage)
            && (|n| > 0 <==> m.rankChange < -1.0 || m.sosPresence >= 80.0)
            && (|n| > 0 && n[0].title == "Rank improvement observed" <==> m.rankChange < -1.0)
            && (|n| > 0 && n[0].title == "Strong search presence" <==>
                  !(m.rankChange < -1.0) && m.sosPresence >= 80.0)
  {
    var n := SoSInfo(m, verb, timePhrase, coverage);
    if m.rankChange < -1.0 {
      HedgedPart(n[0], "sos-3", Info, "Average rank " + verb + " positive movement "
        + timePhrase + ". Trend appears sustainable.", coverage);
      assert n[0].id == "sos-3" && n[0].title == "Rank improvement observed";
    } else if m.sosPresence >= 80.0 {
      HedgedPart(n[0], "sos-3", Info, "High visibility maintained across tracked keywords "
        + timePhrase + ".", coverage);
      assert n[0].id == "sos-3" && n[0].title == "Strong search presence";
    }
  }

  /** The threshold rules of `generateSoSInsights`, stated as for the OLA rules. */
  lemma SoSInsightRules(m: SoSMetrics, verb: string, timePhrase: string, coverage: Coverage, show: Show)
    ensures var r := SoSInsights(m, verb, timePhrase, coverage, show);
            && WellFormedInsights(r, coverage)
            && (forall i :: 0 <= i < |r| ==> r[i].id in {"sos-1", "sos-2", "sos-3"})
            && (HasId(r, "sos-1") <==> m.keywordsBelowTop20 > 5.0)
            && (HasId(r, "sos-2") <==> m.rankChange > 2.0 || m.page1Presence < 50.0)
            && (HasTitle(r, "sos-2", "Average rank declining") <==> m.rankChange > 2.0)
            && (HasTitle(r, "sos-2", "Page 1 presence below threshold") <==>
                  !(m.rankChange > 2.0) && m.page1Presence < 50.0)
            && (HasId(r, "sos-3") <==> m.rankChange < -1.0 || m.sosPresence >= 80.0)
            && (HasTitle(r, "sos-3", "Rank improvement observed") <==> m.rankChange < -1.0)
            && (HasTitle(r, "sos-3", "Strong search presence") <==>
                  !(m.rankChange < -1.0) && m.sosPresence >= 80.0)
  {
    SoSInsightsWellFormed(m, verb, timePhrase, coverage, show);
    SoSInsightsFire(m, verb, timePhrase, coverage, show);
  }

  lemma SoSInsightsWellFormed(m: SoSMetrics, verb: string, timePhrase: string, coverage: Coverage, show: Show)
    ensures var r := SoSInsights(m, verb, timePhrase, coverage, show);
            && WellFormedInsights(r, coverage)
            && (forall i :: 0 <= i < |r| ==> r[i].id in {"sos-1", "sos-2", "sos-3"})
  {
    var a := SoSAlert(m, verb, timePhrase, coverage, show);
    var w := SoSWarning(m, verb, timePhrase, coverage);
    var n := SoSInfo(m, verb, timePhrase, coverage);
    SoSAlertRule(m, verb, timePhrase, coverage, show);
    SoSWarningRule(m, verb, timePhrase, coverage);
    SoSInfoRule(m, verb, timePhrase, coverage);
    ThreePartsWellFormed(a, w, n, "sos-1", "sos-2", "sos-3", coverage);
  }

  lemma SoSInsightsFire(m: SoSMetrics, verb: string, timePhrase: string, coverage: Coverage, show: Show)
    ensures var r := SoSInsights(m, verb, timePhrase, coverage, show);
            && (HasId(r, "sos-1") <==> m.keywordsBelowTop20 > 5.0)
            && (HasId(r, "sos-2") <==> m.rankChange > 2.0 || m.page1Presence < 50.0)
            && (HasTitle(r, "sos-2", "Average rank declining") <==> m.rankChange > 2.0)
            && (HasTitle(r, "sos-2", "Page 1 presence below threshold") <==>
                  !(m.rankChange > 2.0) && m.page1Presence < 50.0)
            && (HasId(r, "sos-3") <==> m.rankChange < -1.0 || m.sosPresence >= 80.0)
            && (HasTitle(r, "sos-3", "Rank improvement observed") <==> m.rankChange < -1.0)
            && (HasTitle(r, "sos-3", "Strong search presence") <==>
                  !(m.rankChange < -1.0) && m.sosPresence >= 80.0)
  {
    var r := SoSInsights(m, verb, timePhrase, coverage, show);
    var a := SoSAlert(m, verb, timePhrase, coverage, show);
    var w := SoSWarning(m, verb, timePhrase, coverage);
    var n := SoSInfo(m, verb, timePhrase, coverage);
    SoSAlertRule(m, verb, timePhrase, coverage, show);
    SoSWarningRule(m, verb, timePhrase, coverage);
    SoSInfoRule(m, verb, timePhrase, coverage);
    ThreeRulesFound(a, w, n, "sos-1", "sos-2", "sos-3", coverage,
      m.keywordsBelowTop20 > 5.0, m.rankChange > 2.0, !(m.rankChange > 2.0) && m.page1Presence < 50.0,
      m.rankChange < -1.0, !(m.rankChange < -1.0) && m.sosPresence >= 80.0,
      "Average rank declining", "Page 1 presence below threshold",
      "Rank improvement observed", "Strong search presence");
    assert r == a + w + n;
  }

  /** Only the first item changes: it gains the qualifier and a lower-case first letter. */
  lemma DecisionSummaryQualifiesFirstOnly(items: seq<string>, coverage: Coverage)
    ensures var r := GenerateDecisionSummary(items, coverage);
            && (coverage == Complete ==> r == items)
            && (|items| > 0 ==> r[1..] == items[1..])
            && (coverage != Complete && |items| > 0 ==>
                  && r[0][..|Qualifier(coverage)|] == Qualifier(coverage)
                  && r[0][|Qualifier(coverage)|..] == LowerFirst(items[0]))
  {
  }
}

=== FILE: js_strings.dfy ===
/** String searches as JavaScript's `String.prototype.includes` performs them, by UTF-16 code unit. */
module JsStrings {

  /** `s.includes(t)`: `t` occurs in `s` at some position. */
  predicate Includes(s: string, t: string)
  {
    exists i :: 0 <= i <= |s| - |t| && s[i..][..|t|] == t
  }

  /** An occurrence at a known position. */
  lemma IncludesAt(s: string, t: string, i: nat)
    requires i + |t| <= |s| && s[i..i + |t|] == t
    ensures Includes(s, t)
  {
    assert s[i..][..|t|] == t;
  }

  /** A one-character needle occurs exactly when the character is in the string. */
  lemma {:induction false} IncludesChar(s: string, c: char)
    ensures Includes(s, [c]) <==> c in s
  {
    if c in s {
      var i :| 0 <= i < |s| && s[i] == c;
      assert s[i..][..1] == [c];
    }
    if Includes(s, [c]) {
      var i :| 0 <= i <= |s| - 1 && s[i..][..1] == [c];
      assert s[i] == s[i..][..1][0];
    }
  }

  /** A needle whose first character the string lacks does not occur in it. */
  lemma FirstCharAbsent(s: string, t: string)
    requires |t| > 0 && t[0] !in s
    ensures !Includes(s, t)
  {
    forall i | 0 <= i <= |s| - |t| ensures s[i..][..|t|] != t {
      assert s[i..][..|t|][0] == s[i];
    }
  }
}

=== FILE: key_takeaways.dfy ===
/**
 * The "Key Takeaways" panel: three bullets built from per-platform health rows
 * and weekly trend rows: a vendor comparison, the direction of the weekly
 * trend, and an action for the first platform below target.
 */
module KeyTakeaways {
  import opened Wrappers
  import opened RealSeqs
  import opened Grouping
  import opened Sorting
  import opened DashboardVariant

  // ---------------------------------------------------------------------------
  // trendDirection
  // ---------------------------------------------------------------------------

  datatype Direction = Up | Down | Flat

  datatype WeekPoint = WeekPoint(week: string, value: Option<real>)

  /** The comparator `a.week.localeCompare(b.week)`, on ISO week strings. */
  predicate WeekLe(a: WeekPoint, b: WeekPoint)
  {
    StrLe(a.week, b.week)
  }

  /** The ±0.005 dead band around a change. */
  function Classify(diff: real): (d: Direction)
    ensures d == Up <==> diff > 0.005
    ensures d == Down <==> diff < -0.005
  {
    if diff > 0.005 then Up
    else if diff < -0.005 then Down
    else Flat
  }

  /** `trendDirection`: sort a copy by week and compare the last two points, a null value counting as 0. */
  function TrendDirection(rows: seq<WeekPoint>): (d: Direction)
    ensures |rows| < 2 ==> d == Flat
  {
    if |rows| < 2 then Flat
    else
      var sorted := SortBy(rows, WeekLe);
      Classify(Or0(sorted[|sorted| - 1].value) - Or0(sorted[|sorted| - 2].value))
  }

  lemma WeekLeTotalPreorder()
    ensures TotalPreorder(WeekLe)
  {
    forall x: WeekPoint, y: WeekPoint ensures WeekLe(x, y) || WeekLe(y, x) {
      StrLeTotal(x.week, y.week);
    }
    forall x: WeekPoint, y: WeekPoint, z: WeekPoint | WeekLe(x, y) && WeekLe(y, z) ensures WeekLe(x, z) {
      StrLeTransitive(x.week, y.week, z.week);
    }
  }

  /**
   * The two points compared are two of the input points, the last has the
   * greatest week of all, and the one before it the greatest of the others.
   */
  lemma TrendUsesLatestTwo(rows: seq<WeekPoint>)
    requires |rows| >= 2
    ensures var s := SortBy(rows, WeekLe);
            var last, prev := s[|s| - 1], s[|s| - 2];
            && prev in rows && last in rows
            && NoLaterWeek(s[..|s|], last)
            && NoLaterWeek(s[..|s| - 1], prev)
            && TrendDirection(rows) == Classify(Or0(last.value) - Or0(prev.value))
  {
    var s := SortBy(rows, WeekLe);
    SortedByWeek(rows);
    LatestLast(s);
    SortByAt(rows, WeekLe, |s| - 1);
    SortByAt(rows, WeekLe, |s| - 2);
    DirectionOfLatestTwo(rows);
  }

  lemma DirectionOfLatestTwo(rows: seq<WeekPoint>)
    requires |rows| >= 2
    ensures var s := SortBy(rows, WeekLe);
            TrendDirection(rows) == Classify(Or0(s[|s| - 1].value) - Or0(s[|s| - 2].value))
  {
  }

  lemma SortedByWeek(rows: seq<WeekPoint>)
    ensures Sorted(SortBy(rows, WeekLe), WeekLe)
  {
    WeekLeTotalPreorder();
    SortBySorted(rows, WeekLe);
  }

  /** No point of `s` has a later week than `x`. */
  ghost predicate NoLaterWeek(s: seq<WeekPoint>, x: WeekPoint)
  {
    forall i :: 0 <= i < |s| ==> StrLe(s[i].week, x.week)
  }

  /** In a sequence sorted by week the last point has the greatest week, the one before it the greatest of the rest. */
  lemma LatestLast(s: seq<WeekPoint>)
    requires |s| >= 2 && Sorted(s, WeekLe)
    ensures NoLaterWeek(s[..|s|], s[|s| - 1])
    ensures NoLaterWeek(s[..|s| - 1], s[|s| - 2])
  {
    var n := |s|;
    forall i | 0 <= i < n ensures StrLe(s[i].week, s[n - 1].week) {
      if i < n - 1 {
        assert WeekLe(s[i], s[n - 1]);
      } else {
        StrLeReflexive(s[i].week);
      }
    }
    forall i | 0 <= i < n - 1 ensures StrLe(s[i].week, s[n - 2].week) {
      if i < n - 2 {
        assert WeekLe(s[i], s[n - 2]);
      } else {
        StrLeReflexive(s[i].week);
      }
    }
  }

  lemma {:induction false} StrLeReflexive(a: string)
    ensures StrLe(a, a)
  {
    if a != [] {
      StrLeReflexive(a[1..]);
    }
  }

  /**
   * For points with distinct weeks the result depends only on which points
   * there are, not on the order they come in.
   */
  lemma TrendIgnoresInputOrder(a: seq<WeekPoint>, b: seq<WeekPoint>)
    requires multiset(a) == multiset(b)
    requires forall x, y :: x in multiset(a) && y in multiset(a) && x.week == y.week ==> x == y
    ensures TrendDirection(a) == TrendDirection(b)
  {
    WeekLeTotalPreorder();
    SortBySorted(a, WeekLe);
    SortBySorted(b, WeekLe);
    forall x: WeekPoint, y: WeekPoint | x in multiset(a) && y in multiset(a) && WeekLe(x, y) && WeekLe(y, x) ensures x == y {
      StrLeAntisymmetric(x.week, y.week);
    }
    assert TiesAreEqual(multiset(SortBy(a, WeekLe)), WeekLe);
    SortedUnique(SortBy(a, WeekLe), SortBy(b, WeekLe), WeekLe);
    assert |a| == |multiset(a)| == |b|;
  }

  /** Two points are compared later week minus earlier week, whichever comes first. */
  lemma TrendOfTwo(x: WeekPoint, y: WeekPoint)
    requires StrLe(x.week, y.week) && x.week != y.week
    ensures TrendDirection([x, y]) == Classify(Or0(y.value) - Or0(x.value))
    ensures TrendDirection([y, x]) == Classify(Or0(y.value) - Or0(x.value))
  {
    if StrLe(y.week, x.week) {
      StrLeAntisymmetric(x.week, y.week);
    }
    SortTwo(x, y, WeekLe);
  }

  // ---------------------------------------------------------------------------
  // Weekly averages
  // ---------------------------------------------------------------------------

  /** One trend row: its week, its platform and the metric of the variant. */
  datatype TrendRow = TrendRow(week: string, platform: string, value: Option<real>)

  /** A row is collected under its week when the week is not empty and the metric is not null. */
  function WeekEntry(r: TrendRow): Option<(string, real)>
  {
    if r.week != "" && r.value.Some? then Some((r.week, r.value.value)) else None
  }

  /** `avgByWeek`: one point per collected week, in order of first appearance, holding the mean of its values. */
  function WeeklyAverages(trend: seq<TrendRow>): (r: seq<WeekPoint>)
    ensures |r| == |Keys(trend, WeekEntry)|
  {
    var weeks := Keys(trend, WeekEntry);
    seq(|weeks|, i requires 0 <= i < |weeks| => WeekPoint(weeks[i], Some(Mean(Members(trend, WeekEntry, weeks[i])))))
  }

  /** What the week loop knows after a prefix of the rows: the `Map`'s week order and each week's values. */
  ghost predicate WeeksGrouped(weeks: seq<string>, weeklyAgg: map<string, seq<real>>, prefix: seq<TrendRow>)
  {
    && weeks == Keys(prefix, WeekEntry)
    && (forall w :: w in weeklyAgg <==> w in weeks)
    && (forall w :: w in weeklyAgg ==> weeklyAgg[w] == Members(prefix, WeekEntry, w))
  }

  /** One row: a dated row with a value opens its week if needed and adds the value; any other row changes nothing. */
  lemma WeeksGroupedStep(weeks: seq<string>, weeklyAgg: map<string, seq<real>>, trend: seq<TrendRow>, i: nat,
                         weeks': seq<string>, weeklyAgg': map<string, seq<real>>)
    requires i < |trend| && WeeksGrouped(weeks, weeklyAgg, trend[..i])
    requires WeekEntry(trend[i]).None? ==> weeks' == weeks && weeklyAgg' == weeklyAgg
    requires WeekEntry(trend[i]).Some? ==>
               var w := trend[i].week;
               && weeks' == (if w in weeklyAgg then weeks else weeks + [w])
               && weeklyAgg' == weeklyAgg[w := (if w in weeklyAgg then weeklyAgg[w] else []) + [trend[i].value.value]]
    ensures WeeksGrouped(weeks', weeklyAgg', trend[..i + 1])
  {
    assert trend[..i + 1][..i] == trend[..i];
  }

  /** The loop that fills `weeklyAgg`, then the `map` that averages each week. */
  method AverageByWeek(trend: seq<TrendRow>) returns (avgByWeek: seq<WeekPoint>)
    ensures avgByWeek == WeeklyAverages(trend)
  {
    var weeks: seq<string> := [];
    var weeklyAgg: map<string, seq<real>> := map[];
    for i := 0 to |trend|
      invariant WeeksGrouped(weeks, weeklyAgg, trend[..i])
    {
      var r := trend[i];
      ghost var weeks0, weeklyAgg0 := weeks, weeklyAgg;
      if r.week != "" && r.value.Some? {
        var arr := if r.week in weeklyAgg then weeklyAgg[r.week] else [];
        if r.week !in weeklyAgg {
          weeks := weeks + [r.week];
        }
        arr := arr + [r.value.value];
        weeklyAgg := weeklyAgg[r.week := arr];
      }
      WeeksGroupedStep(weeks0, weeklyAgg0, trend, i, weeks, weeklyAgg);
    }
    assert trend[..|trend|] == trend;

    avgByWeek := [];
    for j := 0 to |weeks|
      invariant |avgByWeek| == j
      invariant forall m :: 0 <= m < j ==> avgByWeek[m] == WeeklyAverages(trend)[m]
    {
      var vals := weeklyAgg[weeks[j]];
      avgByWeek := avgByWeek + [WeekPoint(weeks[j], Some(Sum(vals) / |vals| as real))];
    }
  }

  /** No week is listed twice, so the trend does not depend on the order of the weeks. */
  lemma WeeklyAveragesDistinct(trend: seq<TrendRow>)
    ensures var r := WeeklyAverages(trend);
            forall x, y :: x in multiset(r) && y in multiset(r) && x.week == y.week ==> x == y
  {
    var r := WeeklyAverages(trend);
    var weeks := Keys(trend, WeekEntry);
    KeysDistinct(trend, WeekEntry);
    assert forall i :: 0 <= i < |r| ==> r[i].week == weeks[i];
    forall x: WeekPoint, y: WeekPoint | x in multiset(r) && y in multiset(r) && x.week == y.week ensures x == y {
      assert x in r && y in r;
      var i :| 0 <= i < |r| && r[i] == x;
      var j :| 0 <= j < |r| && r[j] == y;
      assert weeks[i] == weeks[j];
    }
  }

  /** Any arrangement of the weekly points gives the same direction. */
  lemma WeeklyTrendIgnoresOrder(trend: seq<TrendRow>, points: seq<WeekPoint>)
    requires multiset(points) == multiset(WeeklyAverages(trend))
    ensures TrendDirection(points) == TrendDirection(WeeklyAverages(trend))
  {
    WeeklyAveragesDistinct(trend);
    TrendIgnoresInputOrder(WeeklyAverages(trend), points);
  }

  /**
   * Each weekly point is the mean of the non-null values of the rows of that
   * week, so it lies between the least and the greatest of them.
   */
  lemma WeeklyAverageOfCollected(trend: seq<TrendRow>, i: nat)
    requires i < |WeeklyAverages(trend)|
    ensures var p := WeeklyAverages(trend)[i];
            var vals := Members(trend, WeekEntry, p.week);
            && p.week != ""
            && |vals| > 0
            && p.value == Some(Mean(vals))
            && Min(vals) <= p.value.value <= Max(vals)
            && (forall v :: v in vals <==> exists k: int :: 0 <= k < |trend| && trend[k].week == p.week && trend[k].value == Some(v))
  {
    var weeks := Keys(trend, WeekEntry);
    var p := WeeklyAverages(trend)[i];
    var vals := Members(trend, WeekEntry, p.week);
    KeysExactly(trend, WeekEntry, p.week);
    var k :| 0 <= k < |trend| && HasKey(trend, WeekEntry, k, p.week);
    MeanBetweenMinAndMax(vals);
    forall v ensures v in vals <==> exists k: int :: 0 <= k < |trend| && trend[k].week == p.week && trend[k].value == Some(v) {
      WeekValuesExactly(trend, p.week, v);
    }
  }

  /** The values grouped under a non-empty week are those of the rows dated that week. */
  lemma WeekValuesExactly(trend: seq<TrendRow>, week: string, v: real)
    requires week != ""
    ensures v in Members(trend, WeekEntry, week) <==>
            exists k: int :: 0 <= k < |trend| && trend[k].week == week && trend[k].value == Some(v)
  {
    MembersExactly(trend, WeekEntry, week, v);
    if exists k: int :: 0 <= k < |trend| && trend[k].week == week && trend[k].value == Some(v) {
      var k :| 0 <= k < |trend| && trend[k].week == week && trend[k].value == Some(v);
      assert WeekEntry(trend[k]) == Some((week, v));
    }
  }

  /** A row with an empty week or a null value changes no weekly point, wherever it stands. */
  lemma SkippedTrendRowIgnored(a: seq<TrendRow>, r: TrendRow, b: seq<TrendRow>)
    requires r.week == "" || r.value.None?
    ensures WeeklyAverages(a + [r] + b) == WeeklyAverages(a + b)
  {
    SkippedElementIgnored(a, r, b, WeekEntry);
  }

  // ---------------------------------------------------------------------------
  // Bullets
  // ---------------------------------------------------------------------------

  /**
   * One vendor-health row: the headline metric (availability, or top-10
   * presence) and the metric the action rule looks at (Must-Have
   * availability, or elite rank share).
   */
  datatype HealthRow = HealthRow(platform: string, headline: Option<real>, action: Option<real>)

  /** The comparator `(b.headline ?? 0) - (a.headline ?? 0)`: highest headline first. */
  predicate HeadlineLe(a: HealthRow, b: HealthRow)
  {
    Or0(b.headline) <= Or0(a.headline)
  }

  /** The action target: 0.9 Must-Have availability, or 0.3 elite rank share. */
  function ActionLimit(variant: Variant): real
  {
    if variant == OLA then 0.9 else 0.3
  }

  /** The action rule's test, a null metric counting as 1. */
  predicate BelowTarget(h: HealthRow, limit: real)
  {
    h.action.GetOr(1.0) < limit
  }

  /** `health.find(...)`: the index of the first row below target. */
  function FindBelowTarget(health: seq<HealthRow>, limit: real): (k: Option<nat>)
    ensures k.Some? ==> k.value < |health| && BelowTarget(health[k.value], limit)
                        && forall j :: 0 <= j < k.value ==> !BelowTarget(health[j], limit)
    ensures k.None? ==> forall j :: 0 <= j < |health| ==> !BelowTarget(health[j], limit)
  {
    if health == [] then None
    else if BelowTarget(health[0], limit) then Some(0)
    else
      match FindBelowTarget(health[1..], limit)
      case None => None
      case Some(k) => Some(k + 1)
  }

  datatype Bullet =
    | Comparison(leader: HealthRow, laggard: HealthRow)
    | Overall(top: HealthRow)
    | Trend(direction: Direction)
    | Focus(platform: string)
    | Maintain

  /** The bullets `load` sets: none without health rows, otherwise comparison, trend and action. */
  function Takeaways(variant: Variant, health: seq<HealthRow>, trend: seq<TrendRow>): (bullets: seq<Bullet>)
    ensures |health| == 0 ==> bullets == []
    ensures |health| > 0 ==> |bullets| == 3
    ensures |health| > 0 ==> bullets[0].Comparison? || bullets[0].Overall?
    ensures |health| > 0 ==> bullets[2].Focus? || bullets[2] == Maintain
  {
    if |health| == 0 then []
    else
      var sorted := SortBy(health, HeadlineLe);
      var top, bottom := sorted[0], sorted[|sorted| - 1];
      var comparison := if |sorted| > 1 && top.platform != bottom.platform then Comparison(top, bottom) else Overall(top);
      var action := match FindBelowTarget(health, ActionLimit(variant))
        case Some(k) => Focus(health[k].platform)
        case None => Maintain;
      [comparison, Trend(TrendDirection(WeeklyAverages(trend))), action]
  }

  /** `cap`: upper-case the first character (ASCII letters only). */
  function Cap(s: string): string
  {
    if s == [] then [] else [if 'a' <= s[0] <= 'z' then (s[0] as int - 32) as char else s[0]] + s[1..]
  }

  /** The bullet's sentence, closed by a full stop. */
  function BulletText(variant: Variant, b: Bullet, pct: Option<real> -> string): (text: string)
    ensures |text| > 0 && text[|text| - 1] == '.'
  {
    Sentence(variant, b, pct) + "."
  }

  /** The sentence without its full stop; `pct` renders a metric as `pct` does. */
  function Sentence(variant: Variant, b: Bullet, pct: Option<real> -> string): string
  {
    match (variant, b)
    case (OLA, Comparison(lead, lag)) =>
      Cap(lead.platform) + " leads availability at " + pct(lead.headline) + "; " + Cap(lag.platform) + " lags at " + pct(lag.headline)
    case (SoS, Comparison(lead, lag)) =>
      Cap(lead.platform) + " holds stronger page-1 presence at " + pct(lead.headline) + " vs " + Cap(lag.platform) + " at " + pct(lag.headline)
    case (OLA, Overall(top)) => "Overall availability is " + pct(top.headline) + " across platforms"
    case (SoS, Overall(top)) => "Page-1 presence is " + pct(top.headline) + " across platforms"
    case (OLA, Trend(Up)) => "Availability has been improving over the last few weeks"
    case (OLA, Trend(Down)) => "Availability has been declining over the last few weeks"
    case (OLA, Trend(Flat)) => "Availability has remained steady over the last few weeks"
    case (SoS, Trend(Up)) => "Search visibility has been trending upward recently"
    case (SoS, Trend(Down)) => "Search visibility has been slipping over recent weeks"
    case (SoS, Trend(Flat)) => "Search visibility has held steady over recent weeks"
    case (OLA, Focus(p)) => "Focus on must-have products on " + Cap(p) + " where gaps are largest"
    case (SoS, Focus(p)) => "Improve top-3 rankings on " + Cap(p) + " to increase click-through rates"
    case (OLA, Maintain) => "Maintain current replenishment discipline across all platforms"
    case (SoS, Maintain) => "Continue optimising keyword bids to sustain strong positions"
  }

  // ---------------------------------------------------------------------------
  // Properties of the bullets
  // ---------------------------------------------------------------------------

  lemma HeadlineLeTotalPreorder()
    ensures TotalPreorder(HeadlineLe)
  {
  }

  /**
   * The comparison names two different platforms only when there are two or
   * more rows; the leader has the highest headline metric of all rows and the
   * laggard the lowest (null as 0), and both are rows of the input.
   */
  lemma ComparisonNamesExtremes(variant: Variant, health: seq<HealthRow>, trend: seq<TrendRow>)
    requires |health| > 0
    ensures var b := Takeaways(variant, health, trend)[0];
            && (b.Comparison? ==>
                  && |health| > 1 && b.leader.platform != b.laggard.platform
                  && b.leader in health && b.laggard in health
                  && forall i :: 0 <= i < |health| ==>
                       Or0(b.laggard.headline) <= Or0(health[i].headline) <= Or0(b.leader.headline))
            && (b.Overall? ==>
                  && b.top in health
                  && (|health| == 1 ==> b.top == health[0])
                  && forall i :: 0 <= i < |health| ==> Or0(health[i].headline) <= Or0(b.top.headline))
  {
    SortedExtremes(health);
  }

  /** The first and last rows after the sort hold the highest and lowest headline values. */
  lemma SortedExtremes(health: seq<HealthRow>)
    requires |health| > 0
    ensures var s := SortBy(health, HeadlineLe);
            && s[0] in health && s[|s| - 1] in health
            && (|health| == 1 ==> s[0] == health[0])
            && forall i :: 0 <= i < |health| ==> Or0(s[|s| - 1].headline) <= Or0(health[i].headline) <= Or0(s[0].headline)
  {
    HeadlineLeTotalPreorder();
    SortedEnds(health, HeadlineLe);
  }

  /** The trend bullet follows the weekly averages, and no trend rows read as flat. */
  lemma TrendBulletFollowsWeeks(variant: Variant, health: seq<HealthRow>, trend: seq<TrendRow>)
    requires |health| > 0
    ensures Takeaways(variant, health, trend)[1] == Trend(TrendDirection(WeeklyAverages(trend)))
    ensures |Keys(trend, WeekEntry)| < 2 ==> Takeaways(variant, health, trend)[1] == Trend(Flat)
  {
  }

  /**
   * The action bullet names the platform of the first row (in the order the
   * rows arrive, not the sorted order) whose metric is below target, a null
   * metric never being below; with no such row it is the maintenance bullet.
   */
  lemma ActionTargetsFirstBelow(variant: Variant, health: seq<HealthRow>, trend: seq<TrendRow>)
    requires |health| > 0
    ensures var b := Takeaways(variant, health, trend)[2];
            var limit := ActionLimit(variant);
            && (b == Maintain <==> forall i :: 0 <= i < |health| ==> !BelowTarget(health[i], limit))
            && (b.Focus? ==> exists k :: 0 <= k < |health| && b.platform == health[k].platform
                               && BelowTarget(health[k], limit)
                               && forall j :: 0 <= j < k ==> !BelowTarget(health[j], limit))
            && (forall i :: 0 <= i < |health| ==> health[i].action.None? ==> !BelowTarget(health[i], limit))
  {
    var limit := ActionLimit(variant);
    var k := FindBelowTarget(health, limit);
    if k.Some? {
      assert BelowTarget(health[k.value], limit);
    }
  }
}

=== FILE: metrics.dfy ===
/**
 * The null-aware metric helpers of the dashboard. Unknown values (`null`) are
 * never counted as false or zero: they are excluded from averages, and a null
 * search rank counts as "not present".
 */
module Metrics {
  import opened Wrappers
  import RealSeqs

  /** `CHART_LIMITS`: at most 3 lines, 10 rows and 7 bars per chart. */
  const MaxLines: nat := 3
  const MaxRows: nat := 10
  const MaxBars: nat := 7

  /** A search rank counts as "present" up to this rank. */
  const PresenceRankLimit: real := 25.0

  /** The default share of null values above which a date is incomplete. */
  const DefaultIncompleteThreshold: real := 0.5

  // ---------------------------------------------------------------------------
  // Filters
  // ---------------------------------------------------------------------------

  /** `values.filter(v => v !== null)`. */
  function Known<T>(values: seq<Option<T>>): (r: seq<T>)
    ensures |r| <= |values|
    ensures |r| == 0 <==> forall i :: 0 <= i < |values| ==> values[i].None?
  {
    if values == [] then []
    else
      assert forall i :: 1 <= i < |values| ==> values[i] == values[1..][i - 1];
      (if values[0].Some? then [values[0].value] else []) + Known(values[1..])
  }

  /** `filter(v => v === true).length`. */
  function CountTrue(bs: seq<bool>): (n: nat)
    ensures n <= |bs|
  {
    if bs == [] then 0 else (if bs[0] then 1 else 0) + CountTrue(bs[1..])
  }

  /** `ranks.filter(r => r !== null && r <= limit)`. */
  function PresentRanks(ranks: seq<Option<real>>, limit: real): (r: seq<real>)
    ensures |r| <= |ranks|
    ensures forall i :: 0 <= i < |r| ==> r[i] <= limit
  {
    if ranks == [] then []
    else (if ranks[0].Some? && ranks[0].value <= limit then [ranks[0].value] else []) + PresentRanks(ranks[1..], limit)
  }

  lemma {:induction false} KnownAppend<T>(a: seq<Option<T>>, b: seq<Option<T>>)
    ensures Known(a + b) == Known(a) + Known(b)
  {
    if a == [] {
      assert a + b == b;
    } else {
      assert (a + b)[0] == a[0] && (a + b)[1..] == a[1..] + b;
      KnownAppend(a[1..], b);
      var head := if a[0].Some? then [a[0].value] else [];
      assert Known(a + b) == head + (Known(a[1..]) + Known(b));
    }
  }

  lemma {:induction false} KnownMembers<T>(values: seq<Option<T>>, x: T)
    ensures x in Known(values) <==> Some(x) in values
  {
    if values != [] {
      KnownMembers(values[1..], x);
      assert values == [values[0]] + values[1..];
    }
  }

  lemma {:induction false} PresentRanksAppend(a: seq<Option<real>>, b: seq<Option<real>>, limit: real)
    ensures PresentRanks(a + b, limit) == PresentRanks(a, limit) + PresentRanks(b, limit)
  {
    if a == [] {
      assert a + b == b;
    } else {
      assert (a + b)[0] == a[0] && (a + b)[1..] == a[1..] + b;
      PresentRanksAppend(a[1..], b, limit);
      var head := if a[0].Some? && a[0].value <= limit then [a[0].value] else [];
      assert PresentRanks(a + b, limit) == head + (PresentRanks(a[1..], limit) + PresentRanks(b, limit));
    }
  }

  lemma {:induction false} PresentRanksMembers(ranks: seq<Option<real>>, limit: real, x: real)
    ensures x in PresentRanks(ranks, limit) <==> Some(x) in ranks && x <= limit
  {
    if ranks != [] {
      PresentRanksMembers(ranks[1..], limit, x);
      assert ranks == [ranks[0]] + ranks[1..];
    }
  }

  /** The filters count what the multiset of the input says. */
  lemma KnownCounts(values: seq<Option<bool>>)
    ensures |Known(values)| == |values| - multiset(values)[None]
    ensures CountTrue(Known(values)) == multiset(values)[Some(true)]
  {
    KnownLength(values);
    KnownTrues(values);
  }

  lemma {:induction false} KnownLength(values: seq<Option<bool>>)
    ensures |Known(values)| == |values| - multiset(values)[None]
  {
    if values != [] {
      KnownLength(values[1..]);
      assert values == [values[0]] + values[1..];
      assert multiset(values) == multiset{values[0]} + multiset(values[1..]);
    }
  }

  lemma {:induction false} KnownTrues(values: seq<Option<bool>>)
    ensures CountTrue(Known(values)) == multiset(values)[Some(true)]
  {
    if values != [] {
      var tail := values[1..];
      KnownTrues(tail);
      assert values == [values[0]] + tail;
      var m := multiset(values);
      assert m == multiset{values[0]} + multiset(tail);
      assert m[Some(true)] == (if values[0] == Some(true) then 1 else 0) + multiset(tail)[Some(true)];
      var head := if values[0].Some? then [values[0].value] else [];
      assert Known(values) == head + Known(tail);
      CountTrueAppend(head, Known(tail));
      assert CountTrue(head) == if values[0] == Some(true) then 1 else 0;
    }
  }

  lemma {:induction false} CountTrueAppend(a: seq<bool>, b: seq<bool>)
    ensures CountTrue(a + b) == CountTrue(a) + CountTrue(b)
  {
    if a == [] {
      assert a + b == b;
    } else {
      assert (a + b)[0] == a[0] && (a + b)[1..] == a[1..] + b;
      CountTrueAppend(a[1..], b);
    }
  }

  /** 0 <= part/whole*100 <= 100 for 0 <= part <= whole. */
  lemma PercentBounds(part: nat, whole: nat)
    requires 0 < whole && part <= whole
    ensures 0.0 <= part as real / whole as real * 100.0 <= 100.0
  {
    RealSeqs.DivMonotone(part as real, whole as real, whole as real);
    RealSeqs.DivMonotone(0.0, part as real, whole as real);
  }

  // ---------------------------------------------------------------------------
  // The helpers
  // ---------------------------------------------------------------------------

  /** Availability %: the share of `true` among the known values; null when nothing is known. */
  function CalculateAvailabilityPct(values: seq<Option<bool>>): (r: Option<real>)
    ensures r.None? <==> forall i :: 0 <= i < |values| ==> values[i].None?
    ensures r.Some? ==> 0.0 <= r.value <= 100.0
  {
    var valid := Known(values);
    if |valid| == 0 then None
    else
      PercentBounds(CountTrue(valid), |valid|);
      Some(CountTrue(valid) as real / |valid| as real * 100.0)
  }

  /** The mean of the non-null values; null when there is none. */
  function CalculateAverage(values: seq<Option<real>>): (r: Option<real>)
    ensures r.None? <==> forall i :: 0 <= i < |values| ==> values[i].None?
  {
    var valid := Known(values);
    if |valid| == 0 then None else Some(RealSeqs.Sum(valid) / |valid| as real)
  }

  /** The share of ranks within `threshold`, out of all ranks, null ones included; null only for no ranks. */
  function CalculatePresencePct(ranks: seq<Option<real>>, threshold: real): (r: Option<real>)
    ensures r.None? <==> |ranks| == 0
    ensures r.Some? ==> 0.0 <= r.value <= 100.0
  {
    if |ranks| == 0 then None
    else
      var present := |PresentRanks(ranks, threshold)|;
      PercentBounds(present, |ranks|);
      Some(present as real / |ranks| as real * 100.0)
  }

  /** The mean of the ranks that are present (non-null and at most 25); null when none is. */
  function CalculateAvgRankWithPresence(ranks: seq<Option<real>>): (r: Option<real>)
    ensures r.None? <==> forall i :: 0 <= i < |ranks| ==> ranks[i].None? || ranks[i].value > PresenceRankLimit
    ensures r.Some? ==> r.value <= PresenceRankLimit
    ensures r.Some? && (forall i :: 0 <= i < |ranks| && ranks[i].Some? ==> ranks[i].value > 0.0) ==> r.value > 0.0
  {
    var present := PresentRanks(ranks, PresenceRankLimit);
    if |present| == 0 then
      NoPresentRanks(ranks, PresenceRankLimit);
      None
    else
      PresentRankMeanBounds(ranks, present);
      Some(RealSeqs.Sum(present) / |present| as real)
  }

  lemma PresentRankMeanBounds(ranks: seq<Option<real>>, present: seq<real>)
    requires present == PresentRanks(ranks, PresenceRankLimit) && |present| > 0
    ensures RealSeqs.Mean(present) <= PresenceRankLimit
    ensures (forall i :: 0 <= i < |ranks| && ranks[i].Some? ==> ranks[i].value > 0.0) ==> RealSeqs.Mean(present) > 0.0
    ensures exists i :: 0 <= i < |ranks| && ranks[i].Some? && ranks[i].value <= PresenceRankLimit
  {
    var lo := RealSeqs.Min(present);
    RealSeqs.MeanBounds(present, lo, PresenceRankLimit);
    PresentRanksMembers(ranks, PresenceRankLimit, lo);
    var i :| 0 <= i < |ranks| && ranks[i] == Some(lo);
  }

  lemma NoPresentRanks(ranks: seq<Option<real>>, limit: real)
    requires |PresentRanks(ranks, limit)| == 0
    ensures forall i :: 0 <= i < |ranks| ==> ranks[i].None? || ranks[i].value > limit
  {
    forall i | 0 <= i < |ranks| && ranks[i].Some?
      ensures ranks[i].value > limit
    {
      PresentRanksMembers(ranks, limit, ranks[i].value);
    }
  }

  /** A date is kept when it has values and at most `threshold` of them are null. */
  predicate IsCompleteDate<T>(item: T, nullCount: T -> real, totalCount: T -> real, threshold: real)
  {
    totalCount(item) != 0.0 && nullCount(item) / totalCount(item) <= threshold
  }

  /** `filterCompleteDates`: the complete dates, in input order. */
  function FilterCompleteDates<T>(data: seq<T>, nullCount: T -> real, totalCount: T -> real, threshold: real): (r: seq<T>)
    ensures |r| <= |data|
    ensures forall i :: 0 <= i < |r| ==> IsCompleteDate(r[i], nullCount, totalCount, threshold)
  {
    if data == [] then []
    else
      (if IsCompleteDate(data[0], nullCount, totalCount, threshold) then [data[0]] else [])
      + FilterCompleteDates(data[1..], nullCount, totalCount, threshold)
  }

  /** The result of `truncateToLimit`. */
  datatype Truncation<T> = Truncation(items: seq<T>, hasMore: bool, remainingCount: int)

  /** `items.slice(0, end)`: a negative end counts back from the length. */
  function SliceEnd(length: nat, end: int): (e: nat)
    ensures e <= length
    ensures 0 <= end ==> e == if end <= length then end else length
  {
    if end < 0 then (if length + end < 0 then 0 else length + end)
    else if end <= length then end
    else length
  }

  function TruncateToLimit<T>(items: seq<T>, limit: int): (r: Truncation<T>)
    ensures r.hasMore <==> |items| > limit
    ensures !r.hasMore ==> r.items == items && r.remainingCount == 0
    ensures r.hasMore ==> r.remainingCount == |items| - limit > 0
    ensures r.hasMore && 0 <= limit ==> |r.items| == limit
    ensures r.items <= items
  {
    if |items| <= limit then Truncation(items, false, 0)
    else Truncation(items[..SliceEnd(|items|, limit)], true, |items| - limit)
  }

  /** A JavaScript `number | null | undefined`; NaN only as a tag. */
  datatype JsNumber = Undefined | Null | NaN | Number(x: real)

  function HasValidData(v: JsNumber): (valid: bool)
    ensures valid <==> v.Number?
  {
    v != Null && v != Undefined && v != NaN
  }

  datatype MetricKind = Percentage | Rank | Count

  const NullDisplay: string := "—"

  /**
   * `formatMetricValue`: an em dash for null, otherwise the number rendered by
   * `fixed` (JavaScript's `toFixed`) with the kind's decoration.
   */
  function FormatMetricValue(value: Option<real>, kind: MetricKind, decimals: nat, fixed: (real, nat) -> string): (r: string)
    ensures value.None? ==> r == NullDisplay
    ensures value.Some? && kind == Percentage ==> |r| > 0 && r[|r| - 1] == '%'
    ensures value.Some? && kind == Rank ==> |r| > 0 && r[0] == '#'
  {
    match value
    case None => NullDisplay
    case Some(x) =>
      match kind
      case Percentage => fixed(x, decimals) + "%"
      case Rank => "#" + fixed(x, decimals)
      case Count => fixed(x, 0)
  }

  // ---------------------------------------------------------------------------
  // Properties
  // ---------------------------------------------------------------------------

  /** Availability is 100 × (number of `true`) / (number of non-null), read off the multiset of inputs. */
  lemma AvailabilityPctCounts(values: seq<Option<bool>>)
    ensures var known := |values| - multiset(values)[None];
            CalculateAvailabilityPct(values) ==
              if known == 0 then None else Some(multiset(values)[Some(true)] as real / known as real * 100.0)
  {
    KnownCounts(values);
  }

  /** Adding unknown values anywhere leaves availability unchanged. */
  lemma AvailabilityPctIgnoresNulls(a: seq<Option<bool>>, b: seq<Option<bool>>)
    ensures CalculateAvailabilityPct(a + [None] + b) == CalculateAvailabilityPct(a + b)
  {
    var nothing: seq<Option<bool>> := [None];
    KnownAppend(a + nothing, b);
    KnownAppend(a, nothing);
    KnownAppend(a, b);
    assert Known(nothing) == [];
    assert Known(a + nothing + b) == Known(a + b);
  }

  /** Availability does not depend on the order of the values. */
  lemma AvailabilityPctIgnoresOrder(a: seq<Option<bool>>, b: seq<Option<bool>>)
    requires multiset(a) == multiset(b)
    ensures CalculateAvailabilityPct(a) == CalculateAvailabilityPct(b)
  {
    assert |a| == |multiset(a)| == |b|;
    KnownCounts(a);
    KnownCounts(b);
    SameCountsSamePct(a, b);
  }

  lemma SameCountsSamePct(a: seq<Option<bool>>, b: seq<Option<bool>>)
    requires |Known(a)| == |Known(b)| && CountTrue(Known(a)) == CountTrue(Known(b))
    ensures CalculateAvailabilityPct(a) == CalculateAvailabilityPct(b)
  {
  }

  /** A non-null average is the mean of the non-null values, so it lies between two of them. */
  lemma AverageBetweenValues(values: seq<Option<real>>)
    requires CalculateAverage(values).Some?
    ensures CalculateAverage(values).value == RealSeqs.Mean(Known(values))
    ensures exists lo, hi :: Some(lo) in values && Some(hi) in values && lo <= CalculateAverage(values).value <= hi
  {
    KnownMeanBetween(values, Known(values));
  }

  lemma KnownMeanBetween(values: seq<Option<real>>, valid: seq<real>)
    requires valid == Known(values) && |valid| > 0
    ensures exists lo, hi :: Some(lo) in values && Some(hi) in values && lo <= RealSeqs.Mean(valid) <= hi
  {
    var lo, hi := RealSeqs.Min(valid), RealSeqs.Max(valid);
    RealSeqs.MeanBetweenMinAndMax(valid);
    KnownMembers(values, lo);
    KnownMembers(values, hi);
  }

  /** Null values are excluded from the average wherever they stand. */
  lemma AverageIgnoresNulls(a: seq<Option<real>>, b: seq<Option<real>>)
    ensures CalculateAverage(a + [None] + b) == CalculateAverage(a + b)
  {
    var nothing: seq<Option<real>> := [None];
    KnownAppend(a + nothing, b);
    KnownAppend(a, nothing);
    KnownAppend(a, b);
    assert Known(nothing) == [];
    assert Known(a + nothing + b) == Known(a + b);
  }

  /** A null rank counts exactly like a rank outside the threshold: present in the denominator, absent in the count. */
  lemma NullRankCountsAsAbsent(a: seq<Option<real>>, b: seq<Option<real>>, threshold: real, beyond: real)
    requires beyond > threshold
    ensures CalculatePresencePct(a + [None] + b, threshold) == CalculatePresencePct(a + [Some(beyond)] + b, threshold)
    ensures |a + b| > 0 ==> CalculatePresencePct(a + [None] + b, threshold).value <= CalculatePresencePct(a + b, threshold).value
  {
    PresentRanksAroundAbsent(a, None, b, threshold);
    PresentRanksAroundAbsent(a, Some(beyond), b, threshold);
    if |a + b| > 0 {
      PresentRanksAppend(a, b, threshold);
      FewerOutOfMore(|PresentRanks(a + b, threshold)| as real, |a + b| as real);
    }
  }

  /** A rank that is not present adds nothing to the present ranks and one to the count of ranks. */
  lemma PresentRanksAroundAbsent(a: seq<Option<real>>, x: Option<real>, b: seq<Option<real>>, threshold: real)
    requires x.None? || x.value > threshold
    ensures PresentRanks(a + [x] + b, threshold) == PresentRanks(a + b, threshold)
    ensures |a + [x] + b| == |a + b| + 1
  {
    PresentRanksAppend(a + [x], b, threshold);
    PresentRanksAppend(a, [x], threshold);
    PresentRanksAppend(a, b, threshold);
    assert PresentRanks([x], threshold) == [];
  }

  /** k/(n+1) <= k/n for 0 <= k and 0 < n. */
  lemma FewerOutOfMore(k: real, n: real)
    requires 0.0 <= k && 0.0 < n
    ensures k / (n + 1.0) * 100.0 <= k / n * 100.0
  {
    assert k / (n + 1.0) == k / n * (n / (n + 1.0));
    assert n / (n + 1.0) <= 1.0;
  }

  /** The filter distributes over concatenation: it keeps input order. */
  lemma {:induction false} FilterCompleteDatesAppend<T>(a: seq<T>, b: seq<T>, nullCount: T -> real, totalCount: T -> real, threshold: real)
    ensures FilterCompleteDates(a + b, nullCount, totalCount, threshold)
         == FilterCompleteDates(a, nullCount, totalCount, threshold) + FilterCompleteDates(b, nullCount, totalCount, threshold)
  {
    if a == [] {
      assert a + b == b;
    } else {
      assert (a + b)[0] == a[0] && (a + b)[1..] == a[1..] + b;
      FilterCompleteDatesAppend(a[1..], b, nullCount, totalCount, threshold);
      var head := if IsCompleteDate(a[0], nullCount, totalCount, threshold) then [a[0]] else [];
      assert FilterCompleteDates(a + b, nullCount, totalCount, threshold)
          == head + (FilterCompleteDates(a[1..], nullCount, totalCount, threshold) + FilterCompleteDates(b, nullCount, totalCount, threshold));
    }
  }

  /** An item is kept exactly when it is complete. */
  lemma {:induction false} FilterCompleteDatesExactly<T>(data: seq<T>, nullCount: T -> real, totalCount: T -> real, threshold: real, x: T)
    ensures x in FilterCompleteDates(data, nullCount, totalCount, threshold) <==>
            x in data && IsCompleteDate(x, nullCount, totalCount, threshold)
  {
    if data != [] {
      FilterCompleteDatesExactly(data[1..], nullCount, totalCount, threshold, x);
      assert data == [data[0]] + data[1..];
    }
  }

  /** Data whose dates are all complete passes through whole. */
  lemma {:induction false} FilterCompleteDatesKeepsComplete<T>(data: seq<T>, nullCount: T -> real, totalCount: T -> real, threshold: real)
    requires forall i :: 0 <= i < |data| ==> IsCompleteDate(data[i], nullCount, totalCount, threshold)
    ensures FilterCompleteDates(data, nullCount, totalCount, threshold) == data
  {
    if data != [] {
      assert forall i :: 1 <= i < |data| ==> data[1..][i - 1] == data[i];
      FilterCompleteDatesKeepsComplete(data[1..], nullCount, totalCount, threshold);
      assert data == [data[0]] + data[1..];
    }
  }

  /** Filtering twice changes nothing. */
  lemma FilterCompleteDatesIdempotent<T>(data: seq<T>, nullCount: T -> real, totalCount: T -> real, threshold: real)
    ensures var once := FilterCompleteDates(data, nullCount, totalCount, threshold);
            FilterCompleteDates(once, nullCount, totalCount, threshold) == once
  {
    FilterCompleteDatesKeepsComplete(FilterCompleteDates(data, nullCount, totalCount, threshold), nullCount, totalCount, threshold);
  }

  /** With a non-negative limit no item is lost: shown items plus the remaining count make up the input. */
  lemma TruncationLosesNothing<T>(items: seq<T>, limit: int)
    requires 0 <= limit
    ensures var r := TruncateToLimit(items, limit);
            && r.items + items[|r.items|..] == items
            && |r.items| + r.remainingCount == |items|
            && |r.items| <= limit
  {
  }

  /** A negative limit still reports more items, and keeps the input minus its last `-limit` items. */
  lemma TruncationNegativeLimit<T>(items: seq<T>, limit: int)
    requires limit < 0
    ensures var r := TruncateToLimit(items, limit);
            && r.hasMore
            && r.remainingCount > |items|
            && r.items == items[..if |items| + limit < 0 then 0 else |items| + limit]
  {
  }
}

=== FILE: pincode_scatter.dfy ===
/** The pincode volatility scatter: point colours and the high-volatility badge. */
module PincodeScatter {
  import Metrics

  /** One point: a location and its rounded availability and volatility. */
  datatype PincodePoint = PincodePoint(name: string, pincode: string, availability: int, volatility: int)

  const Locations: seq<(string, string)> := [
    ("Mumbai - Fort", "400001"), ("Mumbai - Andheri", "400053"), ("Delhi - CP", "110001"),
    ("Bangalore - MG Road", "560001"), ("Hyderabad", "500001"), ("Chennai", "600001"),
    ("Pune - Camp", "411001"), ("Ahmedabad", "380001"), ("Kolkata", "700001"), ("Jaipur", "302001")
  ]

  /** `Math.round`: halves round up. */
  function Round(x: real): int
  {
    (x + 0.5).Floor
  }

  /** Rounding a value of [lo, lo + span) gives an integer of [lo, lo + span]. */
  lemma RoundBounds(d: real, lo: int, span: nat)
    requires 0.0 <= d < 1.0
    ensures lo <= Round(lo as real + d * span as real) <= lo + span
  {
    assert 0.0 <= d * span as real <= span as real;
  }

  /**
   * `generateScatterData`, with the two `Math.random()` results of each point
   * passed in: availability 50 + 45 r, volatility 5 + 40 r', both rounded.
   */
  function GenerateScatterData(draws: seq<(real, real)>): (points: seq<PincodePoint>)
    requires |draws| == |Locations[..Metrics.MaxRows]|
    requires forall i :: 0 <= i < |draws| ==> 0.0 <= draws[i].0 < 1.0 && 0.0 <= draws[i].1 < 1.0
    ensures |points| <= Metrics.MaxRows
    ensures forall i :: 0 <= i < |points| ==>
              && points[i].name == Locations[i].0 && points[i].pincode == Locations[i].1
              && 50 <= points[i].availability <= 95 && 5 <= points[i].volatility <= 45
  {
    var locs := Locations[..Metrics.MaxRows];
    seq(|locs|, i requires 0 <= i < |locs| =>
      RoundBounds(draws[i].0, 50, 45);
      RoundBounds(draws[i].1, 5, 40);
      PincodePoint(locs[i].0, locs[i].1, Round(50.0 + draws[i].0 * 45.0), Round(5.0 + draws[i].1 * 40.0)))
  }

  /** The three colours of the legend. */
  datatype PointColor = AtRisk | Watch | Healthy

  /** `getPointColor`: at risk needs both low availability and high volatility; healthy needs neither warning sign. */
  function GetPointColor(availability: int, volatility: int): (c: PointColor)
    ensures c == AtRisk <==> availability < 70 && volatility > 25
    ensures c == Watch <==> !(availability < 70 && volatility > 25) && (availability < 80 || volatility > 20)
    ensures c == Healthy <==> availability >= 80 && volatility <= 20
  {
    if availability < 70 && volatility > 25 then AtRisk
    else if availability < 80 || volatility > 20 then Watch
    else Healthy
  }

  /** A worse reading never gives a better colour. */
  lemma ColorMonotone(a1: int, v1: int, a2: int, v2: int)
    requires a2 <= a1 && v1 <= v2
    ensures GetPointColor(a1, v1) == AtRisk ==> GetPointColor(a2, v2) == AtRisk
    ensures GetPointColor(a2, v2) == Healthy ==> GetPointColor(a1, v1) == Healthy
  {
  }

  /** `data.filter(d => d.volatility > 25).length`. */
  function HighVolatilityCount(points: seq<PincodePoint>): (n: nat)
    ensures n <= |points|
  {
    if points == [] then 0
    else HighVolatilityCount(points[..|points| - 1]) + if points[|points| - 1].volatility > 25 then 1 else 0
  }

  /** The badge: at most one per point, shown exactly when some point has volatility above 25. */
  lemma {:induction false} HighVolatilityCountExactly(points: seq<PincodePoint>)
    ensures HighVolatilityCount(points) <= |points|
    ensures HighVolatilityCount(points) > 0 <==> exists i :: 0 <= i < |points| && points[i].volatility > 25
  {
    if points != [] {
      var prefix := points[..|points| - 1];
      HighVolatilityCountExactly(prefix);
      assert forall i :: 0 <= i < |prefix| ==> prefix[i] == points[i];
    }
  }

  /** The number of points coloured at risk. */
  function AtRiskCount(points: seq<PincodePoint>): nat
  {
    if points == [] then 0
    else AtRiskCount(points[..|points| - 1]) + if GetPointColor(points[|points| - 1].availability, points[|points| - 1].volatility) == AtRisk then 1 else 0
  }

  /** Every red point is counted by the badge. */
  lemma {:induction false} AtRiskPointsCounted(points: seq<PincodePoint>)
    ensures AtRiskCount(points) <= HighVolatilityCount(points)
  {
    if points != [] {
      AtRiskPointsCounted(points[..|points| - 1]);
    }
  }
}

=== FILE: real_seqs.dfy ===
/**
 * Sums and means of sequences of reals: the `values.reduce((s, v) => s + v, 0)`
 * and `sum / values.length` expressions that the dashboard repeats in many places.
 */
module RealSeqs {

  /** `Math.abs`. */
  function Abs(x: real): real
  {
    if x < 0.0 then -x else x
  }

  /** Left-to-right sum, as `reduce((s, v) => s + v, 0)` computes it. */
  function Sum(s: seq<real>): real
  {
    if s == [] then 0.0 else Sum(s[..|s| - 1]) + s[|s| - 1]
  }

  function Mean(s: seq<real>): real
    requires |s| > 0
  {
    Sum(s) / |s| as real
  }

  /** The least element. */
  function Min(s: seq<real>): (m: real)
    requires |s| > 0
    ensures m in s
    ensures forall i :: 0 <= i < |s| ==> m <= s[i]
  {
    if |s| == 1 then s[0]
    else
      var rest := Min(s[1..]);
      assert forall i :: 1 <= i < |s| ==> s[i] == s[1..][i - 1];
      if s[0] <= rest then s[0] else rest
  }

  /** The greatest element. */
  function Max(s: seq<real>): (m: real)
    requires |s| > 0
    ensures m in s
    ensures forall i :: 0 <= i < |s| ==> s[i] <= m
  {
    if |s| == 1 then s[0]
    else
      var rest := Max(s[1..]);
      assert forall i :: 1 <= i < |s| ==> s[i] == s[1..][i - 1];
      if s[0] >= rest then s[0] else rest
  }

  lemma {:induction false} SumAppend(a: seq<real>, b: seq<real>)
    ensures Sum(a + b) == Sum(a) + Sum(b)
    decreases |b|
  {
    if b == [] {
      assert a + b == a;
    } else {
      var b' := b[..|b| - 1];
      assert (a + b)[..|a + b| - 1] == a + b';
      SumAppend(a, b');
    }
  }

  /** Every element within [lo, hi] puts the sum within [n*lo, n*hi]. */
  lemma {:induction false} SumBounds(s: seq<real>, lo: real, hi: real)
    requires forall i :: 0 <= i < |s| ==> lo <= s[i] <= hi
    ensures |s| as real * lo <= Sum(s) <= |s| as real * hi
  {
    if s != [] {
      var s' := s[..|s| - 1];
      assert forall i :: 0 <= i < |s'| ==> s'[i] == s[i];
      SumBounds(s', lo, hi);
      var n := |s'| as real;
      assert |s| as real * lo == n * lo + lo;
      assert |s| as real * hi == n * hi + hi;
    }
  }

  /** A mean lies between the least and the greatest element. */
  lemma MeanBetweenMinAndMax(s: seq<real>)
    requires |s| > 0
    ensures Min(s) <= Mean(s) <= Max(s)
  {
    MeanBounds(s, Min(s), Max(s));
  }

  /** Bounds on every element are bounds on the mean. */
  lemma MeanBounds(s: seq<real>, lo: real, hi: real)
    requires |s| > 0
    requires forall i :: 0 <= i < |s| ==> lo <= s[i] <= hi
    ensures lo <= Mean(s) <= hi
  {
    var n, t := |s| as real, Sum(s);
    SumBounds(s, lo, hi);
    ScaleDivides(lo, n);
    ScaleDivides(hi, n);
    DivMonotone(n * lo, t, n);
    DivMonotone(t, n * hi, n);
  }

  lemma ScaleDivides(x: real, n: real)
    requires n > 0.0
    ensures (n * x) / n == x
  {
  }

  lemma DivMonotone(a: real, b: real, n: real)
    requires n > 0.0 && a <= b
    ensures a / n <= b / n
  {
  }

  /** A sequence of non-negative reals has a non-negative sum. */
  lemma NonNegativeSum(s: seq<real>)
    requires forall i :: 0 <= i < |s| ==> 0.0 <= s[i]
    ensures 0.0 <= Sum(s)
  {
    if s != [] {
      SumBounds(s, 0.0, Max(s));
    }
  }

  /** The sum of a sequence of zeros is zero. */
  lemma ZeroSum(s: seq<real>)
    requires forall i :: 0 <= i < |s| ==> s[i] == 0.0
    ensures Sum(s) == 0.0
  {
    SumBounds(s, 0.0, 0.0);
  }
}

=== FILE: search_visibility_trend.dfy ===
/** The search visibility chart's volatility signal: limits 4 (step) and 3 (net change), no score. */
module SearchVisibilityTrend {
  import opened TrendVolatility

  /** `calculateVolatility`: "stable" for fewer than two points. */
  function CalculateVolatility(data: seq<real>): (t: Trend)
    ensures t == Classify(data, 4.0, 3.0)
  {
    if |data| < 2 then Stable
    else
      var avgChange := MeanStep(data);
      var lastChange := data[|data| - 1] - data[0];
      if avgChange > 4.0 then Volatile
      else if lastChange > 3.0 then Improving
      else Stable
  }

  /** Volatile when the mean step exceeds 4, checked before the net change. */
  lemma VolatileFirst(data: seq<real>)
    requires |data| >= 2
    ensures CalculateVolatility(data) == Volatile <==> MeanStep(data) > 4.0
  {
  }

  /** Improving exactly when not volatile and the series rose by more than 3. */
  lemma ImprovingExactly(data: seq<real>)
    ensures CalculateVolatility(data) == Improving <==> |data| >= 2 && MeanStep(data) <= 4.0 && data[|data| - 1] - data[0] > 3.0
  {
  }

  /** A constant series is always stable. */
  lemma ConstantIsStable(data: seq<real>)
    requires forall i :: 0 <= i < |data| ==> data[i] == data[0]
    ensures CalculateVolatility(data) == Stable
  {
    ConstantSeriesStable(data, 4.0, 3.0);
  }
}

=== FILE: sorting.dfy ===
/**
 * `Array.prototype.sort` with a comparator: a stable sort. `le(x, y)` holds when
 * the comparator puts x no later than y (`compare(x, y) <= 0`).
 */
module Sorting {

  ghost predicate TotalPreorder<T(!new)>(le: (T, T) -> bool)
  {
    && (forall x, y :: le(x, y) || le(y, x))
    && (forall x, y, z :: le(x, y) && le(y, z) ==> le(x, z))
  }

  /** `le` ties no two different elements of m. */
  ghost predicate TiesAreEqual<T(!new)>(m: multiset<T>, le: (T, T) -> bool)
  {
    forall x, y :: x in m && y in m && le(x, y) && le(y, x) ==> x == y
  }

  ghost predicate Sorted<T>(s: seq<T>, le: (T, T) -> bool)
  {
    forall i, j :: 0 <= i < j < |s| ==> le(s[i], s[j])
  }

  /** Inserts x before the first element it may precede: x stays ahead of its equals. */
  function Insert<T>(x: T, s: seq<T>, le: (T, T) -> bool): (r: seq<T>)
    ensures multiset(r) == multiset(s) + multiset{x}
    ensures |r| == |s| + 1
  {
    if s == [] || le(x, s[0]) then [x] + s
    else
      assert s == [s[0]] + s[1..];
      [s[0]] + Insert(x, s[1..], le)
  }

  /** Stable insertion sort: a permutation of its input. */
  function SortBy<T>(s: seq<T>, le: (T, T) -> bool): (r: seq<T>)
    ensures multiset(r) == multiset(s)
    ensures |r| == |s|
  {
    if s == [] then []
    else
      assert s == [s[0]] + s[1..];
      Insert(s[0], SortBy(s[1..], le), le)
  }

  /** Two elements x, y with x strictly first come out as [x, y] in either input order. */
  lemma SortTwo<T>(x: T, y: T, le: (T, T) -> bool)
    requires le(x, y) && !le(y, x)
    ensures SortBy([x, y], le) == [x, y]
    ensures SortBy([y, x], le) == [x, y]
  {
    assert [x, y][1..] == [y] && [y, x][1..] == [x];
    assert SortBy([y], le) == Insert(y, [], le) == [y];
    assert SortBy([x], le) == Insert(x, [], le) == [x];
    assert Insert(y, [x], le) == [x] + Insert(y, [], le);
  }

  /** Sorting neither adds nor loses an element. */
  lemma SortByMembers<T>(s: seq<T>, le: (T, T) -> bool)
    ensures forall x :: x in SortBy(s, le) <==> x in s
  {
    var r := SortBy(s, le);
    forall x ensures x in r <==> x in s {
      assert x in r <==> x in multiset(r);
      assert x in s <==> x in multiset(s);
    }
  }

  /** Each position of the sorted sequence holds an element of the input. */
  lemma SortByAt<T>(s: seq<T>, le: (T, T) -> bool, k: nat)
    requires k < |s|
    ensures SortBy(s, le)[k] in s
  {
    var r := SortBy(s, le);
    assert r[k] in multiset(r);
    assert r[k] in multiset(s);
  }

  lemma {:induction false} InsertSorted<T(!new)>(x: T, s: seq<T>, le: (T, T) -> bool)
    requires TotalPreorder(le) && Sorted(s, le)
    ensures Sorted(Insert(x, s, le), le)
    decreases |s|
  {
    if s != [] && !le(x, s[0]) {
      var tail := s[1..];
      assert Sorted(tail, le);
      InsertSorted(x, tail, le);
      var r := Insert(x, s, le);
      var rt := Insert(x, tail, le);
      assert r == [s[0]] + rt;
      assert multiset(rt) == multiset(tail) + multiset{x};
      forall k | 0 <= k < |rt| ensures le(s[0], rt[k]) {
        assert rt[k] in multiset(rt);
        if rt[k] == x {
          assert le(s[0], x);
        } else {
          assert rt[k] in multiset(tail);
          var m :| 0 <= m < |tail| && tail[m] == rt[k];
          assert tail[m] == s[m + 1];
        }
      }
    }
  }

  /** The sorted sequence is ordered. */
  lemma {:induction false} SortBySorted<T(!new)>(s: seq<T>, le: (T, T) -> bool)
    requires TotalPreorder(le)
    ensures Sorted(SortBy(s, le), le)
  {
    if s != [] {
      SortBySorted(s[1..], le);
      InsertSorted(s[0], SortBy(s[1..], le), le);
    }
  }

  /** The first element of the sorted sequence comes no later than any element, and every element no later than the last. */
  lemma SortedEnds<T(!new)>(s: seq<T>, le: (T, T) -> bool)
    requires TotalPreorder(le) && |s| > 0
    ensures var r := SortBy(s, le);
            && r[0] in s && r[|r| - 1] in s
            && (|s| == 1 ==> r[0] == s[0])
            && forall i :: 0 <= i < |s| ==> le(r[0], s[i]) && le(s[i], r[|r| - 1])
  {
    SortBySorted(s, le);
    assert forall x :: le(x, x);
    OrderedEnds(SortBy(s, le), s, le);
  }

  /** The same for any ordered arrangement r of s, under a reflexive `le`. */
  lemma OrderedEnds<T>(r: seq<T>, s: seq<T>, le: (T, T) -> bool)
    requires Sorted(r, le) && multiset(r) == multiset(s) && |s| > 0
    requires forall x :: le(x, x)
    ensures && r[0] in s && r[|r| - 1] in s
            && (|s| == 1 ==> r[0] == s[0])
            && forall i :: 0 <= i < |s| ==> le(r[0], s[i]) && le(s[i], r[|r| - 1])
  {
    assert |r| == |multiset(r)| == |s|;
    assert r[0] in multiset(r) && r[|r| - 1] in multiset(r);
    forall i | 0 <= i < |s| ensures le(r[0], s[i]) && le(s[i], r[|r| - 1]) {
      assert s[i] in multiset(s);
      assert s[i] in multiset(r);
      var k :| 0 <= k < |r| && r[k] == s[i];
      if 0 < k {
        assert le(r[0], r[k]);
      }
      if k < |r| - 1 {
        assert le(r[k], r[|r| - 1]);
      }
    }
    if |s| == 1 {
      assert r[0] in s;
    }
  }

  /**
   * Two ordered arrangements of the same elements coincide when `le` only
   * ties equal elements: the sorted result does not depend on the input order.
   */
  lemma {:induction false} SortedUnique<T(!new)>(a: seq<T>, b: seq<T>, le: (T, T) -> bool)
    requires Sorted(a, le) && Sorted(b, le)
    requires multiset(a) == multiset(b)
    requires TiesAreEqual(multiset(a), le)
    ensures a == b
    decreases |a|
  {
    assert |a| == |multiset(a)| == |b|;
    if a != [] {
      HeadsEqual(a, b, le);
      TailsAgree(a, b);
      SortedTail(a, le);
      SortedTail(b, le);
      TailTiesEqual(a, le);
      SortedUnique(a[1..], b[1..], le);
      SameHeadSameTail(a, b);
    }
  }

  lemma SameHeadSameTail<T>(a: seq<T>, b: seq<T>)
    requires |a| > 0 && |b| > 0 && a[0] == b[0] && a[1..] == b[1..]
    ensures a == b
  {
    assert a == [a[0]] + a[1..] && b == [b[0]] + b[1..];
  }

  lemma TailsAgree<T>(a: seq<T>, b: seq<T>)
    requires |a| > 0 && |b| > 0 && a[0] == b[0]
    requires multiset(a) == multiset(b)
    ensures multiset(a[1..]) == multiset(b[1..])
  {
    assert a == [a[0]] + a[1..] && b == [b[0]] + b[1..];
    assert multiset(a) == multiset{a[0]} + multiset(a[1..]);
    assert multiset(b) == multiset{a[0]} + multiset(b[1..]);
    assert multiset(a[1..]) == multiset(a) - multiset{a[0]};
    assert multiset(b[1..]) == multiset(b) - multiset{a[0]};
  }

  lemma TailTiesEqual<T(!new)>(a: seq<T>, le: (T, T) -> bool)
    requires |a| > 0
    requires TiesAreEqual(multiset(a), le)
    ensures TiesAreEqual(multiset(a[1..]), le)
  {
    assert a == [a[0]] + a[1..];
    assert multiset(a) == multiset{a[0]} + multiset(a[1..]);
    forall x, y | x in multiset(a[1..]) && y in multiset(a[1..]) && le(x, y) && le(y, x) ensures x == y {
      assert x in multiset(a) && y in multiset(a);
    }
  }

  lemma SortedTail<T>(s: seq<T>, le: (T, T) -> bool)
    requires |s| > 0 && Sorted(s, le)
    ensures Sorted(s[1..], le)
  {
    forall i, j | 0 <= i < j < |s| - 1 ensures le(s[1..][i], s[1..][j]) {
      assert s[1..][i] == s[i + 1] && s[1..][j] == s[j + 1];
    }
  }

  lemma HeadsEqual<T(!new)>(a: seq<T>, b: seq<T>, le: (T, T) -> bool)
    requires |a| > 0 && |b| > 0
    requires Sorted(a, le) && Sorted(b, le)
    requires multiset(a) == multiset(b)
    requires TiesAreEqual(multiset(a), le)
    ensures a[0] == b[0]
  {
    assert a[0] in multiset(b);
    var k :| 0 <= k < |b| && b[k] == a[0];
    assert b[0] in multiset(a);
    var m :| 0 <= m < |a| && a[m] == b[0];
  }

  /** Lexicographic order on code units: `localeCompare` on ISO date strings. */
  predicate StrLe(a: string, b: string)
  {
    if a == [] then true
    else if b == [] then false
    else if a[0] != b[0] then a[0] < b[0]
    else StrLe(a[1..], b[1..])
  }

  lemma {:induction false} StrLeTotal(a: string, b: string)
    ensures StrLe(a, b) || StrLe(b, a)
  {
    if a != [] && b != [] && a[0] == b[0] {
      StrLeTotal(a[1..], b[1..]);
    }
  }

  lemma {:induction false} StrLeTransitive(a: string, b: string, c: string)
    requires StrLe(a, b) && StrLe(b, c)
    ensures StrLe(a, c)
  {
    if a != [] && b != [] && c != [] && a[0] == b[0] && b[0] == c[0] {
      StrLeTransitive(a[1..], b[1..], c[1..]);
    }
  }

  lemma {:induction false} StrLeAntisymmetric(a: string, b: string)
    requires StrLe(a, b) && StrLe(b, a)
    ensures a == b
  {
    if a != [] && b != [] {
      StrLeAntisymmetric(a[1..], b[1..]);
      assert a == [a[0]] + a[1..] && b == [b[0]] + b[1..];
    }
  }
}

=== FILE: trend_volatility.dfy ===
/**
 * What the two trend charts share: the length and spacing of the generated
 * series, and the mean absolute step of a series that their volatility signal
 * is built on.
 */
module TrendVolatility {
  import opened RealSeqs

  datatype Trend = Stable | Volatile | Improving

  /** `data.slice(1).map((val, i) => Math.abs(val - data[i]))`. */
  function Steps(data: seq<real>): (s: seq<real>)
    ensures |s| == if |data| == 0 then 0 else |data| - 1
    ensures forall i :: 0 <= i < |s| ==> s[i] >= 0.0
  {
    if |data| == 0 then []
    else seq(|data| - 1, i requires 0 <= i < |data| - 1 => Abs(data[i + 1] - data[i]))
  }

  /** `avgChange`: the sum of the steps over their number, for a series of two points or more. */
  function MeanStep(data: seq<real>): (m: real)
    requires |data| >= 2
    ensures m >= 0.0
  {
    NonNegativeSum(Steps(data));
    Sum(Steps(data)) / (|data| - 1) as real
  }

  /** `lastChange`: the net change from the first point to the last. */
  function NetChange(data: seq<real>): (c: real)
    requires |data| > 0
    ensures c > 0.0 <==> data[0] < data[|data| - 1]
    ensures |data| == 1 ==> c == 0.0
  {
    data[|data| - 1] - data[0]
  }

  /** The signal: volatile above the step limit, checked first; then improving above the change limit; else stable. */
  function Classify(data: seq<real>, volatileAbove: real, improvingAbove: real): (t: Trend)
    ensures |data| < 2 ==> t == Stable
    ensures |data| >= 2 ==> (t == Volatile <==> MeanStep(data) > volatileAbove)
    ensures |data| >= 2 ==> (t == Improving <==> MeanStep(data) <= volatileAbove && NetChange(data) > improvingAbove)
  {
    if |data| < 2 then Stable
    else if MeanStep(data) > volatileAbove then Volatile
    else if NetChange(data) > improvingAbove then Improving
    else Stable
  }

  /** The net change never exceeds the path length: |last - first| is at most the sum of the steps. */
  lemma {:induction false} NetChangeAtMostPath(data: seq<real>)
    requires |data| > 0
    ensures Abs(NetChange(data)) <= Sum(Steps(data))
  {
    if |data| > 1 {
      var prefix := data[..|data| - 1];
      NetChangeAtMostPath(prefix);
      StepsSnoc(data);
      Triangle(data[0], data[|data| - 2], data[|data| - 1]);
    }
  }

  /** The path of a series is the path of all but its last point plus the last step. */
  lemma StepsSnoc(data: seq<real>)
    requires |data| > 1
    ensures Sum(Steps(data)) == Sum(Steps(data[..|data| - 1])) + Abs(data[|data| - 1] - data[|data| - 2])
  {
    var s, ps := Steps(data), Steps(data[..|data| - 1]);
    assert s[..|s| - 1] == ps;
  }

  lemma Triangle(x: real, y: real, z: real)
    ensures Abs(z - x) <= Abs(y - x) + Abs(z - y)
  {
  }

  /** A series that improves by more than `limit` has a mean step above `limit / (n - 1)`. */
  lemma ImprovementNeedsMovement(data: seq<real>, limit: real)
    requires |data| >= 2 && limit >= 0.0 && NetChange(data) > limit
    ensures MeanStep(data) > limit / (|data| - 1) as real
  {
    NetChangeAtMostPath(data);
    var n := (|data| - 1) as real;
    assert Sum(Steps(data)) > limit;
    DivStrict(Sum(Steps(data)), limit, n);
  }

  lemma DivStrict(a: real, b: real, n: real)
    requires n > 0.0 && a > b
    ensures a / n > b / n
  {
  }

  /** A flat series moves by nothing and is stable whatever the limits, as long as they are not negative. */
  lemma ConstantSeriesStable(data: seq<real>, volatileAbove: real, improvingAbove: real)
    requires forall i :: 0 <= i < |data| ==> data[i] == data[0]
    requires volatileAbove >= 0.0 && improvingAbove >= 0.0
    ensures |data| >= 2 ==> MeanStep(data) == 0.0
    ensures Classify(data, volatileAbove, improvingAbove) == Stable
  {
    if |data| >= 2 {
      ZeroSum(Steps(data));
    }
  }

  // ---------------------------------------------------------------------------
  // The generated series
  // ---------------------------------------------------------------------------

  /** `points`: the number of generated points for a preset. */
  function PointCount(preset: string): (n: nat)
    ensures n in {6, 7, 12, 15}
    ensures n == 6 <==> preset !in {"7d", "30d", "90d"}
  {
    if preset == "7d" then 7 else if preset == "30d" then 15 else if preset == "90d" then 12 else 6
  }

  /** Days between consecutive points. */
  function Spacing(preset: string): real
  {
    if preset == "7d" then 1.0 else if preset == "30d" then 2.0 else if preset == "90d" then 7.5 else 30.0
  }

  /** `daysAgo` of point `i`: `Math.floor((points - 1 - i) * spacing)`. */
  function DaysAgo(preset: string, i: nat): (d: int)
    requires i < PointCount(preset)
    ensures 0 <= d <= 150
  {
    ((PointCount(preset) - 1 - i) as real * Spacing(preset)).Floor
  }

  /**
   * The last point is today and earlier points lie further back. The first
   * point lies 6, 28 or 82 days back for "7d", "30d" and "90d", inside the
   * selected range; every other preset, "ytd" and "custom" included, spans 150 days.
   */
  lemma SeriesSpan(preset: string, i: nat, j: nat)
    requires i < j < PointCount(preset)
    ensures DaysAgo(preset, PointCount(preset) - 1) == 0
    ensures DaysAgo(preset, j) <= DaysAgo(preset, i)
    ensures DaysAgo(preset, 0) == (if preset == "7d" then 6 else if preset == "30d" then 28 else if preset == "90d" then 82 else 150)
  {
    var s := Spacing(preset);
    assert s > 0.0;
    var a, b := (PointCount(preset) - 1 - i) as real, (PointCount(preset) - 1 - j) as real;
    assert b * s <= a * s by {
      assert (a - b) * s >= 0.0 by {
        assert a - b >= 1.0;
      }
    }
  }
}

=== FILE: variant.dfy ===
/** The two dashboards every panel is drawn for: online availability and share of search. */
module DashboardVariant {
  datatype Variant = OLA | SoS
}

=== FILE: vendor_health.dfy ===
/**
 * The vendor health overview: one row per platform that has a name, some
 * metric columns cleared, and a gap column when exactly two platforms are shown.
 */
module VendorHealth {
  import opened Wrappers
  import opened RealSeqs
  import opened DashboardVariant
  import opened JsStrings
  import opened Aggregation
  import opened ExecutionDiagnostics

  /** The columns a variant clears on every row: they are not part of its query. */
  function ForcedNull(variant: Variant): (ks: seq<string>)
    ensures |ks| > 0
  {
    if variant == OLA then ["must_have_availability_pct", "sku_reliability_pct"] else ["elite_rank_share_pct"]
  }

  /** `{ ...r, key: null, ... }` for the variant's cleared columns. */
  function ClearColumns(variant: Variant, r: Row): (out: Row)
    ensures out.Keys == r.Keys + (set k | k in ForcedNull(variant))
    ensures forall k :: k in ForcedNull(variant) ==> out[k] == Null
    ensures forall k :: k in r && k !in ForcedNull(variant) ==> out[k] == r[k]
  {
    map k | k in r.Keys + (set n | n in ForcedNull(variant)) :: if k in ForcedNull(variant) then Null else r[k]
  }

  /** A row is kept when its `platform` is present and truthy. */
  predicate HasPlatform(r: Row)
  {
    PlatformKey in r && Truthy(r[PlatformKey])
  }

  /** `data.filter(r => r.platform).map(clear)`. */
  function PrepareRows(variant: Variant, data: seq<Row>): (rows: seq<Row>)
    ensures |rows| <= |data|
    ensures forall i :: 0 <= i < |rows| ==> HasPlatform(rows[i])
  {
    if data == [] then []
    else
      var rest := PrepareRows(variant, data[1..]);
      if HasPlatform(data[0]) then [ClearColumns(variant, data[0])] + rest else rest
  }

  /** The rows held after a load: a response with no data leaves the rows as they were. */
  function RowsAfterLoad(variant: Variant, data: Option<seq<Row>>, previous: seq<Row>): (rows: seq<Row>)
    ensures data.None? ==> rows == previous
    ensures data.Some? ==> |rows| <= |data.value| && forall i :: 0 <= i < |rows| ==> HasPlatform(rows[i])
  {
    match data
    case None => previous
    case Some(d) => PrepareRows(variant, d)
  }

  /**
   * The prepared rows are the rows with a platform, in their order, each with
   * the variant's columns cleared and every other column unchanged.
   */
  lemma {:induction false} PrepareRowsExactly(variant: Variant, data: seq<Row>, r: Row)
    ensures r in PrepareRows(variant, data) <==> exists i :: 0 <= i < |data| && HasPlatform(data[i]) && r == ClearColumns(variant, data[i])
  {
    if data != [] {
      PrepareRowsExactly(variant, data[1..], r);
      assert forall i :: 0 <= i < |data| - 1 ==> data[1..][i] == data[i + 1];
      if exists i :: 0 <= i < |data| && HasPlatform(data[i]) && r == ClearColumns(variant, data[i]) {
        var i :| 0 <= i < |data| && HasPlatform(data[i]) && r == ClearColumns(variant, data[i]);
        if i > 0 {
          assert data[1..][i - 1] == data[i];
        }
      }
    }
  }

  /** When every row has a platform, nothing is dropped and the order is kept. */
  lemma {:induction false} PrepareRowsAllNamed(variant: Variant, data: seq<Row>)
    requires forall i :: 0 <= i < |data| ==> HasPlatform(data[i])
    ensures |PrepareRows(variant, data)| == |data|
    ensures forall i :: 0 <= i < |data| ==> PrepareRows(variant, data)[i] == ClearColumns(variant, data[i])
  {
    if data != [] {
      var tail := data[1..];
      assert forall i :: 0 <= i < |tail| ==> HasPlatform(tail[i]);
      PrepareRowsAllNamed(variant, tail);
      var r := PrepareRows(variant, data);
      assert r == [ClearColumns(variant, data[0])] + PrepareRows(variant, tail);
      forall i | 0 <= i < |data| ensures r[i] == ClearColumns(variant, data[i]) {
        if i > 0 {
          assert tail[i - 1] == data[i];
        }
      }
    }
  }

  // ---------------------------------------------------------------------------
  // Metrics and the gap column
  // ---------------------------------------------------------------------------

  /** How a metric formats its values: a plain count, or a fraction shown as a percentage. */
  datatype Format = Count | Percent

  /** `metric.format(0.5)`. */
  function FormatHalf(f: Format): string
  {
    match f
    case Count => "0.5"
    case Percent => "50.0%"
  }

  /** One `MetricDef`; `getValue` reads column `key`. */
  datatype MetricDef = MetricDef(metric: string, key: string, format: Format)

  const OLAMetrics: seq<MetricDef> := [
    MetricDef("SKUs Tracked", "skus_tracked", Count),
    MetricDef("Availability %", "availability_pct", Percent),
    MetricDef("Must-Have Avail %", "must_have_availability_pct", Percent)
  ]

  const SoSMetrics: seq<MetricDef> := [
    MetricDef("Keywords Tracked", "keywords_tracked", Count),
    MetricDef("Top10 Presence %", "top10_presence_pct", Percent),
    MetricDef("Elite Share %", "elite_rank_share_pct", Percent)
  ]

  function Metrics(variant: Variant): (ms: seq<MetricDef>)
    ensures |ms| == 3
  {
    if variant == OLA then OLAMetrics else SoSMetrics
  }

  /** `metric.getValue(row)` compared `== null`: a missing column or a null reads as no value. */
  function ValueOf(m: MetricDef, r: Row): (v: Option<real>)
    ensures m.key !in r || r[m.key] == Null ==> v.None?
    ensures v.Some? ==> m.key in r && r[m.key] == Num(v.value)
  {
    if m.key in r && r[m.key].Num? then Some(r[m.key].n) else None
  }

  /** The gap threshold: 0.05 for a percentage metric, 50 for a count. */
  function Threshold(m: MetricDef): (t: real)
    ensures t == 0.05 || t == 50.0
  {
    if Includes(FormatHalf(m.format), "%") then 0.05 else 50.0
  }

  datatype Gap = Gap(value: real, status: Status)

  /** `computeGap`: none unless two rows both have the value; else the absolute difference and its colour. */
  function ComputeGap(rows: seq<Row>, m: MetricDef): (g: Option<Gap>)
    ensures g.None? <==> |rows| != 2 || ValueOf(m, rows[0]).None? || ValueOf(m, rows[1]).None?
    ensures g.Some? ==> && g.value.value >= 0.0
                        && (g.value.value == ValueOf(m, rows[0]).value - ValueOf(m, rows[1]).value
                            || g.value.value == ValueOf(m, rows[1]).value - ValueOf(m, rows[0]).value)
                        && g.value.status == GapStatus(g.value.value, Threshold(m))
  {
    if |rows| != 2 then None
    else
      match (ValueOf(m, rows[0]), ValueOf(m, rows[1]))
      case (Some(v0), Some(v1)) =>
        var gap := Abs(v0 - v1);
        Some(Gap(gap, GapStatus(gap, Threshold(m))))
      case _ => None
  }

  /** The gap does not depend on which platform comes first. */
  lemma GapSymmetric(a: Row, b: Row, m: MetricDef)
    ensures ComputeGap([a, b], m) == ComputeGap([b, a], m)
  {
  }

  /** Count metrics take the threshold 50, percentage metrics 0.05. */
  lemma ThresholdByFormat(m: MetricDef)
    ensures m.format == Count ==> Threshold(m) == 50.0
    ensures m.format == Percent ==> Threshold(m) == 0.05
  {
    IncludesChar(FormatHalf(m.format), '%');
    assert FormatHalf(Percent)[4] == '%';
  }

  /**
   * A column the variant clears never has a gap: the OLA must-have row and the
   * SoS elite-share row always show a dash in the gap column.
   */
  lemma ClearedMetricHasNoGap(variant: Variant, data: seq<Row>, m: MetricDef)
    requires m in Metrics(variant) && m.key in ForcedNull(variant)
    ensures ComputeGap(PrepareRows(variant, data), m).None?
  {
    var rows := PrepareRows(variant, data);
    if |rows| == 2 {
      PrepareRowsExactly(variant, data, rows[0]);
      var i :| 0 <= i < |data| && HasPlatform(data[i]) && rows[0] == ClearColumns(variant, data[i]);
      assert rows[0][m.key] == Null;
    }
  }

  /** Which metrics of each table are cleared: exactly the third one. */
  lemma ClearedMetrics(variant: Variant)
    ensures forall k :: 0 <= k < 3 ==> (Metrics(variant)[k].key in ForcedNull(variant) <==> k == 2)
  {
  }
}

=== FILE: wrappers.dfy ===
/** The nullable values of the dashboard: a `null` value is None. */
module Wrappers {

  datatype Option<+T> = None | Some(value: T) {

    /** The JavaScript `x ?? d`: the value when present, `d` when null or undefined. */
    function GetOr(default: T): T {
      match this
      case Some(v) => v
      case None => default
    }
  }

  /** `x ?? 0` on a nullable metric. */
  function Or0(v: Option<real>): real
  {
    v.GetOr(0.0)
  }
}
